=== FILE: README.md ===
# A verified model of the Stabilise engine core

This project models, in Dafny, the core of the Stabilise game engine
(WeenAFK/core, written in Java):

- **World storage.** Three parts:
  - the region store, which keeps regions in primary storage or in a cache of regions that are being loaded, generated, saved or borrowed by a thread;
  - the world's conversions between tile, slice and region coordinates;
  - a slice's tile and tile-entity grids.
- **Per-tick simulation helpers.** The particle pool, the particle emitter's thinning counter, and timed effects.
- **Infrastructure.** The event dispatcher and its listener buckets, the iterate-and-remove utility, the profiler's section stack, the application driver's fixed-timestep loop, the namespaced registry and the tile builder.
- **Data tags.** The byte-array box, the byte-array NBT tag, and the immutable view of a data compound.

Java's 32-bit `int` arithmetic is written out in `JavaInt`:

- wrap-around;
- `>>` as a floor division;
- `&` with a low-bit mask, as a remainder;
- `/` and `%` truncating toward zero.

The coordinate conversions are stated on these definitions, not on Dafny's
unbounded integers.

The region store is modelled as a state-transition system (`RegionStores`,
`RegionStoreOps`, `RegionStoreProps`):

- Each `synchronized` block of RegionStore.java is one step.
- Every pending call into the world loader or generator is a token that holds one mark on its cached region. Its completion callback is a later step.
- `Valid` is the store's invariant. It says four things:
  - every reachable region is in primary storage or the cache;
  - each cached region's mark count equals the number of tokens on it;
  - each region's prepared-neighbour count is the number of its neighbours in primary storage;
  - `numRegions` counts primary storage.
- `Next` applies any enabled step, and every step keeps `Valid`.
- `RegionStorePermits` states the permit discipline. A load, generation or save starts on a region only in the step that claims that region's unclaimed permit for it, and no permit is ever given back. So in every reachable store, each pending load, generation or save runs under a claimed permit.
- `RegionStoreLingering` gives a schedule after which no work is pending, yet the cache still holds an entry with no mark on it. `isLoaded` is then false, so the cache can be non-empty while nothing is left to do.

## Model

| member | source | states |
|---|---|---|
| WorldCoords.RegionCoordFromTileCoord | core/src/com/stabilise/world/World.java:313-315 | the region coordinate is the floor of the tile coordinate over the region's width in tiles: that many whole regions start at or before the tile |
| WorldCoords.RegionCoordFromSliceCoord | core/src/com/stabilise/world/World.java:342-344 | the region holding a slice is the floor of the slice coordinate over the region size |
| WorldCoords.SliceCoordFromTileCoord | core/src/com/stabilise/world/World.java:356-358 | the slice holding a tile is the floor of the tile coordinate over 16 |
| WorldCoords.SliceCoordFromRegionCoord | core/src/com/stabilise/world/World.java:387-389 | a region's first slice is the region coordinate times the region size, when the product fits in an int |
| WorldCoords.SliceCoordRelativeToRegionFromTileCoord | core/src/com/stabilise/world/World.java:402-407 | the slice offset within its region lies in [0, region size) |
| WorldCoords.SliceCoordRelativeToRegionFromSliceCoord | core/src/com/stabilise/world/World.java:421-426 | the slice offset within its region lies in [0, region size) and differs from the slice coordinate by whole regions, negative coordinates included |
| WorldCoords.TileCoordFromSliceCoord | core/src/com/stabilise/world/World.java:442-444 | a slice's first tile is the slice coordinate times 16, when the product fits in an int |
| WorldCoords.TileCoordFromRegionCoord | core/src/com/stabilise/world/World.java:456-458 | a region's first tile is the region coordinate times its width in tiles, when the product fits in an int |
| WorldCoords.TileCoordRelativeToSliceFromTileCoord | core/src/com/stabilise/world/World.java:472-477 | the tile offset within its slice lies in [0, 15] and differs from the tile coordinate by whole slices |
| WorldCoords.TileCoordRelativeToRegionFromTileCoord | core/src/com/stabilise/world/World.java:491-496 | the tile offset within its region lies in [0, region width) and differs from the tile coordinate by whole regions |
| WorldCoords.SliceDecomposition | core/src/com/stabilise/world/World.java:356-358 | for every int tile coordinate, adding the slice's first tile to the offset within the slice gives the coordinate back, in 32-bit arithmetic |
| WorldCoords.RegionTileDecomposition | core/src/com/stabilise/world/World.java:313-315 | adding a region's first tile to a tile's offset within that region gives the tile coordinate back |
| WorldCoords.RegionSliceDecomposition | core/src/com/stabilise/world/World.java:342-344 | adding a region's first slice to a slice's offset within that region gives the slice coordinate back |
| WorldCoords.RelativeSliceFromRelativeTile | core/src/com/stabilise/world/World.java:402-407 | the slice offset within a region is the slice of the tile offset within the region: both routes agree |
| WorldCoords.ShrIsFloor | core/src/com/stabilise/world/World.java:313-315 | an arithmetic right shift by k brackets its argument between consecutive multiples of 2^k |
| Slices.NewSlice | src/com/stabilise/world/Slice.java:64-71 | a new slice has a valid shape and no tile entities, and its tile-entity counter matches the empty grid |
| Slices.GetTileAt | src/com/stabilise/world/Slice.java:85-88 | a null tile grid throws NullPointerException; a position outside the 16x16 slice throws IndexOutOfBounds; otherwise the id at row y, column x |
| Slices.SetTileAt | src/com/stabilise/world/Slice.java:101-104 | the same failures as reading; on success exactly one cell changes, the changes are flagged unsaved, and the tile entities are untouched |
| Slices.SetThenGetTile | src/com/stabilise/world/Slice.java:85-104 | reading back a written position yields the written id; every other position reads as before |
| Slices.GetTileEntityAt | src/com/stabilise/world/Slice.java:119-121 | succeeds exactly inside the slice and returns the stored entity or none |
| Slices.SetTileEntityAt | src/com/stabilise/world/Slice.java:137-148 | the code as written: an occupied cell is always cleared, and the counter drops only when clearing to null; an empty cell takes a new entity and the counter rises; no other cell changes |
| Slices.ReplaceBreaksCount | src/com/stabilise/world/Slice.java:137-148 | replacing an existing tile entity leaves the counter disagreeing with the number of occupied cells (see Findings) |
| Slices.SetTileEntityAtFixed | src/com/stabilise/world/Slice.java:137-148 | the corrected setter stores the given entity (or none) in its cell and changes no other cell |
| Slices.FixedKeepsCount | src/com/stabilise/world/Slice.java:137-148 | after the corrected setter the counter still equals the number of occupied cells |
| Slices.GetTilesAsIntArray | src/com/stabilise/world/Slice.java:155-163 | a null grid throws NullPointerException; otherwise the row-major 256-entry flattening of the grid |
| Slices.SetTilesAsIntArray | src/com/stabilise/world/Slice.java:171-179 | the grid is replaced by the row-major unflattening of the array; an array shorter than 256 throws IndexOutOfBounds after filling the cells it reached |
| Slices.UnflattenFlatten | src/com/stabilise/world/Slice.java:155-179 | loading a flattened grid gives the grid back |
| Slices.FlattenUnflatten | src/com/stabilise/world/Slice.java:155-179 | flattening a loaded array gives back its first 256 entries |
| IntLists.NewIntList | core/src/com/stabilise/util/collect/IntList.java:35-38 | a negative initial length throws NegativeArraySizeException; otherwise an empty list with that capacity |
| IntLists.IsEmpty | core/src/com/stabilise/util/collect/IntList.java:54-56 | true exactly when the list holds no elements |
| IntLists.Grow | core/src/com/stabilise/util/collect/IntList.java:62-64 | a full array is copied into one of length 2*size+1; the contents are unchanged and room is made; when 2*size+1 overflows, NegativeArraySizeException |
| IntLists.Append | core/src/com/stabilise/util/collect/IntList.java:62-66 | add appends the element to the contents; it fails only when growing fails |
| IntLists.AddSorted | core/src/com/stabilise/util/collect/IntList.java:73-86 | the contents become the reference sorted insertion: after every element no greater than i |
| IntLists.InsertSortedSorted | core/src/com/stabilise/util/collect/IntList.java:73-86 | inserting into a sorted list keeps it sorted |
| IntLists.InsertSortedCounts | core/src/com/stabilise/util/collect/IntList.java:73-86 | sorted insertion adds exactly one copy of i and loses nothing |
| IntLists.Remove | core/src/com/stabilise/util/collect/IntList.java:114-125 | reports true exactly when i is present, and then deletes its first occurrence; otherwise the list is unchanged |
| IntLists.RemoveFirstSpec | core/src/com/stabilise/util/collect/IntList.java:114-125 | removing i takes exactly one copy of i from the multiset and shortens the list exactly when i was present |
| IntLists.RemoveUndoesInsertSorted | core/src/com/stabilise/util/collect/IntList.java:73-125 | on a sorted list, remove(i) after addSorted(i) restores the contents |
| IntLists.Set | core/src/com/stabilise/util/collect/IntList.java:94-96 | succeeds exactly for an index inside the backing array; afterwards get(index) is i and every other slot reads as before |
| IntLists.Get | core/src/com/stabilise/util/collect/IntList.java:104-106 | succeeds exactly for an index inside the backing array, even beyond size; below size it is the list's element |
| IntLists.Clear | core/src/com/stabilise/util/collect/IntList.java:130-132 | the list becomes empty while every backing slot still reads as before |
| IntLists.Drain | core/src/com/stabilise/util/collect/IntList.java:143-160 | the action sees exactly the contents in order; clear(action) then empties the list, and interate leaves it unchanged |
| ParticlePools.NewPool | src/com/stabilise/entity/particle/ParticlePool.java:49-54 | an unregistered particle class (id -1) throws IllegalStateException; otherwise an empty 16-slot pool |
| ParticlePools.Get | src/com/stabilise/entity/particle/ParticlePool.java:60-69 | a fresh particle is created exactly when the pool is empty; otherwise the most recently pooled particle is taken; the active count rises by one |
| ParticlePools.Put | src/com/stabilise/entity/particle/ParticlePool.java:76-83 | a full pool drops the particle; otherwise it is pushed on top |
| ParticlePools.Reclaim | src/com/stabilise/entity/particle/ParticlePool.java:90-97 | the active count falls by one; the array doubles when the load passed its threshold below the maximum; the particle is pooled unless the pool is full, in which case the pooled particles are unchanged |
| ParticlePools.Flush | src/com/stabilise/entity/particle/ParticlePool.java:105-122 | at most 8 pooled particles are kept, from the bottom of the stack; a lightly loaded array halves |
| ParticlePools.PutThenGet | src/com/stabilise/entity/particle/ParticlePool.java:60-83 | a particle put into a pool with room is the next one get hands out (LIFO) |
| ParticlePools.ReclaimThenGet | src/com/stabilise/entity/particle/ParticlePool.java:60-97 | a reclaimed particle is the next one handed out, and the pool returns to its previous contents |
| ParticleEmitters.NewEmitter | core/src/com/stabilise/entity/particle/manager/ParticleEmitter.java:65 | the counter starts one short of the reduction factor, so the first attempt succeeds |
| ParticleEmitters.CanMake | core/src/com/stabilise/entity/particle/manager/ParticleEmitter.java:68-74 | succeeds exactly when the incremented counter reaches the factor, then resets it; for a counter in range, it advances modulo the factor |
| ParticleEmitters.CanMakePeriodic | core/src/com/stabilise/entity/particle/manager/ParticleEmitter.java:68-74 | over any run of attempts, attempt k succeeds exactly when count + k + 1 is a multiple of the factor |
| ParticleEmitters.FreshEmitterPeriod | core/src/com/stabilise/entity/particle/manager/ParticleEmitter.java:65-74 | a new emitter makes exactly every rf-th particle, starting with the first |
| ParticleEmitters.AdjustCount | core/src/com/stabilise/entity/particle/manager/ParticleEmitter.java:76-86 | a zero reduction factor throws ArithmeticException |
| ParticleEmitters.AdjustCountConserves | core/src/com/stabilise/entity/particle/manager/ParticleEmitter.java:76-86 | particles granted times rf plus the new remainder equals the requested count plus the old remainder: nothing is lost or invented |
| ParticleEmitters.AdjustCountBounds | core/src/com/stabilise/entity/particle/manager/ParticleEmitter.java:76-86 | the new remainder stays in [0, rf), and the grant is base/rf or one more |
| Effects.NewEffect | src/com/stabilise/entity/component/effect/Effect.java:21-26 | a duration below 1 throws IllegalArgumentException; otherwise the effect starts at age 0 |
| Effects.Remove | src/com/stabilise/entity/component/effect/Effect.java:29-31 | each call ages the effect by one tick and asks for removal once the age reaches the duration |
| Effects.ExpiresAfterDuration | src/com/stabilise/entity/component/effect/Effect.java:13-31 | a new effect of duration d asks for removal first on its d-th update and never before |
| IteratorUtils.RemoveWhere | src/com/stabilise/util/collect/IteratorUtils.java:35-40 | what remains holds only rejected elements of the input and holds every rejected element |
| IteratorUtils.RemoveWhereAppend | src/com/stabilise/util/collect/IteratorUtils.java:35-40 | removal distributes over concatenation, so surviving elements keep their order |
| IteratorUtils.RemoveWherePartition | src/com/stabilise/util/collect/IteratorUtils.java:35-40 | kept and removed elements together are a permutation of the input |
| IteratorUtils.ForEach | src/com/stabilise/util/collect/IteratorUtils.java:24-40 | the predicate is applied to every element in order, and the collection ends as the reference removal |
| IteratorUtils.NullsFiltered | src/com/stabilise/util/collect/IteratorUtils.java:46-56 | yields only values present in the input and every non-null one |
| IteratorUtils.NullsFilteredIsRemoval | src/com/stabilise/util/collect/IteratorUtils.java:46-56 | null filtering is the removal of nulls, element by element |
| EventDispatchers.AddListener | src/com/stabilise/util/concurrent/event/EventDispatcher.java:92-111 | the listener joins the end of its event's bucket, which is created if absent; single-use listeners get one use and persistent ones -1; other buckets are unchanged |
| EventDispatchers.RemoveListener | src/com/stabilise/util/concurrent/event/EventDispatcher.java:133-144 | the first listener with the handler is removed from the event's bucket, and a bucket left empty is dropped; other events are untouched |
| EventDispatchers.RemoveFirstForShape | src/com/stabilise/util/concurrent/event/EventDispatcher.java:304-306 | removal deletes exactly the first matching listener: the ones before stay in place and the ones after move up by one |
| EventDispatchers.RemoveFirstForCount | src/com/stabilise/util/concurrent/event/EventDispatcher.java:304-306 | removal takes exactly the first matching listener, as a multiset |
| EventDispatchers.PostBucket | src/com/stabilise/util/concurrent/event/EventDispatcher.java:314-319 | every listener of the bucket, in order, is handed to the executor with the event; those whose uses reach zero are removed |
| EventDispatchers.PostKeepsPersistent | src/com/stabilise/util/concurrent/event/EventDispatcher.java:314-319 | on a well-formed bucket, posting removes exactly the single-use listeners and decrements the persistent ones |
| EventDispatchers.PersistentNeverRemoved | src/com/stabilise/util/concurrent/event/EventDispatcher.java:216-233 | persistent listeners survive any number of posts with their handlers in order |
| EventDispatchers.DoPost | src/com/stabilise/util/concurrent/event/EventDispatcher.java:159-167 | an event with no bucket throws NullPointerException; otherwise its listeners are dispatched, a surviving bucket holds exactly the posted bucket's remaining listeners, the bucket is dropped when it empties, and other events are untouched |
| EventDispatchers.DoPostKeepsPersistent | src/com/stabilise/util/concurrent/event/EventDispatcher.java:159-167 | on a well-formed listener map, one doPost leaves the event only its persistent listeners, in order and with one use fewer, and drops the bucket exactly when it had none |
| EventDispatchers.UnlistenedPostThrows | src/com/stabilise/util/concurrent/event/EventDispatcher.java:159-167 | as written, posting an event with no listeners throws NullPointerException, while the corrected doPost changes nothing and dispatches nothing (see Findings) |
| EventDispatchers.DoPostFixed | src/com/stabilise/util/concurrent/event/EventDispatcher.java:159-167 | the corrected doPost never fails: an event with no bucket leaves the listeners as they are, and any other is posted as by doPost |
| EventDispatchers.ClearAll | src/com/stabilise/util/concurrent/event/EventDispatcher.java:172-174 | no buckets remain |
| EventDispatchers.ClearWhere | src/com/stabilise/util/concurrent/event/EventDispatcher.java:183-191 | every bucket loses exactly the listeners the predicate accepts, empty buckets are dropped, and no surviving listener satisfies it |
| Profilers.NewProfiler | src/com/stabilise/util/Profiler.java:88-99 | the code as written: an enabled profiler starts with the root on its stack; a disabled one starts with an empty stack |
| Profilers.DisabledConstructorStackEmpty | src/com/stabilise/util/Profiler.java:272-299 | a disabled new profiler reports stack level 0 and an empty stack name, though both getters promise 1 and the root name (see Findings) |
| Profilers.NewProfilerFixed | src/com/stabilise/util/Profiler.java:88-99 | the corrected constructor puts the root on the stack whether or not the profiler is enabled |
| Profilers.FixedConstructorStack | src/com/stabilise/util/Profiler.java:272-299 | the corrected disabled profiler reports level 1 and the root's name |
| Profilers.Start | src/com/stabilise/util/Profiler.java:117-139 | a disabled profiler ignores the call; otherwise the section is pushed as a child of the current one, reusing a child of the same name; an empty stack throws NoSuchElementException; sibling names stay distinct |
| Profilers.StartReuses | src/com/stabilise/util/Profiler.java:117-139 | starting the same section again after ending it re-enters the same section without growing the tree |
| Profilers.End | src/com/stabilise/util/Profiler.java:153-158 | pops the current section; popping the root throws IllegalStateException; an empty stack throws NoSuchElementException; disabled, nothing happens |
| Profilers.StartThenEnd | src/com/stabilise/util/Profiler.java:117-158 | end undoes start's effect on the stack |
| Profilers.NextReplacesTop | src/com/stabilise/util/Profiler.java:179-182 | next replaces the current section by a sibling of that name and leaves the rest of the stack |
| Profilers.Flush | src/com/stabilise/util/Profiler.java:193-203 | an enabled profiler becomes effectively enabled with a fresh root of the same name as the only stack entry; a disabled one is unchanged |
| Profilers.Enable | src/com/stabilise/util/Profiler.java:229-231 | sets the enabled flag without changing the effective state, the tree or the stack |
| Profilers.EnableWaitsForFlush | src/com/stabilise/util/Profiler.java:206-231 | after enable and before flush, start and end are still ignored; flush then switches profiling on |
| Profilers.Disable | src/com/stabilise/util/Profiler.java:236-245 | profiling stops; the stack becomes a fresh root named like the last root |
| Profilers.ResetsKeepRootName | src/com/stabilise/util/Profiler.java:193-245 | disable and flush keep the root's name, and the stack name becomes that name |
| Profilers.StackLevel | src/com/stabilise/util/Profiler.java:281-283 | zero exactly when the stack is empty |
| Profilers.GetStackName | src/com/stabilise/util/Profiler.java:290-299 | the stack's section names joined with periods |
| Profilers.JoinDots | src/com/stabilise/util/Profiler.java:290-299 | joining n dot-free names puts exactly n - 1 periods in the stack name |
| AppDrivers.NewDriver | core/src/com/stabilise/util/AppDriver.java:82-94 | a tps below 1 throws IllegalArgumentException, and both runnables absent throws NullPointerException; nsPerTick is the truncated quotient of a second by tps, and max fps and ticks per flush start at tps |
| AppDrivers.HugeTpsHangs | core/src/com/stabilise/util/AppDriver.java:82-84 | a tps above 10^9 is accepted and leaves nsPerTick at 0 (see Findings) |
| AppDrivers.NewDriverFixed | core/src/com/stabilise/util/AppDriver.java:82-94 | the corrected constructor accepts exactly the tps values that leave a positive nsPerTick |
| AppDrivers.SetMaxFps | core/src/com/stabilise/util/AppDriver.java:271-275 | fps below -1 is rejected; otherwise nsPerFrame is a second over fps (0 for unlimited, -10^9 for -1) |
| AppDrivers.SetDelaySkip | core/src/com/stabilise/util/AppDriver.java:299-309 | accepted exactly for a non-negative time above nsPerTick |
| AppDrivers.SetTicksPerProfilerFlush | core/src/com/stabilise/util/AppDriver.java:317-320 | accepted exactly for a value of at least 1 |
| AppDrivers.Clamp | core/src/com/stabilise/util/AppDriver.java:162-174 | a backlog past delaySkip collapses to one tick, a negative one to zero, and any other is kept |
| AppDrivers.CatchUp | core/src/com/stabilise/util/AppDriver.java:180-184 | runs exactly backlog / nsPerTick updates and leaves a backlog below one tick |
| AppDrivers.SleepMillis | core/src/com/stabilise/util/AppDriver.java:215-220 | the sleep is the whole milliseconds left of the frame after the elapsed time, and 0 when the frame is used up |
| AppDrivers.Tick | core/src/com/stabilise/util/AppDriver.java:154-220 | the code as written: a tick in progress throws IllegalStateException; with nsPerTick 0, a backlog past delaySkip throws ArithmeticException from the warning's `unprocessed / nsPerTick`, and any other backlog loops forever; otherwise it runs the clamped backlog's worth of updates, renders unless max fps is -1, and sleeps for the time left since the previous tick's start |
| AppDrivers.StaleSleepExample | core/src/com/stabilise/util/AppDriver.java:215-220 | a 60 fps frame that took 1 ms sleeps 0 ms, because the time is measured from the previous tick's start (see Findings) |
| AppDrivers.TickFixed | core/src/com/stabilise/util/AppDriver.java:154-220 | the corrected tick keeps the same failures (IllegalStateException, and for nsPerTick 0 ArithmeticException or a hang) and sleeps for the whole milliseconds left of the frame measured from this tick's start |
| AppDrivers.HugeTpsBacklogThrows | core/src/com/stabilise/util/AppDriver.java:160-169 | a driver built with tps above 10^9, its delaySkip set to 1 ns, throws ArithmeticException on a first tick with a 2 ns backlog |
| RegistriesNamespaced.NewRegistry | src/com/stabilise/util/collect/RegistryNamespaced.java:81-94 | a negative capacity, a null namespace or a namespace containing ':' is rejected; the stored namespace carries a trailing colon |
| RegistriesNamespaced.EnsureNamespaced | src/com/stabilise/util/collect/RegistryNamespaced.java:216-218 | a name without a colon moves into the default namespace; a namespaced name is kept |
| RegistriesNamespaced.EnsureNamespacedIdempotent | src/com/stabilise/util/collect/RegistryNamespaced.java:216-218 | namespacing twice is namespacing once |
| RegistriesNamespaced.Get | src/com/stabilise/util/collect/RegistryNamespaced.java:138-141 | looks the name up after namespacing it |
| RegistriesNamespaced.ContainsKey | src/com/stabilise/util/collect/RegistryNamespaced.java:178-181 | agrees with get by name |
| RegistriesNamespaced.ShortAndFullNamesAgree | src/com/stabilise/util/collect/RegistryNamespaced.java:138-181 | a bare name and its default-namespaced form find the same object |
| RegistriesNamespaced.GetById | src/com/stabilise/util/collect/RegistryNamespaced.java:151-153 | a negative id is out of bounds; otherwise the object registered under the id, if any |
| RegistriesNamespaced.ContainsId | src/com/stabilise/util/collect/RegistryNamespaced.java:192-194 | agrees with get by id |
| RegistriesNamespaced.Register | src/com/stabilise/util/collect/RegistryNamespaced.java:117-124 | an object registered under a free id and a free name becomes reachable by both; a taken id under the reject policy changes nothing and reports false |
| RegistriesNamespaced.RegisterByName | src/com/stabilise/util/collect/RegistryNamespaced.java:131-136 | registering by name alone always throws UnsupportedOperationException |
| TileBuilders.TemplateSettings | src/com/stabilise/world/tile/TileBuilder.java:28-90 | only air, water and lava are not solid; light is within 0..15 and falloff within 1..2 |
| TileBuilders.NewBuilder | src/com/stabilise/world/tile/TileBuilder.java:92-108 | a new builder has no template and counts as already registered |
| TileBuilders.Begin | src/com/stabilise/world/tile/TileBuilder.java:119-138 | a negative id throws before anything happens; otherwise the pending tile is finished first, a null template or name throws NullPointerException, and the settings are copied from the template |
| TileBuilders.End | src/com/stabilise/world/tile/TileBuilder.java:144-147 | registers the pending tile, if any, with its template's factory; otherwise nothing changes |
| TileBuilders.BeginThenEnd | src/com/stabilise/world/tile/TileBuilder.java:119-147 | begin then end registers exactly one tile with the given id, name and the template's settings |
| TileBuilders.RegisterWith | src/com/stabilise/world/tile/TileBuilder.java:195-200 | registering twice throws IllegalStateException; otherwise the tile built from the current settings is added |
| TileBuilders.RegisterOnce | src/com/stabilise/world/tile/TileBuilder.java:195-200 | a second registration without a new begin fails |
| TileBuilders.SetterReachesTile | src/com/stabilise/world/tile/TileBuilder.java:149-172 | a setter's value ends up in the registered tile while the other settings keep the template's values |
| I8ArrBoxes.NewBox | core/src/com/stabilise/util/box/I8ArrBox.java:20-32 | a new box holds the empty array |
| I8ArrBoxes.NewBoxOf | core/src/com/stabilise/util/box/I8ArrBox.java:37-39 | a null array throws NullPointerException; otherwise the box holds it |
| I8ArrBoxes.Set | core/src/com/stabilise/util/box/I8ArrBox.java:43 | set behaves as constructing a box of the array |
| I8ArrBoxes.WriteData | core/src/com/stabilise/util/box/I8ArrBox.java:52-55 | the output is the length as a big-endian 4-byte int followed by the bytes |
| I8ArrBoxes.ReadData | core/src/com/stabilise/util/box/I8ArrBox.java:46-49 | a successful read consumes exactly one writeData encoding; short input throws EOFException, and a negative length throws NegativeArraySizeException and keeps the box |
| I8ArrBoxes.ReadWriteRoundTrip | core/src/com/stabilise/util/box/I8ArrBox.java:46-55 | reading back what writeData wrote restores the box and leaves the following bytes unread |
| I8ArrBoxes.ReadTruncated | core/src/com/stabilise/util/box/I8ArrBox.java:46-55 | any proper prefix of an encoding fails with EOFException |
| I8ArrBoxes.ToString | core/src/com/stabilise/util/box/I8ArrBox.java:78-80 | "[n byte]" for one byte and "[n bytes]" otherwise, with n in decimal |
| I8ArrBoxes.ToStringCount | core/src/com/stabilise/util/box/I8ArrBox.java:78-80 | the digits in the text read back as the array's length |
| I8ArrBoxes.ConvertToSameType | core/src/com/stabilise/util/box/I8ArrBox.java:86-90 | another byte-array tag is returned as is; anything else throws IllegalStateException |
| I8ArrBoxes.IsAgreesWithGetAs | core/src/com/stabilise/util/box/I8ArrBox.java:92-100 | each isX query answers true exactly when the matching getAsX succeeds; only the string view does |
| I8ArrBoxes.GetAs | core/src/com/stabilise/util/box/I8ArrBox.java:97-100 | the boolean, long and double views throw IllegalStateException; the string view is the bracketed array text, "[]" exactly when empty |
| NbtByteArrays.NewWithData | src/com/stabilise/util/nbt/NBTTagByteArray.java:21-43 | the constructors set the name and the payload, which stays null unless given |
| NbtByteArrays.Write | src/com/stabilise/util/nbt/NBTTagByteArray.java:46-49 | a null payload throws NullPointerException; otherwise the big-endian length and then the bytes |
| NbtByteArrays.Load | src/com/stabilise/util/nbt/NBTTagByteArray.java:52-55 | keeps the name; a successful load consumes exactly one encoding of the new payload |
| NbtByteArrays.LoadWriteRoundTrip | src/com/stabilise/util/nbt/NBTTagByteArray.java:46-55 | loading what write produced restores the payload and leaves the following bytes unread |
| NbtByteArrays.LoadTruncated | src/com/stabilise/util/nbt/NBTTagByteArray.java:46-55 | any proper prefix of an encoding fails with EOFException |
| NbtByteArrays.GetId | src/com/stabilise/util/nbt/NBTTagByteArray.java:58-60 | the tag id is a valid NBT type id |
| NbtByteArrays.Copy | src/com/stabilise/util/nbt/NBTTagByteArray.java:63-65 | the copy has the same name, payload and id |
| NbtByteArrays.ToString | src/com/stabilise/util/nbt/NBTTagByteArray.java:68-70 | "[n bytes]" with n in decimal; a null payload throws |
| NbtByteArrays.ToStringCount | src/com/stabilise/util/nbt/NBTTagByteArray.java:68-70 | the digits in the text read back as the payload's length |
| ByteArrays.DecodeEncode | core/src/com/stabilise/util/box/I8ArrBox.java:46-55 | the shared length-prefixed codec round-trips for every array shorter than 2^31, whatever follows it |
| ByteArrays.Decode | src/com/stabilise/util/nbt/NBTTagByteArray.java:52-55 | success consumes exactly an encoding; a negative length prefix is exactly the NegativeArraySizeException case |
| ImmutableCompounds.Wrap | core/src/com/stabilise/util/io/data/ImmutableCompound.java:38-42 | an immutable compound is returned as is; another is wrapped; both read the same entries |
| ImmutableCompounds.WrapIdempotent | core/src/com/stabilise/util/io/data/ImmutableCompound.java:38-42 | wrapping twice is wrapping once |
| ImmutableCompounds.NewImmutable | core/src/com/stabilise/util/io/data/ImmutableCompound.java:53-55 | a null compound throws NullPointerException |
| ImmutableCompounds.ImmutableRead | core/src/com/stabilise/util/io/data/ImmutableCompound.java:60-89 | every read into the view throws UnsupportedOperationException |
| ImmutableCompounds.Convert | core/src/com/stabilise/util/io/data/ImmutableCompound.java:101-107 | for any view, nested ones included, the result is a view of the underlying entries in the asked-for format; it is the same view exactly when the format already matches |
| ImmutableCompounds.ConvertIdempotent | core/src/com/stabilise/util/io/data/ImmutableCompound.java:101-107 | converting a view twice to one format gives the same as converting it once |
| ImmutableCompounds.Contains | core/src/com/stabilise/util/io/data/ImmutableCompound.java:109-112 | answers for the underlying compound |
| ImmutableCompounds.ImmutableCreate | core/src/com/stabilise/util/io/data/ImmutableCompound.java:114-122 | creating a child compound or list throws UnsupportedOperationException |
| ImmutableCompounds.Put | core/src/com/stabilise/util/io/data/ImmutableCompound.java:124-138 | the code as written: every put returns normally and changes nothing |
| ImmutableCompounds.PutSilentlyDropped | core/src/com/stabilise/util/io/data/ImmutableCompound.java:124-138 | a put of a new name returns normally and the name is still absent (see Findings) |
| ImmutableCompounds.PutFixed | core/src/com/stabilise/util/io/data/ImmutableCompound.java:124-138 | the corrected put throws UnsupportedOperationException |
| ImmutableCompounds.PutsLeaveContents | core/src/com/stabilise/util/io/data/ImmutableCompound.java:124-138 | no put, as written or corrected, changes any read of the view |
| ImmutableCompounds.Get | core/src/com/stabilise/util/io/data/ImmutableCompound.java:140-154 | a get returns a value of the asked-for kind; through the view, child compounds and lists come back wrapped |
| ImmutableCompounds.Opt | core/src/com/stabilise/util/io/data/ImmutableCompound.java:156-174 | present exactly when the entry exists with the asked-for kind; through the view, the answer is the underlying one mapped through the wrapper |
| ImmutableCompounds.ReadsDelegate | core/src/com/stabilise/util/io/data/ImmutableCompound.java:140-174 | every getter and optional getter of the view is the underlying compound's answer, with compounds and lists wrapped |
| ImmutableCompounds.ScalarsPassThrough | core/src/com/stabilise/util/io/data/ImmutableCompound.java:142-154 | a stored scalar reads through the view unchanged |
| ImmutableCompounds.ChildCompoundsWrapped | core/src/com/stabilise/util/io/data/ImmutableCompound.java:140 | a child compound read through the view is itself immutable |
| ImmutableCompounds.Copy | core/src/com/stabilise/util/io/data/ImmutableCompound.java:181-184 | a copy is a plain compound in the asked-for format with the view's entries |
| ImmutableCompounds.CopyIsWritable | core/src/com/stabilise/util/io/data/ImmutableCompound.java:181-184 | a put on the copy of a view takes effect |
| RegionNeighbours.NeighboursExact | core/src/com/stabilise/world/RegionStore.java:503-513 | the nested loops visit exactly the 8 adjacent regions, each once, never the centre |
| RegionStores.AddToken | core/src/com/stabilise/world/RegionStore.java:909-911 | mark adds one to the region's count, matched by one new token, and keeps the invariant |
| RegionStores.TakeToken | core/src/com/stabilise/world/RegionStore.java:917-919 | unmark subtracts one and reports reaching zero, which happens exactly when no work still holds the region |
| RegionStores.AddPrimary | core/src/com/stabilise/world/RegionStore.java:492-516 | entering primary storage updates the prepared-neighbour counts of the region and of every adjacent primary region, so they count primary neighbours again |
| RegionStores.RemoveFromPrimary | core/src/com/stabilise/world/RegionStore.java:525-551 | leaving primary storage undoes those counts; the region object stays only if it is cached; the invariant holds |
| RegionStores.NotifyEffect | core/src/com/stabilise/world/RegionStore.java:503-513 | the neighbour loop changes each region's prepared count by one for every adjacent primary region it touches, and nothing else |
| RegionStoreOps.LoadRegion | core/src/com/stabilise/world/RegionStore.java:249-292 | a primary region is returned unchanged; otherwise the region is cached with its prepare flag set, and one prepare call is queued only when the flag was not yet set |
| RegionStoreOps.PrepareRegion | core/src/com/stabilise/world/RegionStore.java:301-314 | takes the load permit first, else the generation permit when asked to generate, else drops the mark as finishGeneric does |
| RegionStoreOps.FinishLoad | core/src/com/stabilise/world/RegionStore.java:321-377 | a region bound for primary storage goes on to generation when the permit is free, else it moves to primary once unmarked; otherwise the last mark turns into a save |
| RegionStoreOps.FinishGenerate | core/src/com/stabilise/world/RegionStore.java:383-410 | the generation token goes and primary storage and the cached regions stay; a save is queued exactly when this was the last mark and the save permit is free |
| RegionStoreOps.FinishSave | core/src/com/stabilise/world/RegionStore.java:416-440 | on the last mark the region leaves the cache, into primary storage when it is bound there and prepared |
| RegionStoreOps.FinishGeneric | core/src/com/stabilise/world/RegionStore.java:449-474 | the mark is dropped; on the last one a primary region leaves the cache and any other region starts its save |
| RegionStoreOps.StartSave | core/src/com/stabilise/world/RegionStore.java:359-364 | the last mark turns into a save when the save permit is free; otherwise a failed assertion is logged |
| RegionStoreOps.MoveToPrimary | core/src/com/stabilise/world/RegionStore.java:481-517 | the region leaves the cache for primary storage and numRegions follows; an unprepared region logs a failed assertion, and one already primary logs a warning and is not counted again |
| RegionStoreOps.AnchorRegion | core/src/com/stabilise/world/RegionStore.java:614-626 | the region is loaded and its anchor count rises; on its first anchor all 8 neighbours are loaded and their anchored-neighbour counts rise by one |
| RegionStoreOps.AnchorNeighbours | core/src/com/stabilise/world/RegionStore.java:619-624 | each listed neighbour is loaded and its anchored-neighbour count rises by exactly one |
| RegionStoreOps.DeAnchorRegion | core/src/com/stabilise/world/RegionStore.java:638-656 | a region that cannot be found throws NullPointerException; otherwise its anchor count falls, and on the last anchor each neighbour's anchored count falls by one |
| RegionStoreOps.DeAnchorNeighbours | core/src/com/stabilise/world/RegionStore.java:649-654 | every listed neighbour's anchored count falls by one; a missing neighbour throws NullPointerException |
| RegionStoreOps.Cache | core/src/com/stabilise/world/RegionStore.java:677-728 | a region this thread already cached is returned with no change; otherwise it gains this thread's mark, and a region not yet known also gets a load mark and a queued prepare call |
| RegionStoreOps.UncacheAll | core/src/com/stabilise/world/RegionStore.java:736-740 | afterwards the thread holds no cached region |
| RegionStoreOps.UncacheStep | core/src/com/stabilise/world/RegionStore.java:736-740 | each release drops exactly one of the thread's holds and none of another thread's |
| RegionStoreOps.SaveRegion | core/src/com/stabilise/world/RegionStore.java:750-782 | the region leaves primary storage when asked; with the save permit it is cached and marked and a save is queued; without it nothing else happens |
| RegionStoreOps.UpdateOne | core/src/com/stabilise/world/RegionStore.java:569-590 | a region is unloaded exactly when it is primary, inactive, unanchored, without anchored neighbours, and its countdown ends; other regions are untouched |
| RegionStoreOps.Update | core/src/com/stabilise/world/RegionStore.java:568-591 | only regions that met the unload conditions leave primary storage, and no anchored region is disturbed |
| RegionStoreOps.SaveAll | core/src/com/stabilise/world/RegionStore.java:787-789 | saving every region keeps primary storage and the invariant |
| RegionStoreOps.IsLoaded | core/src/com/stabilise/world/RegionStore.java:795-799 | true exactly when the cache is empty; then no work is pending and every reachable region is primary |
| RegionStoreProps.Next | core/src/com/stabilise/world/RegionStore.java:249-799 | every step, entry point or callback, keeps the store's invariant |
| RegionStoreProps.Run | core/src/com/stabilise/world/RegionStore.java:249-799 | every store reachable from the empty store by enabled steps satisfies the invariant |
| RegionStoreProps.CallbackMarks | core/src/com/stabilise/world/RegionStore.java:301-474 | a worker callback changes the marks of its own region only, by at most one downward |
| RegionStoreProps.CallbackUncaches | core/src/com/stabilise/world/RegionStore.java:423-466 | a callback removes a region from the cache only when it held that region's last mark |
| RegionStoreProps.PrimaryEntry | core/src/com/stabilise/world/RegionStore.java:340-348 | a region enters primary storage only when a load or save finishes on its last mark and it was flagged for primary storage |
| RegionStoreProps.OthersKeepPrimary | core/src/com/stabilise/world/RegionStore.java:569-590 | no step other than a finished load or save adds to primary storage |
| RegionStoreProps.PreparedRange | core/src/com/stabilise/world/RegionStore.java:503-513 | a prepared-neighbour count lies in 0..8; it is 8 exactly when the region and all its neighbours are primary, and 0 exactly when the region is not primary or has no primary neighbour |
| RegionStoreProps.AnchorThenDeAnchor | core/src/com/stabilise/world/RegionStore.java:614-656 | de-anchoring right after anchoring succeeds and restores every anchor and anchored-neighbour count |
| RegionStoreProps.AnchoredOnce | core/src/com/stabilise/world/RegionStore.java:614-656 | after anchoring, the region is found, and it holds a single anchor exactly when this was its first one |
| RegionStoreProps.CacheRepeat | core/src/com/stabilise/world/RegionStore.java:679-683 | caching a region twice from the same thread is the same as caching it once |
| RegionStoreProps.UncacheAllOthers | core/src/com/stabilise/world/RegionStore.java:736-740 | uncaching one thread's regions leaves every other thread's holds intact |
| RegionStoreProps.UpdateUnloads | core/src/com/stabilise/world/RegionStore.java:575-588 | a primary region that meets every unload condition is unloaded by the update |
| RegionStorePermits.FinishGenericGated | core/src/com/stabilise/world/RegionStore.java:449-474 | finishGeneric starts at most one new save, and only under the region's newly claimed save permit; no permit is given back |
| RegionStorePermits.PrepareGated | core/src/com/stabilise/world/RegionStore.java:301-314 | prepareRegion starts a load or a generation only under that region's newly claimed permit, one at a time |
| RegionStorePermits.LoadDoneGated | core/src/com/stabilise/world/RegionStore.java:321-377 | finishLoad starts a generation or a save only under the region's newly claimed permit |
| RegionStorePermits.UnmarkThenSaveGated | core/src/com/stabilise/world/RegionStore.java:383-410 | finishGenerate starts a save only under the region's newly claimed save permit |
| RegionStorePermits.FinishSaveGated | core/src/com/stabilise/world/RegionStore.java:416-440 | finishSave adds load, generation or save work only under a newly claimed permit, and gives back no permit |
| RegionStorePermits.SaveRegionGated | core/src/com/stabilise/world/RegionStore.java:750-782 | saveRegion queues a save only under the region's newly claimed save permit |
| RegionStorePermits.UpdateGated | core/src/com/stabilise/world/RegionStore.java:568-591 | update queues at most one save per region, each under that region's newly claimed save permit |
| RegionStorePermits.SaveAllGated | core/src/com/stabilise/world/RegionStore.java:787-789 | saveAll queues at most one save per region, each under that region's newly claimed save permit |
| RegionStorePermits.UncacheAllGated | core/src/com/stabilise/world/RegionStore.java:736-740 | uncacheAll starts saves only under newly claimed save permits, at most one per region |
| RegionStorePermits.AnchorLicensed | core/src/com/stabilise/world/RegionStore.java:614-626 | anchorRegion, with its neighbours' loads, adds load, generation or save work only under a newly claimed permit, and gives back no permit |
| RegionStorePermits.CacheLicensed | core/src/com/stabilise/world/RegionStore.java:677-728 | cache adds load, generation or save work only under a newly claimed permit, and gives back no permit |
| RegionStorePermits.PermitGatesWork | core/src/com/stabilise/world/RegionStore.java:249-799 | any enabled step that adds load, generation or save work on a region had that permit unclaimed, claims it, and adds exactly one such piece of work; every permit claimed before stays claimed |
| RegionStorePermits.RunPermitted | core/src/com/stabilise/world/RegionStore.java:249-799 | in every store reachable from the empty store, each pending load, generation or save is on a known region whose matching permit is claimed |
| RegionStoreLingering.LingeringEntry | core/src/com/stabilise/world/RegionStore.java:455-466 | after load, generation, a save into primary storage, a thread's cache, an unload and the thread's release, no work is pending but the region's cache entry stays with no mark, because its save permit was already spent; so isLoaded is false |

## Left out

- Threads, locks and waiting: every synchronized block is one atomic step, and so are the operations named below that take several locks, so `waitUntilDone`, `notifyWaiters` and the lock striping are not modelled. A thread's local region map is its set of `Local` tokens.
- Region ids, logging, `toStringDebug` and the launch log: these are not modelled. The "already there" warning and `Checks.badAssert` are recorded as events and otherwise ignored.
- Region, RegionState, the world loader and the generator are not part of this model. RegionState is a record of counters and claim-once permits, and the questions it answers from hidden state (`isPrepared`, `isActive`, `tickDown`, `tryImport`) are inputs of the steps that ask them. Region contents, importing and structure implanting are left out.
- `handleFailure` always returns false, so a failed load, generation or save is treated like a success.
- `anchorRegion`, `uncacheAll`, `saveRegion`, `update` and `saveAll` each take several lock acquisitions in the source but are one step each here. `update` and `saveAll` run one `saveRegion` per region, so their lock blocks are not interleaved with other steps. The prepare call that `loadRegion` and `cache` start is a queued token rather than a direct call.
- RegionStoreOps.Update: the map's iteration order is a parameter `order` that is unconstrained: it may skip a region, repeat one or name one that is absent, while Java visits each region of `regions.values()` once. This over-approximates the source. A repeated or absent coordinate is a no-op, since UpdateOne acts only on a primary region. The iteration order is a parameter, and the update says only which regions may leave primary storage and that anchors are kept. The exact leaving set is given one region at a time by UpdateUnloads. The saves it queues are bounded by RegionStorePermits.UpdateGated, not listed.
- RegionStoreOps.SaveAll: `order` is unconstrained as for Update, which over-approximates the single pass over `regions.values()`; an absent coordinate is skipped, and a repeat finds the save permit claimed and does nothing. The contract states only that primary storage and the invariant are kept, not which saves are queued. RegionStorePermits.SaveAllGated bounds them: at most one per region, each under a newly claimed save permit.
- RegionNeighbours.Neighbours: region coordinates are unbounded integers. Java's `x - 1` and `x + 1` at RegionStore.java:503-513 wrap at Integer.MIN_VALUE and Integer.MAX_VALUE, and that wrap is not modelled. It cannot arise for a region obtained from an int tile coordinate by a positive shift, since such a coordinate lies strictly inside the int range.
- RegionStoreLingering: permits are claim-once, because RegionState is not part of this model. If the real RegionState hands the save permit out again after a save, the schedule's last release would save the region instead of leaving a bare cache entry.
- RegionStoreOps.MoveToPrimary: the order of the neighbour updates inside one step is not observable and is not stated.
- `getRegion`, `getRegionTryCache`, `forEach`, `numRegions` and `setUnloadHandler` are plain reads of the modelled maps. They appear only inside the operations that use them.
- WorldCoords.SliceCoordFromRegionCoord: the contract speaks only of products that fit in an int. The function wraps like Java on overflow, but its contract says nothing about that case. The same holds for WorldCoords.TileCoordFromSliceCoord and WorldCoords.TileCoordFromRegionCoord.
- The region size shift is a parameter of the coordinate model, because Region.java is not part of this model.
- `Slice.addContainedEntitiesToWorld` adds entities to the world, which is outside the model. `Tile.getTile` is represented by the tile id it would look up.
- ParticlePools: the particle's `reset` and the registry's `create` are side effects on particles and are not modelled. A particle is an opaque value.
- ParticleEmitters: `createAlways` and the particle positions are not modelled. Only the counters are.
- Effects.Remove: the contract states the aging only below Integer.MAX_VALUE; the wrap-around of `++age` past it is computed but not stated.
- EventDispatchers: the bucket is an unordered LightArrayList, which may reorder listeners on removal. The model keeps insertion order, so claims about order assume an order-preserving list.
- EventDispatchers: the executor is a log of the dispatches it was given. The handlers are not run. The event-to-lock map and concurrency level are not modelled.
- Profilers: timing, `verify` and the report data are left out. A null section name in `start`, which throws NullPointerException, is not modelled because names are never null here.
- Profilers.Next: the contract keeps only the invariant. Its effect is stated by NextReplacesTop for the case the source documents.
- AppDrivers: the clocks are parameters, and `run`, `Thread.sleep` and the FPS counter's wall-clock refresh are left out. The updater and renderer are counted rather than run. Java longs are unbounded here. The overflow branch at AppDriver.java:193-196 is therefore unreachable in the model.
- RegistriesNamespaced: the superclass Registry, BiObjectIntMap and the duplicate policy's logging are not part of this model. The policy is represented by its verdict. The bimap's refusal of an object already registered under another name, `getObjectName`, `getObjectID` and iteration are not modelled.
- TileBuilders: Java floats are modelled as reals, and `Tile.registerTile` appends to a log of registered tiles. Tile.java is not part of this model, so `registerTile`'s own failures are not modelled: TileBuilders.RegisterWith throws only the builder's "already registered" IllegalStateException.
- NbtByteArrays.GetId: the contract states only that the id is a byte-sized NBT type id, not which one.
- I8ArrBoxes: DataInStream and DataOutStream are not part of this model. The big-endian 4-byte length is assumed to match java.io's DataOutput, which NBTTagByteArray uses directly.
- I8ArrBoxes.GetAs: states the brackets and the emptiness of `Arrays.toString`'s text, not each number in it. The `read`/`write` methods that delegate to a DataCompound or DataList are not modelled.
- ImmutableCompounds: all fifteen value kinds are modelled, but F32 and F64 values are reals, not IEEE floats. `writeData`, `write` and `format` delegate to DataCompound, which is not part of this model. ImmutableList is represented by a wrapper flag.

## Findings

| source | as written | input that shows it | evidently intended | confidence | as-written member | corrected member |
|---|---|---|---|---|---|---|
| src/com/stabilise/world/Slice.java:137-148 | setting a tile entity on an occupied cell always clears it, and the counter does not change when the new entity is non-null | a slice whose cell (0,0) holds an entity, then `setTileEntityAt(0, 0, e)` with `e` non-null: the cell becomes empty but numTileEntities still counts it | store the new entity, so the counter equals the number of occupied cells | not executed; high | Slices.ReplaceBreaksCount | Slices.FixedKeepsCount |
| src/com/stabilise/util/Profiler.java:88-99 | the disabled constructor never pushes the root, so the stack is empty | `new Profiler(false, "root")`: getStackLevel() is 0 and getStackName() is "" | level 1 and the root's name, as the getters' documentation at lines 278-279 and 286-288 promises | not executed; high | Profilers.DisabledConstructorStackEmpty | Profilers.FixedConstructorStack |
| core/src/com/stabilise/util/AppDriver.java:215-218 | the time used is measured from `lastTime`, the previous tick's start, before it is updated to `now` | nsPerFrame 16,666,666 (60 fps), previous tick at 1.000 s, this tick started at 1.016 s and ended at 1.017 s: sleeps 0 ms instead of 15 ms | sleep for what is left of the frame since this tick began | not executed; medium | AppDrivers.StaleSleepExample | AppDrivers.TickFixed |
| core/src/com/stabilise/util/AppDriver.java:83-84 | any tps of at least 1 is accepted, and `1000000000 / tps` is 0 once tps exceeds 10^9 | `new AppDriver(1000000001, u, r)` gives nsPerTick 0; the update loop at lines 180-184 then never ends, and with a backlog past delaySkip (after `setDelaySkip(1, NANOSECONDS)`, say) the warning at lines 165-168 divides by zero and throws ArithmeticException instead | reject a tps that leaves no whole nanoseconds per tick | not executed; medium | AppDrivers.HugeTpsHangs | AppDrivers.NewDriverFixed |
| src/com/stabilise/util/concurrent/event/EventDispatcher.java:159-167 | the `b.isEmpty()` test sits outside the null check on the bucket | `post(e)` for an event with no listeners: `b` is null and `b.isEmpty()` throws NullPointerException | do nothing when the event has no bucket, as removeListener does at lines 137-142 | not executed; high | EventDispatchers.UnlistenedPostThrows | EventDispatchers.DoPostFixed |
| core/src/com/stabilise/util/io/data/ImmutableCompound.java:124-138 | every `put` calls `Checks.unsupported()` without `throw`, so the built exception is discarded. Lines 116 and 121 use `throw Checks.unsupported()`, which suggests it returns the exception (Checks.java is not part of this model) | `wrap(c).put("x", 1)` on a compound without "x" returns normally, and "x" is still absent | throw UnsupportedOperationException, as `createCompound` and `createList` do | not executed; medium | ImmutableCompounds.PutSilentlyDropped | ImmutableCompounds.PutFixed |

=== FILE: app_driver.dfy ===
/** AppDriver.java: the fixed-timestep main loop's bookkeeping.  Clock
    readings are parameters; the updater and renderer are represented only
    by how many times they run. */
module AppDrivers {
  import opened JavaInt
  import opened Outcomes

  const NanosPerSecond: int := 1_000_000_000
  const NanosPerMilli: int := 1_000_000
  const DefaultDelaySkip: int := 5_000_000_000

  /** The driver's fields.  Java longs are unbounded here. */
  datatype Driver = Driver(
    tps: Int32,
    nsPerTick: int,
    maxFps: Int32,
    nsPerFrame: int,
    fps: int,
    lastFps: int,
    lastFpsRefresh: int,
    delaySkip: int,
    lastTime: int,
    unprocessed: int,
    numUpdates: int,
    ticking: bool,
    ticksPerFlush: Int32,
    lastProfilerFlush: int)

  /** setMaxFPS: fps < -1 is rejected; 0 means no frame limit. */
  function SetMaxFps(d: Driver, fps: Int32): (r: Result<Driver>)
    ensures r.Ok? <==> fps >= -1
    ensures r.Err? ==> r.failure == IllegalArgument
    ensures r.Ok? ==> r.value == d.(maxFps := fps, nsPerFrame := r.value.nsPerFrame)
    ensures r.Ok? && fps > 0 ==> r.value.nsPerFrame * fps <= NanosPerSecond < (r.value.nsPerFrame + 1) * fps
    ensures r.Ok? && fps == 0 ==> r.value.nsPerFrame == 0
    ensures r.Ok? && fps == -1 ==> r.value.nsPerFrame == -NanosPerSecond
  {
    if fps < -1 then Err(IllegalArgument)
    else
      var nsPerFrame := if fps == 0 then 0 else Quot(NanosPerSecond, fps);
      Ok(d.(maxFps := fps, nsPerFrame := nsPerFrame))
  }

  /** The constructor: tps >= 1, one tick every 10^9 / tps nanoseconds
      (rounded down), a frame limit equal to tps and a profiler flush every
      tps ticks; the updater and renderer may not both be null.
      `millisNow` is the wall clock at construction. */
  function NewDriver(tps: Int32, hasUpdater: bool, hasRenderer: bool, millisNow: int): (r: Result<Driver>)
    ensures r.Ok? <==> tps >= 1 && (hasUpdater || hasRenderer)
    ensures tps < 1 ==> r == Err(IllegalArgument)
    ensures tps >= 1 && !hasUpdater && !hasRenderer ==> r == Err(NullPointer)
    ensures r.Ok? ==> r.value.nsPerTick * tps <= NanosPerSecond < (r.value.nsPerTick + 1) * tps
    ensures r.Ok? ==> r.value.maxFps == tps && r.value.ticksPerFlush == tps
                      && r.value.delaySkip == DefaultDelaySkip && !r.value.ticking
                      && r.value.unprocessed == 0 && r.value.numUpdates == 0
  {
    if tps < 1 then Err(IllegalArgument)
    else
      var nsPerTick := NanosPerSecond / tps;
      var d := Driver(tps, nsPerTick, 0, 0, 0, 0, millisNow, DefaultDelaySkip, 0, 0, 0, false, tps, 0);
      var d' := SetMaxFps(d, tps).value;
      if !hasUpdater && !hasRenderer then Err(NullPointer) else Ok(d')
  }

  /** setDelaySkip, with the time already in nanoseconds: negative values
      and values not above nsPerTick are rejected. */
  function SetDelaySkip(d: Driver, time: int): (r: Result<Driver>)
    ensures r.Ok? <==> time >= 0 && time > d.nsPerTick
    ensures r.Err? ==> r.failure == IllegalArgument
    ensures r.Ok? ==> r.value == d.(delaySkip := time)
  {
    if time < 0 then Err(IllegalArgument)
    else if time <= d.nsPerTick then Err(IllegalArgument)
    else Ok(d.(delaySkip := time))
  }

  /** setTicksPerProfilerFlush: the period must be at least 1. */
  function SetTicksPerProfilerFlush(d: Driver, n: Int32): (r: Result<Driver>)
    ensures r.Ok? <==> n >= 1
    ensures r.Err? ==> r.failure == IllegalArgument
    ensures r.Ok? ==> r.value == d.(ticksPerFlush := n)
  {
    if n < 1 then Err(IllegalArgument) else Ok(d.(ticksPerFlush := n))
  }

  /** The backlog after a tick's timing checks: a backlog beyond delaySkip
      is cut to one tick, a negative one (the clock went backwards) to 0. */
  function Clamp(unprocessed: int, delaySkip: int, nsPerTick: int): (u: int)
    ensures unprocessed > delaySkip ==> u == nsPerTick
    ensures unprocessed < 0 && unprocessed <= delaySkip ==> u == 0
    ensures 0 <= unprocessed <= delaySkip ==> u == unprocessed
  {
    if unprocessed > delaySkip then nsPerTick
    else if unprocessed < 0 then 0
    else unprocessed
  }

  /** The update loop: one update per whole tick in the backlog. */
  method CatchUp(unprocessed: int, nsPerTick: int) returns (left: int, updates: nat)
    requires 0 <= unprocessed && 0 < nsPerTick
    ensures 0 <= left < nsPerTick
    ensures updates * nsPerTick + left == unprocessed
    ensures updates == unprocessed / nsPerTick
  {
    left, updates := unprocessed, 0;
    while left >= nsPerTick
      invariant 0 <= left && updates * nsPerTick + left == unprocessed
      decreases left
    {
      updates := updates + 1;
      left := left - nsPerTick;
    }
    ModUnique(unprocessed, nsPerTick, updates, left);
  }

  /** What one tick did, besides the new state. */
  datatype TickReport = TickReport(updates: nat, rendered: bool, profilerFlushed: bool, sleepMillis: int)

  /** How tick() ends: it throws, it returns, or its update loop never
      ends (nsPerTick is 0 once tps exceeds 10^9). */
  datatype TickOutcome = Thrown(failure: Failure) | Returned(d: Driver, report: TickReport) | Hangs

  /** The milliseconds to sleep at `endNow` so that the next tick begins
      one frame after `start`, and 0 when that moment has passed. */
  function SleepMillis(nsPerFrame: int, start: int, endNow: int): (ms: int)
    ensures ms >= 0
    ensures endNow - start < nsPerFrame ==>
      endNow + ms * NanosPerMilli <= start + nsPerFrame < endNow + (ms + 1) * NanosPerMilli
    ensures endNow - start >= nsPerFrame ==> ms == 0
  {
    if endNow - start < nsPerFrame then (nsPerFrame - (endNow - start)) / NanosPerMilli else 0
  }

  /** The backlog after `unprocessed += now - lastTime`, before the timing
      checks; the first tick counts from `now`. */
  function Backlog(d: Driver, now: int): (b: int)
    ensures d.lastTime == 0 ==> b == d.unprocessed
    ensures d.lastTime != 0 ==> b == d.unprocessed + (now - d.lastTime)
  {
    d.unprocessed + now - (if d.lastTime == 0 then now else d.lastTime)
  }

  /** Whether the "can't keep up" warning divides by a zero nsPerTick: the
      backlog is past delaySkip and the message computes
      `unprocessed / nsPerTick`. */
  predicate WarningDividesByZero(d: Driver, now: int) {
    Backlog(d, now) > d.delaySkip && d.nsPerTick == 0
  }

  /** The part of tick() before the sleep computation: the timing checks,
      the update loop, the profiler-flush bookkeeping and the frame
      counter.  `since` is the start of the previous tick (or `now` for the
      first one). */
  method TickBody(d: Driver, now: int, millisNow: int) returns (r: TickOutcome, since: int)
    ensures since == if d.lastTime == 0 then now else d.lastTime
    ensures d.ticking ==> r == Thrown(IllegalState)
    ensures !d.ticking && d.nsPerTick > 0 ==> r.Returned?
    ensures !d.ticking && WarningDividesByZero(d, now) ==> r == Thrown(Arithmetic)
    ensures !d.ticking && d.nsPerTick <= 0 && !WarningDividesByZero(d, now) ==> r == Hangs
    ensures r.Returned? ==>
      var u := Clamp(Backlog(d, now), d.delaySkip, d.nsPerTick);
      && !r.d.ticking && r.d.lastTime == now
      && 0 <= r.d.unprocessed < d.nsPerTick
      && r.report.updates == u / d.nsPerTick
      && r.d.numUpdates == d.numUpdates + r.report.updates
      && r.report.updates * d.nsPerTick + r.d.unprocessed == u
      && r.report.rendered == (d.maxFps != -1)
      && r.report.sleepMillis == 0
    ensures r.Returned? ==> r.d.tps == d.tps && r.d.nsPerTick == d.nsPerTick && r.d.nsPerFrame == d.nsPerFrame
                            && r.d.delaySkip == d.delaySkip && r.d.maxFps == d.maxFps
  {
    since := if d.lastTime == 0 then now else d.lastTime;
    if d.ticking {
      return Thrown(IllegalState), since;
    }
    var u := Clamp(Backlog(d, now), d.delaySkip, d.nsPerTick);
    if WarningDividesByZero(d, now) {
      return Thrown(Arithmetic), since;
    }
    if d.nsPerTick <= 0 {
      // `u >= nsPerTick` then stays true forever.
      return Hangs, since;
    }
    if u < 0 {
      // Clamp yields nsPerTick, 0 or a value in [0, delaySkip].
      assert false;
      return Hangs, since;
    }
    var left, updates := CatchUp(u, d.nsPerTick);
    var numUpdates := d.numUpdates + updates;
    var flushed := numUpdates - d.lastProfilerFlush >= d.ticksPerFlush;
    var lastFlush := if flushed || numUpdates < d.lastProfilerFlush then numUpdates else d.lastProfilerFlush;
    var fps := d.fps + 1;
    var refresh := millisNow - d.lastFpsRefresh >= 1000;
    var d' := d.(
      unprocessed := left, numUpdates := numUpdates, lastProfilerFlush := lastFlush,
      fps := if refresh then 0 else fps,
      lastFps := if refresh then fps else d.lastFps,
      lastFpsRefresh := if refresh then d.lastFpsRefresh + 1000 else d.lastFpsRefresh,
      ticking := false, lastTime := now);
    return Returned(d', TickReport(updates, d.maxFps != -1, flushed, 0)), since;
  }

  /** tick(), as written: `now` is the clock at the tick's start,
      `millisNow` the wall clock at the frame count, `endNow` the clock at
      its end.  The sleep is computed from the previous tick's start. */
  method Tick(d: Driver, now: int, millisNow: int, endNow: int) returns (r: TickOutcome)
    ensures d.ticking ==> r == Thrown(IllegalState)
    ensures !d.ticking && d.nsPerTick > 0 ==> r.Returned?
    ensures !d.ticking && WarningDividesByZero(d, now) ==> r == Thrown(Arithmetic)
    ensures !d.ticking && d.nsPerTick <= 0 && !WarningDividesByZero(d, now) ==> r == Hangs
    ensures r.Returned? ==>
      var since := if d.lastTime == 0 then now else d.lastTime;
      var u := Clamp(Backlog(d, now), d.delaySkip, d.nsPerTick);
      && !r.d.ticking && 0 <= r.d.unprocessed < d.nsPerTick
      && r.report.updates == u / d.nsPerTick
      && r.d.numUpdates == d.numUpdates + r.report.updates
      && r.report.sleepMillis == SleepMillis(d.nsPerFrame, since, endNow)
  {
    var body, since := TickBody(d, now, millisNow);
    if body.Returned? {
      r := Returned(body.d, body.report.(sleepMillis := SleepMillis(d.nsPerFrame, since, endNow)));
    } else {
      r := body;
    }
  }

  /** As written, a tick that used 1 ms of a 60 fps frame asks for no
      sleep at all, because the 16 ms since the previous tick began are
      counted as used. */
  lemma StaleSleepExample()
    ensures SleepMillis(16_666_666, 1_000_000_000, 1_017_000_000) == 0
    ensures SleepMillis(16_666_666, 1_016_000_000, 1_017_000_000) == 15
  {
  }

  /** tick() with the sleep measured from this tick's start: the next tick
      is then due one frame after this one began. */
  method TickFixed(d: Driver, now: int, millisNow: int, endNow: int) returns (r: TickOutcome)
    ensures d.ticking ==> r == Thrown(IllegalState)
    ensures !d.ticking && d.nsPerTick > 0 ==> r.Returned?
    ensures !d.ticking && WarningDividesByZero(d, now) ==> r == Thrown(Arithmetic)
    ensures !d.ticking && d.nsPerTick <= 0 && !WarningDividesByZero(d, now) ==> r == Hangs
    ensures r.Returned? ==> 0 <= r.d.unprocessed < d.nsPerTick && r.report.sleepMillis >= 0
    ensures r.Returned? && endNow - now < d.nsPerFrame ==>
      endNow + r.report.sleepMillis * NanosPerMilli <= now + d.nsPerFrame
      < endNow + (r.report.sleepMillis + 1) * NanosPerMilli
  {
    var body, _ := TickBody(d, now, millisNow);
    if body.Returned? {
      r := Returned(body.d, body.report.(sleepMillis := SleepMillis(d.nsPerFrame, now, endNow)));
    } else {
      r := body;
    }
  }

  /** As written, a tick rate above 10^9 makes nsPerTick 0, and tick()
      then never returns: its update loop spins, or, with a backlog past
      delaySkip, the warning divides by zero. */
  lemma HugeTpsHangs()
    ensures NewDriver(1_000_000_001, true, true, 0).Ok?
    ensures NewDriver(1_000_000_001, true, true, 0).value.nsPerTick == 0
  {
  }

  /** The constructor rejecting tick rates too fast for a nanosecond
      period: every driver it makes has a positive nsPerTick, so every
      tick returns. */
  function NewDriverFixed(tps: Int32, hasUpdater: bool, hasRenderer: bool, millisNow: int): (r: Result<Driver>)
    ensures r.Ok? <==> 1 <= tps <= NanosPerSecond && (hasUpdater || hasRenderer)
    ensures r.Ok? ==> r.value.nsPerTick >= 1 && !r.value.ticking
    ensures r.Ok? ==> r == NewDriver(tps, hasUpdater, hasRenderer, millisNow)
  {
    if tps > NanosPerSecond then Err(IllegalArgument)
    else NewDriver(tps, hasUpdater, hasRenderer, millisNow)
  }

  /** The driver of HugeTpsHangs, run at clock 1 with delaySkip cut to
      1 ns, throws ArithmeticException on a first tick at clock 3: the
      backlog of 2 ns is past delaySkip and the warning divides by the zero
      nsPerTick. */
  method HugeTpsBacklogThrows() returns (r: TickOutcome)
    ensures r == Thrown(Arithmetic)
  {
    var d := NewDriver(1_000_000_001, true, true, 0).value;
    var d1 := SetDelaySkip(d, 1);
    assert d1.Ok?;
    r := Tick(d1.value.(lastTime := 1), 3, 0, 3);
  }
}

=== FILE: byte_codec.dfy ===
/** The length-prefixed byte-array encoding shared by I8ArrBox.writeData /
    readData and NBTTagByteArray.write / load: java.io.DataOutputStream's
    writeInt (four bytes, most significant first) followed by the bytes,
    read back by readInt, `new byte[n]` and readFully. */
module ByteArrays {
  import opened Outcomes
  import opened JavaInt

  /** A value of Java's signed `byte`. */
  type Byte = x: int | -128 <= x < 128

  function Unsigned(b: Byte): (u: nat)
    ensures u < 256 && (u - b) % 256 == 0
  {
    if b < 0 then b + 256 else b
  }

  function ToByte(u: nat): (b: Byte)
    requires u < 256
    ensures Unsigned(b) == u
  {
    if u >= 128 then u - 256 else u
  }

  lemma ToByteUnsigned(b: Byte)
    ensures ToByte(Unsigned(b)) == b
  {
  }

  function Pow256(n: nat): (r: nat)
    ensures r >= 1
  {
    if n == 0 then 1 else 256 * Pow256(n - 1)
  }

  /** The low n bytes of u, most significant first. */
  function BigEndian(u: nat, n: nat): (r: seq<Byte>)
    ensures |r| == n
  {
    if n == 0 then [] else BigEndian(u / 256, n - 1) + [ToByte(u % 256)]
  }

  /** The unsigned value of a big-endian byte string. */
  function FromBigEndian(bs: seq<Byte>): nat
  {
    if |bs| == 0 then 0 else FromBigEndian(bs[..|bs| - 1]) * 256 + Unsigned(bs[|bs| - 1])
  }

  lemma {:induction false} FromBigEndianBound(bs: seq<Byte>)
    ensures FromBigEndian(bs) < Pow256(|bs|)
  {
    if |bs| > 0 {
      FromBigEndianBound(bs[..|bs| - 1]);
      var hi: int := FromBigEndian(bs[..|bs| - 1]);
      var p: int := Pow256(|bs| - 1);
      assert hi + 1 <= p;
      assert hi * 256 + 256 <= p * 256;
    }
  }

  lemma {:induction false} BigEndianRoundTrip(u: nat, n: nat)
    requires u < Pow256(n)
    ensures FromBigEndian(BigEndian(u, n)) == u
  {
    if n > 0 {
      var q: int, r: int := u / 256, u % 256;
      ModFacts(u, 256);
      assert u == 256 * q + r;
      var p: int := Pow256(n - 1);
      assert u < 256 * p;
      assert q < p;
      BigEndianRoundTrip(q, n - 1);
      var bs := BigEndian(u, n);
      assert bs[..n - 1] == BigEndian(q, n - 1);
    }
  }

  lemma {:induction false} FromBigEndianRoundTrip(bs: seq<Byte>)
    ensures BigEndian(FromBigEndian(bs), |bs|) == bs
  {
    if |bs| > 0 {
      var init := bs[..|bs| - 1];
      var last := bs[|bs| - 1];
      FromBigEndianRoundTrip(init);
      var v := FromBigEndian(bs);
      ModUnique(v, 256, FromBigEndian(init), Unsigned(last));
      ToByteUnsigned(last);
      assert bs == init + [last];
    }
  }

  lemma Pow256At4()
    ensures Pow256(4) == TwoTo32
  {
  }

  /** DataOutputStream.writeInt: the 32 bits of x, two's complement, most
      significant byte first. */
  function EncodeInt(x: Int32): (bs: seq<Byte>)
    ensures |bs| == 4
  {
    BigEndian(x % TwoTo32, 4)
  }

  /** DataInputStream.readInt on four bytes. */
  function DecodeInt(bs: seq<Byte>): (x: Int32)
    requires |bs| == 4
  {
    FromBigEndianBound(bs);
    Pow256At4();
    var u := FromBigEndian(bs);
    if u >= TwoTo31 then u - TwoTo32 else u
  }

  lemma DecodeEncodeInt(x: Int32)
    ensures DecodeInt(EncodeInt(x)) == x
  {
    Pow256At4();
    BigEndianRoundTrip(x % TwoTo32, 4);
  }

  lemma EncodeDecodeInt(bs: seq<Byte>)
    requires |bs| == 4
    ensures EncodeInt(DecodeInt(bs)) == bs
  {
    FromBigEndianBound(bs);
    Pow256At4();
    FromBigEndianRoundTrip(bs);
    var u := FromBigEndian(bs);
    var x := DecodeInt(bs);
    assert x % TwoTo32 == u;
  }

  /** writeInt(length) then write(bytes); a Java array never holds 2^31
      elements, so the length is an int. */
  function Encode(data: seq<Byte>): (out: seq<Byte>)
    requires |data| < TwoTo31
  {
    EncodeInt(|data|) + data
  }

  /** What a `field = new byte[in.readInt()]; in.readFully(field);` leaves
      behind: the field's new value, if it was assigned, the unread input
      and the exception thrown, if any. */
  datatype Loaded = Loaded(field: Option<seq<Byte>>, rest: seq<Byte>, thrown: Option<Failure>)

  function Zeros(n: nat): (z: seq<Byte>)
    ensures |z| == n && forall i :: 0 <= i < n ==> z[i] == 0
  {
    seq(n, _ => 0)
  }

  /** Fewer than four bytes: readInt consumes them and reports the end of
      the stream; a negative length: the array allocation throws before
      the field is assigned; fewer bytes than the length: the field holds
      the new array, filled as far as the input went, and readFully
      reports the end of the stream. */
  function Decode(input: seq<Byte>): (r: Loaded)
    ensures r.thrown.None? <==> r.field.Some? && |r.field.value| + 4 + |r.rest| == |input|
    ensures r.thrown.None? ==> |r.field.value| < TwoTo31 && input == EncodeInt(|r.field.value|) + r.field.value + r.rest
    ensures |input| < 4 ==> r == Loaded(None, [], Some(EndOfStream))
    ensures r.thrown == Some(NegativeArraySize) <==> |input| >= 4 && DecodeInt(input[..4]) < 0
    ensures r.thrown.Some? && r.field.Some? ==> r.thrown == Some(EndOfStream) && r.rest == []
  {
    if |input| < 4 then Loaded(None, [], Some(EndOfStream))
    else
      var n := DecodeInt(input[..4]);
      var body := input[4..];
      if n < 0 then Loaded(None, body, Some(NegativeArraySize))
      else if |body| < n then Loaded(Some(body + Zeros(n - |body|)), [], Some(EndOfStream))
      else
        EncodeDecodeInt(input[..4]);
        assert input == input[..4] + body[..n] + body[n..];
        Loaded(Some(body[..n]), body[n..], None)
  }

  /** Decoding an encoding gives back the bytes and leaves what followed. */
  lemma DecodeEncode(data: seq<Byte>, tail: seq<Byte>)
    requires |data| < TwoTo31
    ensures Decode(Encode(data) + tail) == Loaded(Some(data), tail, None)
  {
    var input := Encode(data) + tail;
    assert input[..4] == EncodeInt(|data|);
    DecodeEncodeInt(|data|);
    assert input[4..] == data + tail;
  }

  /** Any strict prefix of an encoding ends the stream too early. */
  lemma TruncatedEncoding(data: seq<Byte>, k: nat)
    requires |data| < TwoTo31 && k < |Encode(data)|
    ensures Decode(Encode(data)[..k]).thrown == Some(EndOfStream)
  {
    var input := Encode(data)[..k];
    if k >= 4 {
      assert input[..4] == EncodeInt(|data|);
      DecodeEncodeInt(|data|);
    }
  }
}

=== FILE: decimal_text.dfy ===
/** Decimal renderings of integers, as Java's string concatenation and
    Arrays.toString produce them. */
module DecimalText {

  predicate IsDigit(c: char) { '0' <= c <= '9' }

  function DigitChar(d: nat): (c: char)
    requires d < 10
    ensures IsDigit(c) && c as int - '0' as int == d
  {
    ('0' as int + d) as char
  }

  /** The decimal digits of n, most significant first, without leading zeros. */
  function Decimal(n: nat): (s: string)
    ensures |s| >= 1
    ensures forall i :: 0 <= i < |s| ==> IsDigit(s[i])
    ensures s[0] == '0' ==> n == 0
  {
    if n < 10 then [DigitChar(n)] else Decimal(n / 10) + [DigitChar(n % 10)]
  }

  /** The value of a string of decimal digits. */
  function DigitsValue(s: string): nat
    requires forall i :: 0 <= i < |s| ==> IsDigit(s[i])
  {
    if |s| == 0 then 0
    else
      var c := s[|s| - 1];
      assert IsDigit(c);
      DigitsValue(s[..|s| - 1]) * 10 + (c as int - '0' as int)
  }

  /** Reading the digits back gives the number. */
  lemma {:induction false} DecimalRoundTrip(n: nat)
    ensures DigitsValue(Decimal(n)) == n
    decreases n
  {
    if n >= 10 {
      DecimalRoundTrip(n / 10);
      var s := Decimal(n);
      assert s[..|s| - 1] == Decimal(n / 10);
    }
  }

  /** Java's rendering of an int or long: a minus sign before the
      magnitude of a negative value. */
  function Signed(x: int): (s: string)
    ensures |s| >= 1
    ensures s[0] == '-' <==> x < 0
  {
    if x < 0 then "-" + Decimal(-x) else Decimal(x)
  }

  function ParseSigned(s: string): int
    requires |s| >= 1
    requires forall i :: 1 <= i < |s| ==> IsDigit(s[i])
    requires s[0] == '-' || IsDigit(s[0])
  {
    if s[0] == '-' then 0 - DigitsValue(s[1..]) else DigitsValue(s)
  }

  lemma SignedRoundTrip(x: int)
    ensures ParseSigned(Signed(x)) == x
  {
    if x < 0 {
      assert Signed(x)[1..] == Decimal(-x);
      DecimalRoundTrip(-x);
    } else {
      DecimalRoundTrip(x);
    }
  }

  /** The elements rendered and separated by ", ". */
  function Joined(v: seq<int>): string
  {
    if |v| == 0 then "" else if |v| == 1 then Signed(v[0]) else Signed(v[0]) + ", " + Joined(v[1..])
  }

  /** java.util.Arrays.toString of a non-null array. */
  function ArrayText(v: seq<int>): (s: string)
    ensures |s| >= 2 && s[0] == '[' && s[|s| - 1] == ']'
    ensures s == "[]" <==> v == []
  {
    var j := Joined(v);
    assert v != [] ==> |j| >= 1;
    "[" + j + "]"
  }
}

=== FILE: effect.dfy ===
/** Effect.java: a lingering condition that ages by one tick per update
    and asks to be removed once its age reaches its duration. */
module Effects {
  import opened JavaInt
  import opened Outcomes

  datatype Effect = Effect(duration: Int32, age: Int32)

  /** The constructor: the duration must be positive; age starts at 0. */
  function NewEffect(duration: Int32): (r: Result<Effect>)
    ensures r.Ok? <==> duration >= 1
    ensures r.Err? ==> r.failure == IllegalArgument
    ensures r.Ok? ==> r.value.duration == duration && r.value.age == 0
  {
    if duration < 1 then Err(IllegalArgument) else Ok(Effect(duration, 0))
  }

  /** Effect.remove: ages the effect by one tick and reports whether it has
      now lasted its duration.  Nothing but the age changes. */
  function Remove(e: Effect): (r: (Effect, bool))
    ensures r.0.duration == e.duration
    ensures e.age < TwoTo31 - 1 ==> r.0.age == e.age + 1
    ensures r.1 <==> r.0.age >= e.duration
  {
    var age := Wrap32(e.age + 1);
    (e.(age := age), age >= e.duration)
  }

  /** The answers of n successive remove() calls. */
  function RemoveRun(e: Effect, n: nat): (r: seq<bool>)
    ensures |r| == n
    decreases n
  {
    if n == 0 then [] else [Remove(e).1] + RemoveRun(Remove(e).0, n - 1)
  }

  /** Call k (from 0) answers whether age + k + 1 has reached the
      duration, as long as the age has not wrapped around. */
  lemma {:induction false} RemoveAt(e: Effect, n: nat, k: nat)
    requires 0 <= e.age && k < n && e.age + n < TwoTo31
    ensures RemoveRun(e, n)[k] <==> e.age + k + 1 >= e.duration
    decreases k
  {
    if k > 0 {
      assert RemoveRun(e, n)[k] == RemoveRun(Remove(e).0, n - 1)[k - 1];
      RemoveAt(Remove(e).0, n - 1, k - 1);
    }
  }

  /** A new effect of duration d answers false to its first d - 1 remove()
      calls and true to the d-th. */
  lemma ExpiresAfterDuration(d: Int32)
    requires d >= 1
    ensures var run := RemoveRun(NewEffect(d).value, d as nat);
            run[d - 1] && forall k :: 0 <= k < d - 1 ==> !run[k]
  {
    var e := NewEffect(d).value;
    var run := RemoveRun(e, d as nat);
    forall k | 0 <= k < d
      ensures run[k] <==> k == d - 1
    {
      RemoveAt(e, d as nat, k);
    }
  }
}

=== FILE: event_dispatcher.dfy ===
/** EventDispatcher.java with its StandardListenerBucket: listeners kept in
    per-event buckets, each with a use count; posting hands every listener
    of the event to the executor.  The executor is a log of the calls it
    was given. */
module EventDispatchers {
  import opened Outcomes
  import opened IteratorUtils

  /** A listener and its remaining uses: 1 for single-use, -1 (and below,
      after posts) for persistent ones. */
  datatype Listener<H> = Listener(handler: H, uses: int)

  /** One executor.execute call: run `handler` on `event`. */
  datatype Dispatch<E, H> = Dispatch(event: E, handler: H)

  type Buckets<E, H> = map<E, seq<Listener<H>>>

  /** Every bucket in the map holds a listener: empty buckets are dropped. */
  predicate NoEmptyBuckets<E, H>(m: Buckets<E, H>) {
    forall e :: e in m ==> |m[e]| > 0
  }

  /** The use counts addListener creates and posting can reach: exactly
      one use left, or persistent. */
  predicate WellFormed<H>(b: seq<Listener<H>>) {
    forall k :: 0 <= k < |b| ==> b[k].uses == 1 || b[k].uses < 0
  }

  predicate Good<E, H>(m: Buckets<E, H>) {
    NoEmptyBuckets(m) && forall e :: e in m ==> WellFormed(m[e])
  }

  /** addListener(event, handler, singleUse): appends a listener with 1 or
      -1 uses to the event's bucket, creating the bucket if absent. */
  function AddListener<E, H>(m: Buckets<E, H>, e: E, h: H, singleUse: bool): (r: Buckets<E, H>)
    ensures r.Keys == m.Keys + {e}
    ensures forall e' :: e' in m && e' != e ==> e' in r && r[e'] == m[e']
    ensures var prev := if e in m then m[e] else [];
            |r[e]| == |prev| + 1 && r[e][..|prev|] == prev
            && r[e][|prev|].handler == h && (r[e][|prev|].uses == 1 <==> singleUse)
    ensures Good(m) ==> Good(r)
  {
    var b := if e in m then m[e] else [];
    m[e := b + [Listener(h, if singleUse then 1 else -1)]]
  }

  /** The position of the first listener for handler h, or |b| if none. */
  function FirstFor<H(==)>(b: seq<Listener<H>>, h: H): (k: nat)
    ensures k <= |b|
    ensures forall j :: 0 <= j < k ==> b[j].handler != h
    ensures k < |b| ==> b[k].handler == h
  {
    if |b| == 0 || b[0].handler == h then 0 else 1 + FirstFor(b[1..], h)
  }

  /** The bucket's removeListener: drops the first listener for handler h. */
  function RemoveFirstFor<H(==)>(b: seq<Listener<H>>, h: H): (r: seq<Listener<H>>)
    ensures |r| == if FirstFor(b, h) < |b| then |b| - 1 else |b|
  {
    if |b| == 0 then []
    else if b[0].handler == h then b[1..]
    else [b[0]] + RemoveFirstFor(b[1..], h)
  }

  /** The listeners before the first one for h stay where they were and
      the ones after it move down one place; with none for h, nothing
      changes. */
  lemma {:induction false} RemoveFirstForShape<H>(b: seq<Listener<H>>, h: H)
    ensures var k, r := FirstFor(b, h), RemoveFirstFor(b, h);
      (forall j :: 0 <= j < k && j < |r| ==> r[j] == b[j])
      && (forall j :: k <= j < |r| ==> r[j] == b[j + 1])
  {
    if |b| > 0 && b[0].handler != h {
      RemoveFirstForShape(b[1..], h);
    }
  }

  /** What removal takes out is the first listener for h, if any. */
  lemma {:induction false} RemoveFirstForCount<H>(b: seq<Listener<H>>, h: H)
    ensures var k := FirstFor(b, h);
      multiset(RemoveFirstFor(b, h)) + (if k < |b| then multiset{b[k]} else multiset{}) == multiset(b)
  {
    if |b| > 0 {
      assert b == [b[0]] + b[1..];
      if b[0].handler != h {
        RemoveFirstForCount(b[1..], h);
      }
    }
  }

  /** Removal keeps every other listener's use count, so it keeps a bucket
      well-formed. */
  lemma RemoveFirstForWellFormed<H>(b: seq<Listener<H>>, h: H)
    ensures WellFormed(b) ==> WellFormed(RemoveFirstFor(b, h))
  {
    RemoveFirstForShape(b, h);
  }

  /** removeListener(event, handler): removes at most one listener for the
      handler and drops the bucket once it is empty. */
  function RemoveListener<E, H(==)>(m: Buckets<E, H>, e: E, h: H): (r: Buckets<E, H>)
    ensures e !in m ==> r == m
    ensures r.Keys - {e} == m.Keys - {e}
    ensures forall e' :: e' in m && e' != e ==> e' in r && r[e'] == m[e']
    ensures e in m ==> (e in r <==> |RemoveFirstFor(m[e], h)| > 0)
    ensures e in r ==> r[e] == RemoveFirstFor(m[e], h)
    ensures Good(m) ==> Good(r)
  {
    if e !in m then m
    else
      var b := RemoveFirstFor(m[e], h);
      RemoveFirstForWellFormed(m[e], h);
      if |b| == 0 then m - {e} else m[e := b]
  }

  /** StandardListenerBucket.post: every listener is handed to the executor
      once, in bucket order; each loses one use and is removed when its
      uses reach zero. */
  function PostBucket<E, H>(b: seq<Listener<H>>, e: E): (r: (seq<Listener<H>>, seq<Dispatch<E, H>>))
    ensures |r.1| == |b|
    ensures forall k :: 0 <= k < |b| ==> r.1[k] == Dispatch(e, b[k].handler)
    ensures forall k :: 0 <= k < |r.0| ==> r.0[k].uses != 0
    ensures |r.0| <= |b|
  {
    if |b| == 0 then ([], [])
    else
      var l := b[0].(uses := b[0].uses - 1);
      var rest := PostBucket(b[1..], e);
      ((if l.uses == 0 then [] else [l]) + rest.0, [Dispatch(e, b[0].handler)] + rest.1)
  }

  /** The persistent listeners of a bucket, in order. */
  function Persistent<H>(b: seq<Listener<H>>): seq<Listener<H>> {
    RemoveWhere(b, (l: Listener<H>) => l.uses >= 0)
  }

  /** Posting a well-formed bucket removes every single-use listener and
      keeps every persistent one, one use further from zero. */
  lemma {:induction false} PostKeepsPersistent<E, H>(b: seq<Listener<H>>, e: E)
    requires WellFormed(b)
    ensures var kept := PostBucket(b, e).0;
            |kept| == |Persistent(b)|
            && forall k :: 0 <= k < |kept| ==>
                 kept[k] == Persistent(b)[k].(uses := Persistent(b)[k].uses - 1)
    ensures WellFormed(PostBucket(b, e).0)
  {
    if |b| > 0 {
      PostKeepsPersistent(b[1..], e);
    }
  }

  lemma PostWellFormed<E, H>(b: seq<Listener<H>>, e: E)
    ensures WellFormed(b) ==> WellFormed(PostBucket(b, e).0)
  {
    if WellFormed(b) {
      PostKeepsPersistent(b, e);
    }
  }

  /** A bucket of persistent listeners survives any number of posts with
      the same handlers in the same order. */
  lemma {:induction false} PersistentNeverRemoved<E, H>(b: seq<Listener<H>>, e: E, n: nat)
    requires forall k :: 0 <= k < |b| ==> b[k].uses < 0
    ensures |PostTimes(b, e, n)| == |b|
    ensures forall k :: 0 <= k < |b| ==> PostTimes(b, e, n)[k].handler == b[k].handler
    ensures forall k :: 0 <= k < |b| ==> PostTimes(b, e, n)[k].uses == b[k].uses - n
    decreases n
  {
    if n > 0 {
      var b' := PostBucket(b, e).0;
      AllPersistentPost(b, e);
      PersistentNeverRemoved(b', e, n - 1);
    }
  }

  lemma {:induction false} AllPersistentPost<E, H>(b: seq<Listener<H>>, e: E)
    requires forall k :: 0 <= k < |b| ==> b[k].uses < 0
    ensures |PostBucket(b, e).0| == |b|
    ensures forall k :: 0 <= k < |b| ==>
      PostBucket(b, e).0[k] == b[k].(uses := b[k].uses - 1)
  {
    if |b| > 0 {
      AllPersistentPost(b[1..], e);
      assert PostBucket(b, e).0 == [b[0].(uses := b[0].uses - 1)] + PostBucket(b[1..], e).0;
    }
  }

  /** The bucket after n posts of the same event. */
  function PostTimes<E, H>(b: seq<Listener<H>>, e: E, n: nat): seq<Listener<H>>
    decreases n
  {
    if n == 0 then b else PostTimes(PostBucket(b, e).0, e, n - 1)
  }

  /** doPost: posts to the event's bucket and drops it if it empties.  An
      event nobody listens for has no bucket, and the emptiness check then
      dereferences null. */
  function DoPost<E, H>(m: Buckets<E, H>, e: E): (r: Result<(Buckets<E, H>, seq<Dispatch<E, H>>)>)
    ensures r.Ok? <==> e in m
    ensures r.Err? ==> r.failure == NullPointer
    ensures r.Ok? ==> r.value.1 == PostBucket(m[e], e).1
    ensures r.Ok? ==> r.value.0.Keys - {e} == m.Keys - {e}
    ensures r.Ok? ==> forall e' :: e' in m && e' != e ==> e' in r.value.0 && r.value.0[e'] == m[e']
    ensures r.Ok? ==> (e in r.value.0 <==> |PostBucket(m[e], e).0| > 0)
    ensures r.Ok? && e in r.value.0 ==> r.value.0[e] == PostBucket(m[e], e).0
    ensures r.Ok? && Good(m) ==> Good(r.value.0)
  {
    if e !in m then Err(NullPointer)
    else
      var p := PostBucket(m[e], e);
      PostWellFormed(m[e], e);
      Ok((if |p.0| == 0 then m - {e} else m[e := p.0], p.1))
  }

  /** After one doPost on a well-formed map, the event's single-use
      listeners are gone and its persistent ones stay, in order, with one
      use fewer; the bucket is dropped exactly when none is persistent. */
  lemma DoPostKeepsPersistent<E, H>(m: Buckets<E, H>, e: E)
    requires Good(m) && e in m
    ensures DoPost(m, e).Ok?
    ensures e in DoPost(m, e).value.0 <==> |Persistent(m[e])| > 0
    ensures var r := DoPost(m, e).value.0;
            e in r ==> |r[e]| == |Persistent(m[e])|
    ensures var r := DoPost(m, e).value.0;
            e in r ==> forall k :: 0 <= k < |r[e]| ==>
              r[e][k] == Persistent(m[e])[k].(uses := Persistent(m[e])[k].uses - 1)
  {
    PostKeepsPersistent(m[e], e);
  }

  /** doPost with the emptiness check inside the null check: posting an
      event nobody listens for does nothing. */
  function DoPostFixed<E, H>(m: Buckets<E, H>, e: E): (r: Result<(Buckets<E, H>, seq<Dispatch<E, H>>)>)
    ensures r.Ok?
    ensures e !in m ==> r.value.0 == m && r.value.1 == []
    ensures e in m ==> r == DoPost(m, e)
    ensures Good(m) ==> Good(r.value.0)
  {
    if e !in m then Ok((m, [])) else DoPost(m, e)
  }

  /** As written, posting an event with no listeners throws
      NullPointerException from the emptiness check; the corrected doPost
      leaves the listeners as they are and dispatches nothing. */
  lemma UnlistenedPostThrows<E, H>(m: Buckets<E, H>, e: E)
    requires e !in m
    ensures DoPost(m, e) == Err(NullPointer)
    ensures DoPostFixed(m, e) == Ok((m, []))
  {
  }

  /** clear(): no listeners remain. */
  function ClearAll<E, H>(m: Buckets<E, H>): (r: Buckets<E, H>)
    ensures Good(r) && |r| == 0
  {
    map[]
  }

  /** clear(pred): removes the listeners pred accepts from every bucket
      and drops the buckets left empty. */
  function ClearWhere<E, H>(m: Buckets<E, H>, pred: Listener<H> -> bool): (r: Buckets<E, H>)
    ensures r.Keys <= m.Keys
    ensures forall e :: e in m ==> (e in r <==> |RemoveWhere(m[e], pred)| > 0)
    ensures forall e :: e in r ==> r[e] == RemoveWhere(m[e], pred)
    ensures forall e, k :: e in r && 0 <= k < |r[e]| ==> !pred(r[e][k])
    ensures Good(m) ==> Good(r)
  {
    map e | e in m && |RemoveWhere(m[e], pred)| > 0 :: RemoveWhere(m[e], pred)
  }
}

=== FILE: i8_arr_box.dfy ===
/** I8ArrBox.java: a tag boxing a non-null byte array. */
module I8ArrBoxes {
  import opened Outcomes
  import opened JavaInt
  import opened ByteArrays
  import opened DecimalText

  datatype I8ArrBox = I8ArrBox(value: seq<Byte>)

  /** The value a new box holds. */
  function DefaultValue(): (v: seq<Byte>)
    ensures |v| == 0
  {
    []
  }

  function NewBox(): (b: I8ArrBox)
    ensures b.value == DefaultValue()
  {
    I8ArrBox(DefaultValue())
  }

  /** The constructor taking an array; a null array is refused. */
  function NewBoxOf(v: Option<seq<Byte>>): (r: Result<I8ArrBox>)
    ensures r.Ok? <==> v.Some?
    ensures r.Ok? ==> r.value.value == v.value
    ensures r.Err? ==> r.failure == NullPointer
  {
    if v.None? then Err(NullPointer) else Ok(I8ArrBox(v.value))
  }

  /** set(value): like the constructor, refuses null and otherwise
      replaces the whole value. */
  function Set(b: I8ArrBox, v: Option<seq<Byte>>): (r: Result<I8ArrBox>)
    ensures r == NewBoxOf(v)
  {
    if v.None? then Err(NullPointer) else Ok(b.(value := v.value))
  }

  /** writeData: the length prefix then the bytes. */
  function WriteData(b: I8ArrBox): (out: seq<Byte>)
    requires |b.value| < TwoTo31
    ensures |out| == 4 + |b.value| && out[4..] == b.value
    ensures DecodeInt(out[..4]) == |b.value|
  {
    DecodeEncodeInt(|b.value|);
    Encode(b.value)
  }

  /** readData: the box afterwards (changed as soon as the array is
      allocated, even when readFully then runs out of input), the unread
      input and the exception, if any. */
  datatype ReadResult = ReadResult(box: I8ArrBox, rest: seq<Byte>, thrown: Option<Failure>)

  function ReadData(b: I8ArrBox, input: seq<Byte>): (r: ReadResult)
    ensures r.thrown.None? ==> |r.box.value| < TwoTo31 && input == WriteData(r.box) + r.rest
    ensures |input| < 4 ==> r == ReadResult(b, [], Some(EndOfStream))
    ensures r.thrown == Some(NegativeArraySize) ==> r.box == b
  {
    var l := Decode(input);
    if l.field.Some? then ReadResult(I8ArrBox(l.field.value), l.rest, l.thrown)
    else ReadResult(b, l.rest, l.thrown)
  }

  /** readData of writeData restores an equal array, whatever the box held. */
  lemma ReadWriteRoundTrip(b: I8ArrBox, target: I8ArrBox, tail: seq<Byte>)
    requires |b.value| < TwoTo31
    ensures ReadData(target, WriteData(b) + tail) == ReadResult(b, tail, None)
  {
    DecodeEncode(b.value, tail);
  }

  /** A truncated encoding ends the stream. */
  lemma ReadTruncated(b: I8ArrBox, target: I8ArrBox, k: nat)
    requires |b.value| < TwoTo31 && k < 4 + |b.value|
    ensures ReadData(target, WriteData(b)[..k]).thrown == Some(EndOfStream)
  {
    TruncatedEncoding(b.value, k);
  }

  /** toString: "[n byte]" for one byte, "[n bytes]" otherwise. */
  function ToString(b: I8ArrBox): (s: string)
    ensures |s| == |Decimal(|b.value|)| + (if |b.value| == 1 then 7 else 8)
    ensures s[0] == '[' && s[1..1 + |Decimal(|b.value|)|] == Decimal(|b.value|)
    ensures s[|s| - 1] == ']' && (s[|s| - 2] == 's' <==> |b.value| != 1)
  {
    "[" + Decimal(|b.value|) + (if |b.value| == 1 then " byte]" else " bytes]")
  }

  /** The count toString shows is the array's length. */
  lemma ToStringCount(b: I8ArrBox)
    ensures var d := ToString(b)[1..1 + |Decimal(|b.value|)|];
            DigitsValue(d) == |b.value|
  {
    DecimalRoundTrip(|b.value|);
  }

  /** Another tag, as far as convertToSameType can tell it apart. */
  datatype Tag = BytesTag(box: I8ArrBox) | OtherTag(kind: string)

  /** convertToSameType: another byte array comes back as it is; any
      other type is refused. */
  function ConvertToSameType(b: I8ArrBox, other: Tag): (r: Result<Tag>)
    ensures r.Ok? <==> other.BytesTag?
    ensures r.Ok? ==> r.value == other
    ensures r.Err? ==> r.failure == IllegalState
  {
    if other.BytesTag? then Ok(other) else Err(IllegalState)
  }

  /** The scalar views an ITag offers. */
  datatype Scalar = AsBoolean | AsLong | AsDouble | AsString

  /** is*(): only isString() answers yes. */
  function IsScalar(b: I8ArrBox, k: Scalar): (yes: bool)
  {
    k == AsString
  }

  /** getAs*(): the boolean, long and double views throw; the string view
      is Arrays.toString of the array. */
  function GetAs(b: I8ArrBox, k: Scalar): (r: Result<string>)
    ensures r.Err? ==> r.failure == IllegalState
    ensures r.Ok? ==> |r.value| >= 2 && r.value[0] == '[' && (r.value == "[]" <==> |b.value| == 0)
  {
    if k == AsString then Ok(ArrayText(b.value)) else Err(IllegalState)
  }

  /** is*() is true exactly for the view getAs*() can produce. */
  lemma IsAgreesWithGetAs(b: I8ArrBox, k: Scalar)
    ensures IsScalar(b, k) <==> GetAs(b, k).Ok?
  {
  }
}

=== FILE: immutable_compound.dfy ===
/** ImmutableCompound.java: a read-only view of a DataCompound.  A plain
    compound is modelled as its format and its entries, and its getters
    follow the DataCompound contract: the stored value when one of the
    asked-for kind is present, the kind's default otherwise. */
module ImmutableCompounds {
  import opened Outcomes

  datatype Format = Nbt | Json

  /** The kinds of value a compound's getters ask for. */
  datatype Kind = CompoundKind | ListKind | BoolKind | I8Kind | I16Kind | I32Kind | I64Kind
                | F32Kind | F64Kind | I8ArrKind | I32ArrKind | I64ArrKind | F32ArrKind | F64ArrKind | StringKind

  datatype Value =
    | CompoundValue(c: Compound)
    | ListValue(l: DataList)
    | BoolValue(b: bool)
    | IntValue(kind: Kind, i: int)          // I8, I16, I32 or I64
    | RealValue(kind: Kind, x: real)        // F32 or F64
    | IntArrayValue(kind: Kind, a: seq<int>) // I8Arr, I32Arr or I64Arr
    | RealArrayValue(kind: Kind, xs: seq<real>)
    | StringValue(s: string)

  datatype Compound =
    | Plain(format: Format, entries: map<string, Value>)
    | Immutable(inner: Compound)

  datatype DataList =
    | PlainList(format: Format, items: seq<Value>)
    | ImmutableList(innerList: DataList)

  function KindOf(v: Value): Kind {
    match v
    case CompoundValue(_) => CompoundKind
    case ListValue(_) => ListKind
    case BoolValue(_) => BoolKind
    case IntValue(k, _) => k
    case RealValue(k, _) => k
    case IntArrayValue(k, _) => k
    case RealArrayValue(k, _) => k
    case StringValue(_) => StringKind
  }

  /** The "suitable default" a getter returns for a missing entry. */
  function Default(f: Format, k: Kind): (v: Value)
    ensures KindOf(v) == k
  {
    match k
    case CompoundKind => CompoundValue(Plain(f, map[]))
    case ListKind => ListValue(PlainList(f, []))
    case BoolKind => BoolValue(false)
    case StringKind => StringValue("")
    case I8Kind | I16Kind | I32Kind | I64Kind => IntValue(k, 0)
    case F32Kind | F64Kind => RealValue(k, 0.0)
    case I8ArrKind | I32ArrKind | I64ArrKind => IntArrayValue(k, [])
    case _ => RealArrayValue(k, [])
  }

  /** format(): an immutable view reports its compound's format. */
  function FormatOf(c: Compound): (f: Format)
    ensures c.Immutable? ==> f == FormatOf(c.inner)
  {
    match c
    case Plain(f, _) => f
    case Immutable(inner) => FormatOf(inner)
  }

  /** The compound under every layer of wrapping. */
  function Underlying(c: Compound): (p: Compound)
    ensures p.Plain?
  {
    if c.Plain? then c else Underlying(c.inner)
  }

  /** ImmutableCompound.wrap: already immutable compounds come back as
      they are; anything else is wrapped; null is refused. */
  function Wrap(c: Option<Compound>): (r: Result<Compound>)
    ensures r.Err? <==> c.None?
    ensures r.Err? ==> r.failure == NullPointer
    ensures r.Ok? ==> r.value.Immutable? && Underlying(r.value) == Underlying(c.value)
    ensures r.Ok? && c.value.Immutable? ==> r.value == c.value
  {
    if c.None? then Err(NullPointer)
    else if c.value.Immutable? then Ok(c.value)
    else NewImmutable(c)
  }

  /** The constructor: refuses null, and wraps even an immutable compound. */
  function NewImmutable(c: Option<Compound>): (r: Result<Compound>)
    ensures r.Err? <==> c.None?
    ensures r.Err? ==> r.failure == NullPointer
    ensures r.Ok? ==> r.value.Immutable? && r.value.inner == c.value
  {
    if c.None? then Err(NullPointer) else Ok(Immutable(c.value))
  }

  lemma WrapIdempotent(c: Compound)
    ensures Wrap(Some(Wrap(Some(c)).value)) == Wrap(Some(c))
  {
  }

  /** ImmutableList.wrap, by the same rule as compounds. */
  function WrapList(l: DataList): (r: DataList)
    ensures r.ImmutableList? && (l.ImmutableList? ==> r == l)
  {
    if l.ImmutableList? then l else ImmutableList(l)
  }

  /** What a wrapper hands out of a value its compound returned: child
      compounds and lists wrapped, everything else untouched. */
  function Guard(v: Value): (r: Value)
    ensures KindOf(r) == KindOf(v)
    ensures !(v.CompoundValue? || v.ListValue?) ==> r == v
    ensures r.CompoundValue? ==> r.c.Immutable?
    ensures r.ListValue? ==> r.l.ImmutableList?
  {
    match v
    case CompoundValue(c) => CompoundValue(Wrap(Some(c)).value)
    case ListValue(l) => ListValue(WrapList(l))
    case _ => v
  }

  /** contains(name). */
  function Contains(c: Compound, name: string): (b: bool)
    ensures b <==> name in Underlying(c).entries
  {
    if c.Plain? then name in c.entries else Contains(c.inner, name)
  }

  /** opt<Kind>(name): the entry if it is there and of that kind. */
  function Opt(c: Compound, name: string, k: Kind): (r: Option<Value>)
    ensures r.Some? <==> name in Underlying(c).entries && KindOf(Underlying(c).entries[name]) == k
    ensures r.Some? ==> KindOf(r.value) == k
    ensures c.Immutable? ==> r == MapOption(Opt(c.inner, name, k))
  {
    if c.Plain? then
      if name in c.entries && KindOf(c.entries[name]) == k then Some(c.entries[name]) else None
    else MapOption(Opt(c.inner, name, k))
  }

  function MapOption(o: Option<Value>): (r: Option<Value>)
    ensures r.Some? <==> o.Some?
    ensures r.Some? ==> r.value == Guard(o.value)
  {
    if o.Some? then Some(Guard(o.value)) else None
  }

  /** get<Kind>(name): the entry if present and of that kind, the default
      otherwise. */
  function Get(c: Compound, name: string, k: Kind): (r: Value)
    ensures KindOf(r) == k
    ensures c.Immutable? ==> r == Guard(Get(c.inner, name, k))
  {
    if c.Plain? then
      var o := Opt(c, name, k);
      if o.Some? then o.value else Default(c.format, k)
    else Guard(Get(c.inner, name, k))
  }

  /** A wrapper returns, for every name and kind, what the plain compound
      returns, except that child compounds and lists are wrapped. */
  lemma {:induction false} ReadsDelegate(c: Compound, name: string, k: Kind)
    ensures var v := Get(Underlying(c), name, k);
            Get(c, name, k) == (if c.Plain? then v else Guard(v))
    ensures var o := Opt(Underlying(c), name, k);
            Opt(c, name, k) == (if c.Plain? then o else MapOption(o))
  {
    if c.Immutable? {
      ReadsDelegate(c.inner, name, k);
      GuardIdempotent(Get(Underlying(c), name, k));
      var o := Opt(Underlying(c), name, k);
      if o.Some? {
        GuardIdempotent(o.value);
      }
    }
  }

  lemma GuardIdempotent(v: Value)
    ensures Guard(Guard(v)) == Guard(v)
  {
  }

  /** A scalar or array entry reads back exactly as stored. */
  lemma ScalarsPassThrough(c: Compound, name: string)
    requires name in Underlying(c).entries
    requires var v := Underlying(c).entries[name]; !(v.CompoundValue? || v.ListValue?)
    ensures var v := Underlying(c).entries[name];
            Get(c, name, KindOf(v)) == v && Opt(c, name, KindOf(v)) == Some(v)
  {
    ReadsDelegate(c, name, KindOf(Underlying(c).entries[name]));
  }

  /** A child compound read through a wrapper is itself immutable. */
  lemma ChildCompoundsWrapped(c: Compound, name: string)
    requires c.Immutable?
    ensures Get(c, name, CompoundKind).CompoundValue? ==> Get(c, name, CompoundKind).c.Immutable?
  {
  }

  /** readData, read(name, o) and read(list) on an immutable compound. */
  datatype ReadOp = ReadData | ReadNamed | ReadList

  function ImmutableRead(c: Compound, op: ReadOp): (r: Result<Compound>)
    requires c.Immutable?
    ensures r.Err? && r.failure == UnsupportedOperation
  {
    Err(UnsupportedOperation)
  }

  /** createCompound(name) and createList(name) on an immutable compound. */
  function ImmutableCreate(c: Compound, name: string, k: Kind): (r: Result<Value>)
    requires c.Immutable? && k in {CompoundKind, ListKind}
    ensures r.Err? && r.failure == UnsupportedOperation
  {
    Err(UnsupportedOperation)
  }

  /** put(name, data) on a plain compound overwrites the entry. */
  function PlainPut(c: Compound, name: string, v: Value): (r: Compound)
    requires c.Plain?
    ensures r.Plain? && r.format == c.format && Opt(r, name, KindOf(v)) == Some(v)
    ensures forall n :: n != name ==> (n in r.entries <==> n in c.entries)
  {
    Plain(c.format, c.entries[name := v])
  }

  /** put(name, data) on an immutable compound, as written: the call
      builds the UnsupportedOperationException but does not throw it, so
      the put is silently ignored. */
  function Put(c: Compound, name: string, v: Value): (r: Result<Compound>)
    requires c.Immutable?
    ensures r.Ok? && r.value == c
  {
    Ok(c)
  }

  /** The documented behaviour: every put on an immutable compound throws. */
  function PutFixed(c: Compound, name: string, v: Value): (r: Result<Compound>)
    requires c.Immutable?
    ensures r.Err? && r.failure == UnsupportedOperation
  {
    Err(UnsupportedOperation)
  }

  /** As written, a put on an immutable compound reports success, so the
      caller cannot tell its write was dropped: storing a value under a
      fresh name and reading it back finds nothing. */
  lemma PutSilentlyDropped(c: Compound, name: string, v: Value)
    requires c.Immutable? && !Contains(c, name)
    ensures Put(c, name, v).Ok? && !Contains(Put(c, name, v).value, name)
    ensures PutFixed(c, name, v).Err?
  {
  }

  /** Neither version of put changes what the compound holds. */
  lemma PutsLeaveContents(c: Compound, name: string, v: Value, n: string, k: Kind)
    requires c.Immutable?
    ensures Put(c, name, v).Ok? ==> Get(Put(c, name, v).value, n, k) == Get(c, n, k)
    ensures PutFixed(c, name, v).Err?
  {
  }

  /** The plain compound's convert: the same compound for its own format,
      a copy in the other format otherwise. */
  function PlainConvert(c: Compound, f: Format): (r: Compound)
    requires c.Plain?
    ensures r.Plain? && r.format == f && r.entries == c.entries
  {
    if c.format == f then c else Plain(f, c.entries)
  }

  /** convert(format) on an immutable compound: the wrapped compound is
      converted (itself a view when views are nested); the wrapper itself
      comes back when that conversion returns the wrapped compound, and a
      new wrapper around the converted compound otherwise. */
  function Convert(c: Compound, f: Format): (r: Compound)
    requires c.Immutable?
    ensures r.Immutable? && Underlying(r) == PlainConvert(Underlying(c), f)
    ensures r == c <==> FormatOf(c) == f
    ensures c.inner.Plain? ==> r.inner == PlainConvert(c.inner, f)
    ensures c.inner.Immutable? ==> r.inner.Immutable?
  {
    var converted := if c.inner.Plain? then PlainConvert(c.inner, f) else Convert(c.inner, f);
    if converted == c.inner then c else Immutable(converted)
  }

  /** The format a view reports is its underlying compound's. */
  lemma {:induction false} FormatOfUnderlying(c: Compound)
    ensures FormatOf(c) == Underlying(c).format
  {
    if c.Immutable? {
      FormatOfUnderlying(c.inner);
    }
  }

  /** Converting twice to the same format is converting once: the second
      conversion finds the format already right and returns the view. */
  lemma ConvertIdempotent(c: Compound, f: Format)
    requires c.Immutable?
    ensures Convert(Convert(c, f), f) == Convert(c, f)
  {
    FormatOfUnderlying(Convert(c, f));
  }

  /** copy(format): delegated, and the copy is a plain, writable compound. */
  function Copy(c: Compound, f: Format): (r: Compound)
    ensures r.Plain? && r.format == f && r.entries == Underlying(c).entries
  {
    if c.Plain? then Plain(f, c.entries) else Copy(c.inner, f)
  }

  /** A copy of a wrapper can be written to, unlike the wrapper. */
  lemma CopyIsWritable(c: Compound, name: string, v: Value)
    requires c.Immutable?
    ensures Opt(PlainPut(Copy(c, FormatOf(c)), name, v), name, KindOf(v)) == Some(v)
  {
  }
}

=== FILE: int_list.dfy ===
/** IntList.java: a resizable int array with a separate size. */
module IntLists {
  import opened JavaInt
  import opened Outcomes

  /** The backing array and the number of entries in use.  Entries of
      `data` beyond `size` are stale but still readable through Get. */
  datatype IntList = IntList(data: seq<Int32>, size: nat) {
    predicate Valid() { size <= |data| < TwoTo31 }

    /** The list's elements. */
    function Contents(): (s: seq<Int32>)
      requires Valid()
      ensures |s| == size
    {
      data[..size]
    }
  }

  const DefaultLength: Int32 := 8

  /** The constructor: an array of the given length, negative lengths being
      an exception. */
  function NewIntList(initialLength: Int32): (r: Result<IntList>)
    ensures r.Ok? <==> initialLength >= 0
    ensures r.Err? ==> r.failure == NegativeArraySize
    ensures r.Ok? ==> r.value.Valid() && r.value.Contents() == []
                      && |r.value.data| == initialLength
  {
    if initialLength < 0 then Err(NegativeArraySize)
    else Ok(IntList(seq(initialLength, _ => 0), 0))
  }

  function IsEmpty(l: IntList): (b: bool)
    requires l.Valid()
    ensures b <==> l.Contents() == []
  {
    l.size == 0
  }

  /** Arrays.copyOf(data, n): truncated or zero-padded to length n. */
  function CopyOf(data: seq<Int32>, n: nat): (r: seq<Int32>)
    ensures |r| == n
    ensures forall i :: 0 <= i < n ==> r[i] == if i < |data| then data[i] else 0
  {
    if n <= |data| then data[..n] else data + seq(n - |data|, _ => 0)
  }

  /** The growth step add and addSorted share: when full, the array becomes
      2 * size + 1 long, computed in 32-bit arithmetic, so a list of 2^30 or
      more entries cannot grow. */
  function Grow(l: IntList): (r: Result<IntList>)
    requires l.Valid()
    ensures r.Ok? <==> l.size < |l.data| || l.size < 0x4000_0000
    ensures r.Err? ==> r.failure == NegativeArraySize
    ensures r.Ok? ==> r.value.Valid() && r.value.size == l.size && l.size < |r.value.data|
                      && r.value.Contents() == l.Contents()
    ensures r.Ok? && l.size < |l.data| ==> r.value == l
    ensures r.Ok? ==> forall i :: l.size <= i < |r.value.data| ==>
      r.value.data[i] == if i < |l.data| then l.data[i] else 0
  {
    if l.size < |l.data| then Ok(l)
    else
      var n := Add(Mul(2, l.size), 1);
      if n < 0 then Err(NegativeArraySize)
      else Ok(IntList(CopyOf(l.data, n), l.size))
  }

  /** IntList.add: appends. */
  function Append(l: IntList, i: Int32): (r: Result<IntList>)
    requires l.Valid()
    ensures r.Ok? <==> Grow(l).Ok?
    ensures r.Ok? ==> r.value.Valid() && r.value.Contents() == l.Contents() + [i]
  {
    var g :- Grow(l);
    var data := g.data[g.size := i];
    assert data[..g.size + 1] == g.data[..g.size] + [i];
    Ok(IntList(data, g.size + 1))
  }

  /** Inserting into a sorted sequence before the first strictly greater
      element: the reference definition for addSorted. */
  function InsertSorted(s: seq<Int32>, i: Int32): seq<Int32> {
    if |s| == 0 then [i]
    else if s[0] <= i then [s[0]] + InsertSorted(s[1..], i)
    else [i] + s
  }

  predicate Sorted(s: seq<int>) {
    forall a, b :: 0 <= a < b < |s| ==> s[a] <= s[b]
  }

  /** InsertSorted adds exactly one copy of i ... */
  lemma {:induction false} InsertSortedCounts(s: seq<Int32>, i: Int32)
    ensures multiset(InsertSorted(s, i)) == multiset(s) + multiset{i}
    ensures |InsertSorted(s, i)| == |s| + 1
  {
    if |s| > 0 && s[0] <= i {
      InsertSortedCounts(s[1..], i);
      assert s == [s[0]] + s[1..];
    }
  }

  /** ... keeps every lower bound that s and i share ... */
  lemma {:induction false} InsertSortedBound(s: seq<Int32>, i: Int32, lo: int)
    requires lo <= i && forall k :: 0 <= k < |s| ==> lo <= s[k]
    ensures forall k :: 0 <= k < |InsertSorted(s, i)| ==> lo <= InsertSorted(s, i)[k]
  {
    if |s| > 0 && s[0] <= i {
      InsertSortedBound(s[1..], i, lo);
    }
  }

  /** ... and keeps a sorted sequence sorted. */
  lemma {:induction false} InsertSortedSorted(s: seq<Int32>, i: Int32)
    requires Sorted(s)
    ensures Sorted(InsertSorted(s, i))
  {
    if |s| > 0 {
      if s[0] <= i {
        InsertSortedSorted(s[1..], i);
        InsertSortedBound(s[1..], i, s[0]);
      }
    }
  }

  /** InsertSorted places i at the first index whose element exceeds it. */
  lemma {:induction false} InsertSortedAt(s: seq<Int32>, i: Int32, idx: nat)
    requires idx <= |s|
    requires forall k :: 0 <= k < idx ==> s[k] <= i
    requires idx < |s| ==> s[idx] > i
    ensures InsertSorted(s, i) == s[..idx] + [i] + s[idx..]
  {
    if idx > 0 {
      InsertSortedAt(s[1..], i, idx - 1);
      assert s[..idx] == [s[0]] + s[1..][..idx - 1];
      assert s[idx..] == s[1..][idx - 1..];
    }
  }

  /** IntList.addSorted: grows if full, scans for the first element greater
      than i, shifts the tail right by one and writes i there. */
  method AddSorted(l: IntList, i: Int32) returns (r: Result<IntList>)
    requires l.Valid()
    ensures r.Ok? <==> Grow(l).Ok?
    ensures r.Ok? ==> r.value.Valid() && r.value.Contents() == InsertSorted(l.Contents(), i)
  {
    var g := Grow(l);
    if g.Err? {
      return Err(g.failure);
    }
    var data := g.value.data;
    var size := g.value.size;
    var idx := 0;
    while idx < size && data[idx] <= i
      invariant 0 <= idx <= size
      invariant forall k :: 0 <= k < idx ==> data[k] <= i
    {
      idx := idx + 1;
    }
    var shifted := data[..idx] + [i] + data[idx..size] + data[size + 1..];
    assert shifted[..size + 1] == data[..size][..idx] + [i] + data[..size][idx..];
    InsertSortedAt(data[..size], i, idx);
    return Ok(IntList(shifted, size + 1));
  }

  /** Removing the first occurrence: the reference definition for remove. */
  function RemoveFirst(s: seq<Int32>, i: Int32): seq<Int32> {
    if |s| == 0 then []
    else if s[0] == i then s[1..]
    else [s[0]] + RemoveFirst(s[1..], i)
  }

  /** remove(i) takes exactly one i out of the list, if there is one, and
      leaves the list as it is otherwise. */
  lemma RemoveFirstSpec(s: seq<Int32>, i: Int32)
    ensures multiset(RemoveFirst(s, i)) == multiset(s) - multiset{i}
    ensures i in s <==> |RemoveFirst(s, i)| == |s| - 1
    ensures i !in s ==> RemoveFirst(s, i) == s
  {
    RemoveFirstMultiset(s, i);
    RemoveFirstShape(s, i);
  }

  lemma {:induction false} RemoveFirstMultiset(s: seq<Int32>, i: Int32)
    ensures multiset(RemoveFirst(s, i)) == multiset(s) - multiset{i}
  {
    if |s| > 0 {
      var x, rest := s[0], s[1..];
      assert s == [x] + rest;
      RemoveFirstMultiset(rest, i);
      if x != i {
        assert RemoveFirst(s, i) == [x] + RemoveFirst(rest, i);
        MultisetMinusCons(x, rest, i);
      }
    }
  }

  lemma {:induction false} RemoveFirstShape(s: seq<Int32>, i: Int32)
    ensures i in s <==> |RemoveFirst(s, i)| == |s| - 1
    ensures i !in s ==> RemoveFirst(s, i) == s
  {
    if |s| > 0 {
      var x, rest := s[0], s[1..];
      assert s == [x] + rest;
      RemoveFirstShape(rest, i);
      assert i in s <==> x == i || i in rest;
    }
  }

  /** Removing an element other than the head commutes with the head. */
  lemma MultisetMinusCons(x: Int32, rest: seq<Int32>, i: Int32)
    requires x != i
    ensures multiset([x] + rest) - multiset{i} == multiset([x]) + (multiset(rest) - multiset{i})
  {
  }

  lemma {:induction false} RemoveFirstAt(s: seq<Int32>, i: Int32, idx: nat)
    requires idx < |s| && s[idx] == i
    requires forall k :: 0 <= k < idx ==> s[k] != i
    ensures RemoveFirst(s, i) == s[..idx] + s[idx + 1..]
  {
    if idx > 0 {
      RemoveFirstAt(s[1..], i, idx - 1);
      assert s[..idx] == [s[0]] + s[1..][..idx - 1];
      assert s[idx + 1..] == s[1..][idx..];
    }
  }

  /** IntList.remove: finds the first occurrence, shifts the tail left by
      one (the last in-use slot keeps its old value) and reports whether
      anything was removed. */
  method Remove(l: IntList, i: Int32) returns (r: IntList, removed: bool)
    requires l.Valid()
    ensures r.Valid() && |r.data| == |l.data|
    ensures removed <==> i in l.Contents()
    ensures r.Contents() == RemoveFirst(l.Contents(), i)
    ensures !removed ==> r == l
  {
    var idx := 0;
    while idx < l.size && l.data[idx] != i
      invariant 0 <= idx <= l.size
      invariant forall k :: 0 <= k < idx ==> l.data[k] != i
    {
      idx := idx + 1;
    }
    if idx == l.size {
      RemoveFirstSpec(l.Contents(), i);
      return l, false;
    }
    var size := l.size - 1;
    var data := l.data[..idx] + l.data[idx + 1..l.size] + [l.data[size]] + l.data[l.size..];
    assert data[..size] == l.Contents()[..idx] + l.Contents()[idx + 1..];
    RemoveFirstAt(l.Contents(), i, idx);
    return IntList(data, size), true;
  }

  /** Removing what addSorted inserted gives a sorted list back its
      contents. */
  lemma {:induction false} RemoveUndoesInsertSorted(s: seq<Int32>, i: Int32)
    requires Sorted(s)
    ensures RemoveFirst(InsertSorted(s, i), i) == s
  {
    if |s| > 0 && s[0] <= i {
      if s[0] == i {
        InsertSortedEqualRun(s[1..], i);
      } else {
        RemoveUndoesInsertSorted(s[1..], i);
      }
    }
  }

  /** Inserting i into a sorted run that starts at or above i is the same
      as prepending it. */
  lemma {:induction false} InsertSortedEqualRun(s: seq<Int32>, i: Int32)
    requires Sorted(s) && forall k :: 0 <= k < |s| ==> i <= s[k]
    ensures InsertSorted(s, i) == [i] + s
  {
    if |s| > 0 && s[0] <= i {
      InsertSortedEqualRun(s[1..], i);
      assert s[0] == i;
      assert s == [s[0]] + s[1..];
    }
  }

  /** IntList.set: writes any slot of the backing array, in use or not. */
  function Set(l: IntList, index: Int32, i: Int32): (r: Result<IntList>)
    requires l.Valid()
    ensures r.Ok? <==> 0 <= index < |l.data|
    ensures r.Err? ==> r.failure == IndexOutOfBounds
    ensures r.Ok? ==> r.value.Valid() && r.value.size == l.size && Get(r.value, index) == Ok(i)
    ensures r.Ok? ==> forall k :: 0 <= k < |l.data| && k != index ==> Get(r.value, k) == Get(l, k)
  {
    if 0 <= index < |l.data| then Ok(IntList(l.data[index := i], l.size))
    else Err(IndexOutOfBounds)
  }

  /** IntList.get: reads any slot of the backing array. */
  function Get(l: IntList, index: int): (r: Result<Int32>)
    requires l.Valid()
    ensures r.Ok? <==> 0 <= index < |l.data|
    ensures 0 <= index < l.size ==> r == Ok(l.Contents()[index])
  {
    if 0 <= index < |l.data| then Ok(l.data[index]) else Err(IndexOutOfBounds)
  }

  /** IntList.clear: only the size is reset; the array keeps its values. */
  function Clear(l: IntList): (r: IntList)
    requires l.Valid()
    ensures r.Valid() && r.Contents() == []
    ensures forall k :: 0 <= k < |l.data| ==> Get(r, k) == Get(l, k)
  {
    l.(size := 0)
  }

  /** IntList.clear(IntConsumer) and interate: the values handed to the
      action, in order; clearing also resets the size. */
  method Drain(l: IntList, clearAfter: bool) returns (r: IntList, accepted: seq<Int32>)
    requires l.Valid()
    ensures accepted == l.Contents()
    ensures r == if clearAfter then Clear(l) else l
  {
    accepted := [];
    var k := 0;
    while k < l.size
      invariant 0 <= k <= l.size && accepted == l.data[..k]
    {
      accepted := accepted + [l.data[k]];
      k := k + 1;
    }
    r := if clearAfter then Clear(l) else l;
  }
}

=== FILE: iterator_utils.dfy ===
/** IteratorUtils.java: removal by predicate while iterating, and
    iteration that skips nulls. */
module IteratorUtils {
  import opened Outcomes

  /** What is left of s after removing every element pred accepts: the
      reference definition of forEach's effect on a collection. */
  function RemoveWhere<T>(s: seq<T>, pred: T -> bool): (r: seq<T>)
    ensures |r| <= |s|
    ensures forall k :: 0 <= k < |r| ==> r[k] in s && !pred(r[k])
    ensures forall k :: 0 <= k < |s| && !pred(s[k]) ==> s[k] in r
  {
    if |s| == 0 then [] else (if pred(s[0]) then [] else [s[0]]) + RemoveWhere(s[1..], pred)
  }

  /** Removal keeps the survivors' order: it distributes over
      concatenation. */
  lemma {:induction false} RemoveWhereAppend<T>(a: seq<T>, b: seq<T>, pred: T -> bool)
    ensures RemoveWhere(a + b, pred) == RemoveWhere(a, pred) + RemoveWhere(b, pred)
  {
    if |a| > 0 {
      assert (a + b)[1..] == a[1..] + b;
      RemoveWhereAppend(a[1..], b, pred);
    } else {
      assert a + b == b;
    }
  }

  lemma RemoveWhereSnoc<T>(a: seq<T>, x: T, pred: T -> bool)
    ensures RemoveWhere(a + [x], pred) == RemoveWhere(a, pred) + (if pred(x) then [] else [x])
  {
    RemoveWhereAppend(a, [x], pred);
    assert [x][1..] == [];
  }

  /** The elements pred accepts, in order: what forEach removes. */
  function Accepted<T>(s: seq<T>, pred: T -> bool): seq<T> {
    if |s| == 0 then [] else (if pred(s[0]) then [s[0]] else []) + Accepted(s[1..], pred)
  }

  /** The elements removed and the survivors together are the original
      elements. */
  lemma {:induction false} RemoveWherePartition<T>(s: seq<T>, pred: T -> bool)
    ensures multiset(RemoveWhere(s, pred)) + multiset(Accepted(s, pred)) == multiset(s)
  {
    if |s| > 0 {
      var x, rest := s[0], s[1..];
      RemoveWherePartition(rest, pred);
      assert s == [x] + rest;
      if pred(x) {
        assert Accepted(s, pred) == [x] + Accepted(rest, pred);
      } else {
        assert RemoveWhere(s, pred) == [x] + RemoveWhere(rest, pred);
      }
      PartitionStep(x, rest, RemoveWhere(s, pred), Accepted(s, pred), RemoveWhere(rest, pred), Accepted(rest, pred));
    }
  }

  /** One more element on either side of a partition. */
  lemma PartitionStep<T>(x: T, rest: seq<T>, kept: seq<T>, gone: seq<T>, kept': seq<T>, gone': seq<T>)
    requires multiset(kept') + multiset(gone') == multiset(rest)
    requires (kept == [x] + kept' && gone == gone') || (kept == kept' && gone == [x] + gone')
    ensures multiset(kept) + multiset(gone) == multiset([x] + rest)
  {
  }

  /** IteratorUtils.forEach: walks the collection once, testing each
      element and removing those pred accepts.  `tested` is the sequence of
      arguments pred was called with. */
  method ForEach<T>(s: seq<T>, pred: T -> bool) returns (kept: seq<T>, tested: seq<T>)
    ensures tested == s
    ensures kept == RemoveWhere(s, pred)
  {
    kept, tested := [], [];
    var i := 0;
    while i < |s|
      invariant 0 <= i <= |s|
      invariant tested == s[..i]
      invariant kept == RemoveWhere(s[..i], pred)
    {
      var x := s[i];
      tested := tested + [x];
      RemoveWhereSnoc(s[..i], x, pred);
      assert s[..i + 1] == s[..i] + [x];
      if !pred(x) {
        kept := kept + [x];
      }
      i := i + 1;
    }
    assert s[..|s|] == s;
  }

  /** The non-null elements of s, in order: what iteratorNullsFiltered
      yields. */
  function NullsFiltered<T>(s: seq<Option<T>>): (r: seq<T>)
    ensures |r| <= |s|
    ensures forall k :: 0 <= k < |r| ==> Some(r[k]) in s
    ensures forall k :: 0 <= k < |s| && s[k].Some? ==> s[k].value in r
  {
    if |s| == 0 then []
    else (if s[0].Some? then [s[0].value] else []) + NullsFiltered(s[1..])
  }

  /** iteratorNullsFiltered yields exactly what removing the nulls leaves,
      unwrapped. */
  lemma {:induction false} NullsFilteredIsRemoval<T>(s: seq<Option<T>>)
    ensures |NullsFiltered(s)| == |RemoveWhere(s, (o: Option<T>) => o.None?)|
    ensures forall k :: 0 <= k < |NullsFiltered(s)| ==>
      Some(NullsFiltered(s)[k]) == RemoveWhere(s, (o: Option<T>) => o.None?)[k]
  {
    if |s| > 0 {
      NullsFilteredIsRemoval(s[1..]);
    }
  }
}

=== FILE: java_int.dfy ===
/** The 32-bit integer arithmetic of Java, on unbounded integers. */
module JavaInt {

  const TwoTo31: int := 0x8000_0000
  const TwoTo32: int := 0x1_0000_0000

  /** A value of Java's `int`. */
  type Int32 = x: int | -TwoTo31 <= x < TwoTo31

  function Pow2(k: nat): (r: nat)
    ensures r >= 1
  {
    if k == 0 then 1 else 2 * Pow2(k - 1)
  }

  lemma {:induction false} PowMono(a: nat, b: nat)
    requires a <= b
    ensures Pow2(a) <= Pow2(b)
    decreases b
  {
    if a < b {
      PowMono(a, b - 1);
    }
  }

  lemma {:induction false} PowAdd(a: nat, b: nat)
    ensures Pow2(a + b) == Pow2(a) * Pow2(b)
    decreases b
  {
    if b > 0 {
      PowAdd(a, b - 1);
      assert Pow2(a + b) == 2 * Pow2(a + b - 1);
    }
  }

  lemma Pow2At30()
    ensures Pow2(30) == 0x4000_0000
  {
    assert Pow2(10) == 1024;
    PowAdd(10, 10);
    PowAdd(20, 10);
  }

  /** 2^k as a Java int, for the shifts a 32-bit int allows without
      reaching the sign bit. */
  function PowInt(k: nat): (r: Int32)
    requires k <= 30
    ensures r == Pow2(k)
  {
    PowMono(k, 30);
    Pow2At30();
    Pow2(k)
  }

  /** Facts about Euclidean remainder by a positive divisor. */
  lemma ModFacts(c: int, p: int)
    requires p > 0
    ensures 0 <= c % p < p
    ensures c == p * (c / p) + c % p
    ensures (c - c % p) % p == 0
  {
    var q := c / p;
    assert c - c % p == p * q;
    ModUnique(p * q, p, q, 0);
  }

  /** Two's-complement wrap-around of an exact result to 32 bits. */
  function Wrap32(x: int): (r: Int32)
    ensures (r - x) % TwoTo32 == 0
    ensures -TwoTo31 <= x < TwoTo31 ==> r == x
  {
    (x + TwoTo31) % TwoTo32 - TwoTo31
  }

  /** Java's `a * b` on ints. */
  function Mul(a: Int32, b: Int32): Int32 {
    Wrap32(a * b)
  }

  /** Java's `a + b` on ints. */
  function Add(a: Int32, b: Int32): Int32 {
    Wrap32(a + b)
  }

  /** Java's `c >> k`: section 15.19 of the Java Language Specification
      defines the arithmetic right shift as floor(c / 2^k); Dafny's division
      by a positive divisor is exactly that floor. */
  function Shr(c: Int32, k: nat): Int32
    requires k < 32
  {
    FloorDivBounds(c, Pow2(k));
    c / Pow2(k)
  }

  lemma FloorDivBounds(c: Int32, d: nat)
    requires d >= 1
    ensures -TwoTo31 <= c / d < TwoTo31
  {
  }

  /** Bitwise AND of two integers read as infinite two's-complement bit
      strings; on 32-bit values this is Java's `a & b`. */
  function BitAnd(a: int, b: int): int
    decreases Abs(a) + Abs(b)
  {
    if a == 0 || b == 0 then 0
    else if a == -1 then b
    else if b == -1 then a
    else 2 * BitAnd(a / 2, b / 2) + (a % 2) * (b % 2)
  }

  function Abs(a: int): nat { if a < 0 then -a else a }

  /** Java's integer quotient, rounding toward zero (JLS section 15.17.2),
      before the 32-bit wrap that only Integer.MIN_VALUE / -1 needs. */
  function Quot(a: int, b: int): (q: int)
    requires b != 0
    ensures Abs(q) * Abs(b) <= Abs(a) < (Abs(q) + 1) * Abs(b)
    ensures q == 0 || (q > 0 <==> (a > 0) == (b > 0))
  {
    var m := Abs(a) / Abs(b);
    ModFacts(Abs(a), Abs(b));
    if (a >= 0) == (b > 0) then m else -m
  }

  /** Java's remainder (JLS section 15.17.3): the sign follows the dividend. */
  function Rem(a: int, b: int): (r: int)
    requires b != 0
    ensures a == b * Quot(a, b) + r
    ensures Abs(r) < Abs(b)
    ensures a >= 0 ==> r >= 0
    ensures a <= 0 ==> r <= 0
  {
    var q := Quot(a, b);
    QuotRem(a, b, q);
    a - b * q
  }

  lemma QuotRem(a: int, b: int, q: int)
    requires b != 0 && q == Quot(a, b)
    ensures Abs(a - b * q) < Abs(b)
    ensures a >= 0 ==> a - b * q >= 0
    ensures a <= 0 ==> a - b * q <= 0
  {
    var A: int, B: int := Abs(a), Abs(b);
    var m: int := A / B;
    ModFacts(A, B);
    var r0: int := A % B;
    var bm: int := B * m;
    assert A == bm + r0;
    SignedProduct(b, B, q, m);
    if (a >= 0) == (b > 0) {
      assert q == m;
    } else {
      assert q == -m;
    }
  }

  /** b * q is +-(|b| * m) according to the signs, when |q| == m. */
  lemma SignedProduct(b: int, B: int, q: int, m: int)
    requires B == Abs(b) && (q == m || q == -m)
    ensures (b > 0) == (q == m) ==> b * q == B * m || m == 0
    ensures (b > 0) != (q == m) ==> b * q == -(B * m) || m == 0
  {
  }

  /** Masking with 2^k - 1 keeps the low k bits: the result is the
      non-negative remainder of c modulo 2^k, for negative c too. */
  lemma {:induction false} MaskIsMod(c: int, k: nat)
    ensures BitAnd(c, Pow2(k) - 1) == c % Pow2(k)
    decreases k
  {
    if k == 0 {
    } else if c == 0 {
    } else if c == -1 {
      assert BitAnd(c, Pow2(k) - 1) == Pow2(k) - 1;
      NegOneMod(k);
    } else {
      var m := Pow2(k) - 1;
      assert m != 0 && m != -1;
      assert m / 2 == Pow2(k - 1) - 1;
      assert m % 2 == 1;
      MaskIsMod(c / 2, k - 1);
      assert BitAnd(c, m) == 2 * ((c / 2) % Pow2(k - 1)) + c % 2;
      HalfMod(c, Pow2(k - 1));
    }
  }

  lemma NegOneMod(k: nat)
    ensures -1 % Pow2(k) == Pow2(k) - 1
  {
    var p: int := Pow2(k);
    assert -1 == p * -1 + (p - 1);
    ModUnique(-1, p, -1, p - 1);
  }

  lemma HalfMod(c: int, h: nat)
    requires h >= 1
    ensures 2 * ((c / 2) % h) + c % 2 == c % (2 * h)
  {
    var q := c / 2;
    var b := c % 2;
    assert c == 2 * q + b;
    var q2 := q / h;
    var r2 := q % h;
    assert q == h * q2 + r2;
    assert c == (2 * h) * q2 + (2 * r2 + b);
    assert 0 <= 2 * r2 + b < 2 * h;
    ModUnique(c, 2 * h, q2, 2 * r2 + b);
  }

  lemma ModUnique(c: int, d: int, q: int, r: int)
    requires d > 0 && 0 <= r < d && c == d * q + r
    ensures c % d == r && c / d == q
  {
    var q0, r0 := c / d, c % d;
    assert d * q0 + r0 == d * q + r;
    assert d * (q0 - q) == r - r0 by {
      assert d * (q0 - q) == d * q0 - d * q;
    }
    if q0 > q {
      MulAtLeast(d, q0 - q);
      assert false;
    } else if q0 < q {
      MulAtLeast(d, q - q0);
      assert false;
    }
  }

  lemma MulAtLeast(d: int, k: int)
    requires d > 0 && k >= 1
    ensures d * k >= d
  {
    assert d * k == d + d * (k - 1);
  }
}

=== FILE: nbt_byte_array.dfy ===
/** NBTTagByteArray.java: a named NBT tag whose payload is a byte array.
    Unlike I8ArrBox, the payload field starts out null. */
module NbtByteArrays {
  import opened Outcomes
  import opened JavaInt
  import opened ByteArrays
  import opened DecimalText

  /** The NBT format's type id of a byte-array tag (TAG_Byte_Array). */
  const ByteArrayId: int := 7

  /** `data == None` is a null payload; `name == None` an unnamed tag. */
  datatype NbtByteArray = NbtByteArray(name: Option<string>, data: Option<seq<Byte>>)

  function NewUnnamed(): (t: NbtByteArray)
    ensures t.name.None? && t.data.None?
  {
    NbtByteArray(None, None)
  }

  function NewNamed(name: string): (t: NbtByteArray)
    ensures t.name == Some(name) && t.data.None?
  {
    NbtByteArray(Some(name), None)
  }

  function NewWithData(name: string, data: Option<seq<Byte>>): (t: NbtByteArray)
    ensures t.name == Some(name) && t.data == data
  {
    NbtByteArray(Some(name), data)
  }

  /** write: the length prefix then the payload; a null payload is a null
      dereference before anything is written. */
  function Write(t: NbtByteArray): (r: Result<seq<Byte>>)
    requires t.data.Some? ==> |t.data.value| < TwoTo31
    ensures r.Err? <==> t.data.None?
    ensures r.Err? ==> r.failure == NullPointer
    ensures r.Ok? ==> |r.value| == 4 + |t.data.value| && r.value[4..] == t.data.value
    ensures r.Ok? ==> DecodeInt(r.value[..4]) == |t.data.value|
  {
    if t.data.None? then Err(NullPointer)
    else
      DecodeEncodeInt(|t.data.value|);
      Ok(Encode(t.data.value))
  }

  /** load: the tag afterwards, the unread input and the exception, if any;
      as in I8ArrBox.readData the payload is replaced as soon as the array
      is allocated. */
  datatype LoadResult = LoadResult(tag: NbtByteArray, rest: seq<Byte>, thrown: Option<Failure>)

  function Load(t: NbtByteArray, input: seq<Byte>): (r: LoadResult)
    ensures r.tag.name == t.name
    ensures r.thrown.None? ==> r.tag.data.Some? && |r.tag.data.value| < TwoTo31
                                && input == Write(r.tag).value + r.rest
    ensures |input| < 4 ==> r == LoadResult(t, [], Some(EndOfStream))
  {
    var l := Decode(input);
    if l.field.Some? then LoadResult(t.(data := l.field), l.rest, l.thrown)
    else LoadResult(t, l.rest, l.thrown)
  }

  /** load(write(d)) restores d and keeps the tag's name. */
  lemma LoadWriteRoundTrip(t: NbtByteArray, target: NbtByteArray, tail: seq<Byte>)
    requires t.data.Some? && |t.data.value| < TwoTo31
    ensures Load(target, Write(t).value + tail) == LoadResult(target.(data := t.data), tail, None)
  {
    DecodeEncode(t.data.value, tail);
  }

  /** load fails on a truncated write. */
  lemma LoadTruncated(t: NbtByteArray, target: NbtByteArray, k: nat)
    requires t.data.Some? && |t.data.value| < TwoTo31 && k < 4 + |t.data.value|
    ensures Load(target, Write(t).value[..k]).thrown == Some(EndOfStream)
  {
    TruncatedEncoding(t.data.value, k);
  }

  function GetId(t: NbtByteArray): (id: int)
    ensures 0 <= id < 128
  {
    ByteArrayId
  }

  /** copy: a new tag with the same name and the same payload (the array
      itself is shared, not duplicated). */
  function Copy(t: NbtByteArray): (c: NbtByteArray)
    ensures c.name == t.name && c.data == t.data && GetId(c) == GetId(t)
  {
    NbtByteArray(t.name, t.data)
  }

  /** toString: "[n bytes]", plural even for one byte; a null payload is a
      null dereference. */
  function ToString(t: NbtByteArray): (r: Result<string>)
    ensures r.Err? <==> t.data.None?
    ensures r.Ok? ==> var d := Decimal(|t.data.value|);
                      |r.value| == |d| + 8 && r.value[0] == '[' && r.value[1..1 + |d|] == d
                      && r.value[1 + |d|..] == " bytes]"
  {
    if t.data.None? then Err(NullPointer)
    else Ok("[" + Decimal(|t.data.value|) + " bytes]")
  }

  /** The count toString shows is the payload's length. */
  lemma ToStringCount(t: NbtByteArray)
    requires t.data.Some?
    ensures var d := Decimal(|t.data.value|);
            DigitsValue(ToString(t).value[1..1 + |d|]) == |t.data.value|
  {
    DecimalRoundTrip(|t.data.value|);
  }
}

=== FILE: outcomes.dfy ===
/** Results of operations that may end in one of the Java exceptions the
    modelled code throws. */
module Outcomes {

  /** The exception kinds thrown by the modelled code. */
  datatype Failure =
    | NullPointer
    | IllegalArgument
    | IllegalState
    | UnsupportedOperation
    | EndOfStream
    | IndexOutOfBounds
    | NoSuchElement
    | NegativeArraySize
    | Arithmetic

  /** Either the operation's value or the exception it ends with. */
  datatype Result<+T> = Ok(value: T) | Err(failure: Failure) {
    predicate IsFailure() { Err? }

    function PropagateFailure<U>(): Result<U>
      requires Err?
    {
      Err(failure)
    }

    function Extract(): T
      requires Ok?
    {
      value
    }
  }

  /** Either a value or "absent" (Java's null / an empty Option). */
  datatype Option<+T> = None | Some(value: T)
}

=== FILE: particle_emitter.dfy ===
/** ParticleEmitter.java: the counters that thin out particle creation by
    the reduction factor rf (one particle in rf is made).  rf is read from
    a shared box on every call, so it is a parameter of each operation. */
module ParticleEmitters {
  import opened JavaInt
  import opened Outcomes

  datatype Emitter = Emitter(count: Int32)

  /** The constructor: count starts at rf - 1 so that the first create
      succeeds. */
  function NewEmitter(rf: Int32): (e: Emitter)
    ensures 1 <= rf ==> 0 <= e.count < rf && CanMake(e, rf).1
  {
    Emitter(Wrap32(rf - 1))
  }

  /** canMake: advances the count and answers true, resetting it to 0, once
      it reaches rf. */
  function CanMake(e: Emitter, rf: Int32): (r: (Emitter, bool))
    ensures r.1 <==> Wrap32(e.count + 1) >= rf
    ensures r.1 ==> r.0.count == 0
    ensures 0 <= e.count < rf ==> 0 <= r.0.count < rf
    ensures 0 <= e.count < rf ==> r.0.count == (e.count + 1) % rf
  {
    var c := Wrap32(e.count + 1);
    if c >= rf then (Emitter(0), true) else (Emitter(c), false)
  }

  /** The answers of n successive canMake (or create) calls with a fixed
      rf. */
  function CanMakeRun(e: Emitter, rf: Int32, n: nat): (r: seq<bool>)
    ensures |r| == n
    decreases n
  {
    if n == 0 then [] else [CanMake(e, rf).1] + CanMakeRun(CanMake(e, rf).0, rf, n - 1)
  }

  /** With a fixed rf, call k (counting from 0) succeeds exactly when
      count + k + 1 is a multiple of rf. */
  lemma {:induction false} CanMakeAt(e: Emitter, rf: Int32, n: nat, k: nat)
    requires 0 <= e.count < rf && k < n
    ensures CanMakeRun(e, rf, n)[k] <==> (e.count + k + 1) % rf == 0
    decreases k
  {
    var e' := CanMake(e, rf).0;
    if k == 0 {
      assert CanMakeRun(e, rf, n)[0] == CanMake(e, rf).1;
      ModFacts(e.count + 1, rf);
      if e.count + 1 < rf {
        ModUnique(e.count + 1, rf, 0, e.count + 1);
      }
    } else {
      assert CanMakeRun(e, rf, n)[k] == CanMakeRun(e', rf, n - 1)[k - 1];
      CanMakeAt(e', rf, n - 1, k - 1);
      ShiftMod(e.count + 1, rf, k);
    }
  }

  lemma CanMakePeriodic(e: Emitter, rf: Int32, n: nat)
    requires 0 <= e.count < rf
    ensures forall k :: 0 <= k < n ==> (CanMakeRun(e, rf, n)[k] <==> (e.count + k + 1) % rf == 0)
  {
    forall k | 0 <= k < n
      ensures CanMakeRun(e, rf, n)[k] <==> (e.count + k + 1) % rf == 0
    {
      CanMakeAt(e, rf, n, k);
    }
  }

  lemma ShiftMod(a: int, m: int, k: int)
    requires m > 0
    ensures (a % m + k) % m == (a + k) % m
  {
    var q, r := a / m, a % m;
    ModFacts(a, m);
    var q2, r2 := (r + k) / m, (r + k) % m;
    ModFacts(r + k, m);
    assert a + k == m * (q + q2) + r2 by {
      assert m * (q + q2) == m * q + m * q2;
    }
    ModUnique(a + k, m, q + q2, r2);
  }

  /** From a fresh emitter, exactly the calls numbered 0, rf, 2rf, ... make
      a particle: one in every rf. */
  lemma FreshEmitterPeriod(rf: Int32, n: nat)
    requires 1 <= rf
    ensures forall k :: 0 <= k < n ==> (CanMakeRun(NewEmitter(rf), rf, n)[k] <==> k % rf == 0)
  {
    CanMakePeriodic(NewEmitter(rf), rf, n);
    forall k | 0 <= k < n
      ensures (rf - 1 + k + 1) % rf == k % rf
    {
      ModFacts(k, rf);
      ModUnique(rf + k, rf, k / rf + 1, k % rf);
    }
  }

  /** adjustCount: the number of particles to make out of base, carrying
      the remainder in count, with Java's truncating / and %.  rf == 0 is a
      division by zero. */
  function AdjustCount(e: Emitter, rf: Int32, base: Int32): (r: Result<(Emitter, Int32)>)
    ensures r.Ok? <==> rf != 0
    ensures r.Err? ==> r.failure == Arithmetic
  {
    if rf == 0 then Err(Arithmetic)
    else
      var num := Wrap32(Quot(base, rf));
      var c := Wrap32(e.count + Rem(base, rf));
      if c >= rf then Ok((Emitter(Wrap32(c - rf)), Wrap32(num + 1)))
      else Ok((Emitter(c), num))
  }

  /** adjustCount conserves particles: num * rf + count afterwards equals
      base + count before, for any base, whenever count + base % rf does
      not overflow. */
  lemma AdjustCountConserves(e: Emitter, rf: Int32, base: Int32)
    requires 1 <= rf && 0 <= e.count < rf
    requires e.count + Rem(base, rf) < TwoTo31
    ensures var (e', num) := AdjustCount(e, rf, base).value;
            num * rf + e'.count == base + e.count
  {
    var q := Quot(base, rf);
    var rm := Rem(base, rf);
    QuotInRange(base, rf);
    assert base == q * rf + rm by {
      assert base == rf * q + rm;
    }
    var c := e.count + rm;
    assert Wrap32(q) == q && Wrap32(c) == c;
    if c >= rf {
      assert 1 <= rm;
      QuotSuccInRange(base, rf, q);
      assert Wrap32(q + 1) == q + 1 && Wrap32(c - rf) == c - rf;
      assert (q + 1) * rf == q * rf + rf;
    }
  }

  /** For base >= 0 and count in [0, rf), adjustCount returns base / rf or
      one more, and leaves count in [0, rf). */
  lemma AdjustCountBounds(e: Emitter, rf: Int32, base: Int32)
    requires 1 <= rf && 0 <= base && 0 <= e.count < rf
    requires e.count + Rem(base, rf) < TwoTo31
    ensures var (e', num) := AdjustCount(e, rf, base).value;
            0 <= e'.count < rf && (num == base / rf || num == base / rf + 1)
  {
    QuotInRange(base, rf);
    ModFacts(base, rf);
    ModUnique(base, rf, Quot(base, rf), Rem(base, rf));
    var c := e.count + Rem(base, rf);
    if c >= rf {
      assert 1 <= Rem(base, rf);
      QuotSuccInRange(base, rf, Quot(base, rf));
    }
  }

  lemma QuotInRange(a: Int32, b: Int32)
    requires 1 <= b
    ensures -TwoTo31 <= Quot(a, b) < TwoTo31
  {
    var q := Quot(a, b);
    if Abs(q) >= 1 {
      MulAtLeast(Abs(q), Abs(b));
      assert Abs(q) * Abs(b) >= Abs(q);
    }
  }

  lemma QuotSuccInRange(a: Int32, b: Int32, q: int)
    requires 1 <= b && q == Quot(a, b) && Rem(a, b) >= 1
    ensures q + 1 < TwoTo31
  {
    var r := Rem(a, b);
    assert a == b * q + r;
    assert a > 0;
    if q >= 1 {
      MulAtLeast(q, b);
      assert q * b >= q;
      assert b * q == q * b;
    }
  }
}

=== FILE: particle_pool.dfy ===
/** ParticlePool.java: a LIFO pool of reusable particles whose backing
    array grows and shrinks between 16 and 1024 slots. */
module ParticlePools {
  import opened JavaInt
  import opened Outcomes

  const CapacityInitial: int := 16
  const CapacityMax: int := 1024
  const LoadFactor: int := 3
  const Expansion: int := 2
  const RetentionOnFlush: int := 8

  /** A pool.  `pooled` is the in-use prefix of the backing array (its
      length is poolSize), `length` the array's length; `id` is the
      particle class's registry id. */
  datatype Pool<P> = Pool(id: int, length: int, pooled: seq<P>, active: Int32, expansionLoad: int)
  {
    predicate Valid() {
      ValidLength(length) && |pooled| <= length && expansionLoad == length * LoadFactor
    }
  }

  /** The lengths reachable from 16 by doubling at most six times. */
  predicate ValidLength(n: int) {
    n == 16 || n == 32 || n == 64 || n == 128 || n == 256 || n == 512 || n == 1024
  }

  /** What get() hands out: a new instance from the registry, or a pooled
      one. */
  datatype Taken<P> = Fresh | Reused(p: P)

  /** The constructor: the class must be registered (id != -1). */
  function NewPool<P>(id: int): (r: Result<Pool<P>>)
    ensures r.Ok? <==> id != -1
    ensures r.Err? ==> r.failure == IllegalState
    ensures r.Ok? ==> r.value.Valid() && r.value.pooled == [] && r.value.active == 0
                      && r.value.length == CapacityInitial
  {
    if id == -1 then Err(IllegalState)
    else Ok(Pool(id, CapacityInitial, [], 0, CapacityInitial * LoadFactor))
  }

  /** ParticlePool.get: counts one more active particle and pops the most
      recently pooled particle, if any. */
  function Get<P>(pool: Pool<P>): (r: (Pool<P>, Taken<P>))
    requires pool.Valid()
    ensures r.0.Valid() && r.0.length == pool.length && r.0.expansionLoad == pool.expansionLoad
    ensures r.0.active == Wrap32(pool.active + 1)
    ensures pool.pooled == [] <==> r.1.Fresh?
    ensures pool.pooled == [] ==> r.0.pooled == []
    ensures r.1.Reused? ==> r.0.pooled + [r.1.p] == pool.pooled
  {
    var p := pool.(active := Wrap32(pool.active + 1));
    if |pool.pooled| == 0 then (p, Fresh)
    else (p.(pooled := pool.pooled[..|pool.pooled| - 1]), Reused(pool.pooled[|pool.pooled| - 1]))
  }

  /** ParticlePool.put: pushes the particle unless the array is full, in
      which case it is dropped.  The particle's reset is not modelled. */
  function Put<P>(pool: Pool<P>, x: P): (r: Pool<P>)
    requires pool.Valid()
    ensures r.Valid()
    ensures |pool.pooled| == pool.length ==> r == pool
    ensures |pool.pooled| < pool.length ==> r == pool.(pooled := pool.pooled + [x])
  {
    if |pool.pooled| == pool.length then pool else pool.(pooled := pool.pooled + [x])
  }

  /** Whether reclaim expands the pool: the active count before its
      decrement exceeds the expansion load and the array is below the
      maximum. */
  predicate Expands<P>(pool: Pool<P>) {
    pool.active > pool.expansionLoad && pool.length < CapacityMax
  }

  /** ParticlePool.reclaim: one fewer active particle; the array doubles
      when Expands holds, resetting the expansion load; then put. */
  function Reclaim<P>(pool: Pool<P>, x: P): (r: Pool<P>)
    requires pool.Valid()
    ensures r.Valid()
    ensures r.active == Wrap32(pool.active - 1)
    ensures r.length == if Expands(pool) then Expansion * pool.length else pool.length
    ensures |r.pooled| == |pool.pooled| + 1 || (|r.pooled| == |pool.pooled| == pool.length == r.length)
    ensures |r.pooled| == |pool.pooled| + 1 ==> r.pooled == pool.pooled + [x]
    ensures |r.pooled| == |pool.pooled| ==> r.pooled == pool.pooled
  {
    var p := pool.(active := Wrap32(pool.active - 1));
    var p' := if Expands(pool) then
                p.(length := Expansion * pool.length, expansionLoad := Expansion * pool.length * LoadFactor)
              else p;
    Put(p', x)
  }

  /** Whether flush shrinks the pool. */
  predicate Shrinks<P>(pool: Pool<P>) {
    pool.length > CapacityInitial && pool.active < pool.length / LoadFactor
  }

  /** ParticlePool.flush: keeps at most 8 pooled particles (the oldest) and
      halves the array when Shrinks holds. */
  function Flush<P>(pool: Pool<P>): (r: Pool<P>)
    requires pool.Valid()
    ensures r.Valid() && r.active == pool.active
    ensures |r.pooled| == if |pool.pooled| > RetentionOnFlush then RetentionOnFlush else |pool.pooled|
    ensures r.pooled == pool.pooled[..|r.pooled|]
    ensures r.length == if Shrinks(pool) then pool.length / Expansion else pool.length
  {
    var keep := if |pool.pooled| > RetentionOnFlush then pool.pooled[..RetentionOnFlush] else pool.pooled;
    var p := if Shrinks(pool) then
               pool.(length := pool.length / Expansion, expansionLoad := pool.length / Expansion * LoadFactor)
             else pool;
    p.(pooled := keep)
  }

  /** A reclaimed particle that found room is the next one get() reuses. */
  lemma ReclaimThenGet<P>(pool: Pool<P>, x: P)
    requires pool.Valid() && |pool.pooled| < pool.length
    ensures Get(Reclaim(pool, x)).1 == Reused(x)
    ensures Get(Reclaim(pool, x)).0.pooled == pool.pooled
  {
  }

  /** get undoes put: pooling a particle and taking one back restores the
      pooled contents and hands out that particle. */
  lemma PutThenGet<P>(pool: Pool<P>, x: P)
    requires pool.Valid() && |pool.pooled| < pool.length
    ensures Get(Put(pool, x)) == (pool.(active := Wrap32(pool.active + 1)), Reused(x))
  {
    assert (pool.pooled + [x])[..|pool.pooled|] == pool.pooled;
  }
}

=== FILE: profiler.dfy ===
/** Profiler.java: the section stack and section tree of the profiler,
    without the timing.  Sections are objects, so they live in an arena
    indexed by nat; a section name is a string reference, compared by
    identity as the source's `==` on strings does. */
module Profilers {
  import opened Outcomes

  /** A Java string reference: its characters and its identity. */
  datatype Name = Name(text: string, ref: nat)

  datatype Section = Section(name: Name, children: seq<nat>)

  datatype Profiler = Profiler(
    arena: seq<Section>,
    root: nat,
    lastRoot: nat,
    stack: seq<nat>,
    enabled: bool,
    effectivelyEnabled: bool)
  {
    predicate Valid() {
      root < |arena| && lastRoot < |arena|
      && (forall k :: 0 <= k < |stack| ==> stack[k] < |arena|)
      && (forall i, k :: 0 <= i < |arena| && 0 <= k < |arena[i].children| ==> arena[i].children[k] < |arena|)
    }

    /** The root keeps the name the profiler was created with. */
    predicate RootNamed(n: Name)
      requires Valid()
    {
      arena[root].name == n && arena[lastRoot].name == n
    }
  }

  /** No section has two children with the same name reference. */
  predicate DistinctChildren(arena: seq<Section>) {
    forall i, a, b :: 0 <= i < |arena| && 0 <= a < b < |arena[i].children|
      && arena[i].children[a] < |arena| && arena[i].children[b] < |arena|
      ==> arena[arena[i].children[a]].name != arena[arena[i].children[b]].name
  }

  /** The result of an operation that may throw after changing the state. */
  datatype Outcome = Outcome(p: Profiler, thrown: Option<Failure>)

  /** flush(): when enabled, starts a new root with the old root's name,
      keeps the old root as the last root, and makes profiling effectively
      enabled. */
  function Flush(p: Profiler): (r: Profiler)
    requires p.Valid()
    ensures r.Valid() && r.enabled == p.enabled
    ensures p.enabled ==> r.effectivelyEnabled && r.stack == [r.root]
                          && r.lastRoot == p.root && r.arena[r.root].name == p.arena[p.root].name
                          && r.arena[r.root].children == []
    ensures !p.enabled ==> r == p
    ensures |r.arena| >= |p.arena| && r.arena[..|p.arena|] == p.arena
  {
    if !p.enabled then p
    else
      var added := |p.arena|;
      p.(arena := p.arena + [Section(p.arena[p.root].name, [])], root := added,
         lastRoot := p.root, stack := [added], effectivelyEnabled := true)
  }

  /** The constructor, as written.  Enabled: a root that is at once
      flushed.  Disabled: the root becomes the last root and the stack is
      left empty. */
  function NewProfiler(enabled: bool, rootName: Name): (r: Profiler)
    ensures r.Valid() && r.RootNamed(rootName) && DistinctChildren(r.arena)
    ensures r.enabled == enabled && r.effectivelyEnabled == enabled
    ensures enabled ==> r.stack == [r.root]
    ensures !enabled ==> r.stack == []
  {
    var p := Profiler([Section(rootName, [])], 0, 0, [], enabled, enabled);
    if enabled then Flush(p) else p
  }

  /** The constructor as its documentation describes it: a disabled
      profiler also holds the root on its stack, as disable() leaves it. */
  function NewProfilerFixed(enabled: bool, rootName: Name): (r: Profiler)
    ensures r.Valid() && r.RootNamed(rootName) && DistinctChildren(r.arena)
    ensures r.enabled == enabled && r.effectivelyEnabled == enabled
    ensures r.stack == [r.root]
  {
    var p := Profiler([Section(rootName, [])], 0, 0, [0], enabled, enabled);
    if enabled then Flush(p) else p
  }

  /** getStackLevel(). */
  function StackLevel(p: Profiler): (n: nat)
    ensures n == 0 <==> p.stack == []
  {
    |p.stack|
  }

  /** The names on the stack, bottom first. */
  function StackNames(p: Profiler): (names: seq<string>)
    requires p.Valid()
    ensures |names| == |p.stack|
    ensures forall k :: 0 <= k < |names| ==> names[k] == p.arena[p.stack[k]].name.text
  {
    seq(|p.stack|, k requires 0 <= k < |p.stack| => p.arena[p.stack[k]].name.text)
  }

  /** Names joined with '.' between consecutive ones. */
  function Join(names: seq<string>): string {
    if |names| == 0 then ""
    else if |names| == 1 then names[0]
    else Join(names[..|names| - 1]) + "." + names[|names| - 1]
  }

  function Dots(s: string): nat {
    if |s| == 0 then 0 else (if s[|s| - 1] == '.' then 1 else 0) + Dots(s[..|s| - 1])
  }

  lemma {:induction false} DotsAppend(a: string, b: string)
    ensures Dots(a + b) == Dots(a) + Dots(b)
    decreases |b|
  {
    if |b| > 0 {
      assert (a + b)[..|a + b| - 1] == a + b[..|b| - 1];
      DotsAppend(a, b[..|b| - 1]);
    } else {
      assert a + b == a;
    }
  }

  /** Joining k dot-free names puts exactly k - 1 dots in the result, so the
      stack name determines the stack level. */
  lemma {:induction false} JoinDots(names: seq<string>)
    requires |names| > 0
    requires forall k :: 0 <= k < |names| ==> Dots(names[k]) == 0
    ensures Dots(Join(names)) == |names| - 1
    decreases |names|
  {
    if |names| > 1 {
      JoinDots(names[..|names| - 1]);
      DotsAppend(Join(names[..|names| - 1]) + ".", names[|names| - 1]);
      DotsAppend(Join(names[..|names| - 1]), ".");
      assert Dots(".") == 1 by {
        assert "."[..0] == "";
      }
    }
  }

  /** getStackName(): walks the stack bottom first, appending each name
      and a '.' whenever another section follows. */
  method GetStackName(p: Profiler) returns (s: string)
    requires p.Valid()
    ensures s == Join(StackNames(p))
  {
    var names := StackNames(p);
    s := "";
    var i := 0;
    while i < |names|
      invariant 0 <= i <= |names|
      invariant i == 0 ==> s == ""
      invariant 0 < i < |names| ==> s == Join(names[..i]) + "."
      invariant 0 < i == |names| ==> s == Join(names)
    {
      var prev := names[..i];
      assert names[..i + 1][..i] == prev;
      s := s + names[i];
      if i + 1 < |names| {
        s := s + ".";
      }
      i := i + 1;
      if i == |names| {
        assert names[..i] == names;
      }
    }
  }

  /** Finding: a profiler constructed disabled reports a stack level of 0
      and an empty stack name, where its documentation promises level 1
      and the root's name. */
  lemma DisabledConstructorStackEmpty(rootName: Name)
    ensures StackLevel(NewProfiler(false, rootName)) == 0
    ensures Join(StackNames(NewProfiler(false, rootName))) == ""
  {
  }

  /** The corrected constructor meets the documentation when disabled. */
  lemma FixedConstructorStack(rootName: Name)
    ensures StackLevel(NewProfilerFixed(false, rootName)) == 1
    ensures Join(StackNames(NewProfilerFixed(false, rootName))) == rootName.text
  {
  }

  /** start(section): when effectively enabled, pushes the current
      section's child with that name reference, creating and appending the
      child if there is none.  The current section is the top of the stack,
      which an earlier failed end() may have emptied. */
  function Start(p: Profiler, section: Name): (r: Result<Profiler>)
    requires p.Valid()
    ensures !p.effectivelyEnabled ==> r == Ok(p)
    ensures r.Err? <==> p.effectivelyEnabled && p.stack == []
    ensures r.Err? ==> r.failure == NoSuchElement
    ensures r.Ok? ==> r.value.Valid() && r.value.enabled == p.enabled
                      && r.value.effectivelyEnabled == p.effectivelyEnabled
                      && r.value.root == p.root && r.value.lastRoot == p.lastRoot
    ensures r.Ok? && p.effectivelyEnabled ==>
      |r.value.stack| == |p.stack| + 1 && r.value.stack[..|p.stack|] == p.stack
      && r.value.arena[r.value.stack[|p.stack|]].name == section
      && r.value.stack[|p.stack|] in r.value.arena[p.stack[|p.stack| - 1]].children
    ensures r.Ok? && DistinctChildren(p.arena) ==> DistinctChildren(r.value.arena)
    ensures r.Ok? ==> |r.value.arena| >= |p.arena|
    ensures r.Ok? ==> forall i :: 0 <= i < |p.arena| ==> r.value.arena[i].name == p.arena[i].name
  {
    if !p.effectivelyEnabled then Ok(p)
    else if p.stack == [] then Err(NoSuchElement)
    else
      var cur := p.stack[|p.stack| - 1];
      var kids := p.arena[cur].children;
      var found := FindChild(p.arena, kids, section);
      if found.Some? then
        Ok(p.(stack := p.stack + [found.value]))
      else
        Ok(AddChild(p, section))
  }

  /** start(section) when the current section has no child of that name:
      a new section is appended to its children and pushed. */
  function AddChild(p: Profiler, section: Name): (r: Profiler)
    requires p.Valid() && p.stack != []
    requires var kids := p.arena[p.stack[|p.stack| - 1]].children;
             forall k :: 0 <= k < |kids| ==> p.arena[kids[k]].name != section
    ensures r.Valid() && r == p.(arena := r.arena, stack := r.stack)
    ensures r.stack == p.stack + [|p.arena|] && |r.arena| == |p.arena| + 1
    ensures r.arena[|p.arena|] == Section(section, [])
    ensures var cur := p.stack[|p.stack| - 1];
            r.arena[cur].children == p.arena[cur].children + [|p.arena|]
    ensures forall i :: 0 <= i < |p.arena| ==> r.arena[i].name == p.arena[i].name
    ensures forall i :: 0 <= i < |p.arena| && i != p.stack[|p.stack| - 1] ==> r.arena[i] == p.arena[i]
    ensures DistinctChildren(p.arena) ==> DistinctChildren(r.arena)
  {
    var cur := p.stack[|p.stack| - 1];
    var added := |p.arena|;
    var arena := p.arena + [Section(section, [])];
    var arena' := arena[cur := Section(arena[cur].name, p.arena[cur].children + [added])];
    FreshChildDistinct(p.arena, cur, section);
    p.(arena := arena', stack := p.stack + [added])
  }

  /** The first of `kids` whose section has the given name reference. */
  function FindChild(arena: seq<Section>, kids: seq<nat>, section: Name): (r: Option<nat>)
    requires forall k :: 0 <= k < |kids| ==> kids[k] < |arena|
    ensures r.Some? ==> r.value in kids && arena[r.value].name == section
    ensures r.None? ==> forall k :: 0 <= k < |kids| ==> arena[kids[k]].name != section
  {
    if |kids| == 0 then None
    else if arena[kids[0]].name == section then Some(kids[0])
    else FindChild(arena, kids[1..], section)
  }

  lemma FreshChildDistinct(arena: seq<Section>, cur: nat, section: Name)
    requires cur < |arena|
    requires forall i, k :: 0 <= i < |arena| && 0 <= k < |arena[i].children| ==> arena[i].children[k] < |arena|
    requires forall k :: 0 <= k < |arena[cur].children| ==> arena[arena[cur].children[k]].name != section
    ensures var added := |arena|;
            var a1 := arena + [Section(section, [])];
            var a2 := a1[cur := Section(a1[cur].name, arena[cur].children + [added])];
            DistinctChildren(arena) ==> DistinctChildren(a2)
    ensures var added := |arena|;
            var a1 := arena + [Section(section, [])];
            var a2 := a1[cur := Section(a1[cur].name, arena[cur].children + [added])];
            forall i, k :: 0 <= i < |a2| && 0 <= k < |a2[i].children| ==> a2[i].children[k] < |a2|
  {
    var added := |arena|;
    var a1 := arena + [Section(section, [])];
    var a2 := a1[cur := Section(a1[cur].name, arena[cur].children + [added])];
    forall i, k | 0 <= i < |a2| && 0 <= k < |a2[i].children|
      ensures a2[i].children[k] < |a2|
    {
      if i != cur {
        assert a2[i] == arena[i];
      }
    }
    if DistinctChildren(arena) {
      forall i, a, b | 0 <= i < |a2| && 0 <= a < b < |a2[i].children|
        && a2[i].children[a] < |a2| && a2[i].children[b] < |a2|
        ensures a2[a2[i].children[a]].name != a2[a2[i].children[b]].name
      {
        assert forall j :: 0 <= j < |a2| ==> a2[j].name == a1[j].name;
        if i == cur {
          if b == |arena[cur].children| {
            assert a2[i].children[b] == added;
            assert a2[i].children[a] == arena[cur].children[a];
          }
        }
      }
    }
  }

  /** end(): when effectively enabled, pops the top section; popping the
      root throws IllegalStateException after the pop, and an empty stack
      throws NoSuchElementException. */
  function End(p: Profiler): (r: Outcome)
    requires p.Valid()
    ensures r.p.Valid()
    ensures !p.effectivelyEnabled ==> r == Outcome(p, None)
    ensures p.effectivelyEnabled && p.stack == [] ==> r == Outcome(p, Some(NoSuchElement))
    ensures p.effectivelyEnabled && p.stack != [] ==>
      r.p == p.(stack := p.stack[..|p.stack| - 1])
      && (r.thrown.Some? <==> p.stack[|p.stack| - 1] == p.root)
      && (r.thrown.Some? ==> r.thrown.value == IllegalState)
  {
    if !p.effectivelyEnabled then Outcome(p, None)
    else if p.stack == [] then Outcome(p, Some(NoSuchElement))
    else
      var top := p.stack[|p.stack| - 1];
      var q := p.(stack := p.stack[..|p.stack| - 1]);
      Outcome(q, if top == p.root then Some(IllegalState) else None)
  }

  /** next(section): end() and then, if it did not throw, start(section). */
  function Next(p: Profiler, section: Name): (r: Outcome)
    requires p.Valid()
    ensures r.p.Valid()
  {
    var e := End(p);
    if e.thrown.Some? then e
    else
      var s := Start(e.p, section);
      if s.Ok? then Outcome(s.value, None) else Outcome(e.p, Some(s.failure))
  }

  /** The stack discipline: an end() after a start() restores the stack. */
  lemma StartThenEnd(p: Profiler, section: Name)
    requires p.Valid() && p.effectivelyEnabled && p.stack != []
    ensures Start(p, section).Ok?
    ensures End(Start(p, section).value).p.stack == p.stack
  {
  }

  /** next() below the root keeps the level and puts a sibling of that
      name on top. */
  lemma NextReplacesTop(p: Profiler, section: Name)
    requires p.Valid() && p.effectivelyEnabled && |p.stack| >= 2
    requires p.stack[|p.stack| - 1] != p.root
    ensures var r := Next(p, section);
            r.thrown.None? && |r.p.stack| == |p.stack|
            && r.p.stack[..|p.stack| - 1] == p.stack[..|p.stack| - 1]
            && r.p.arena[r.p.stack[|p.stack| - 1]].name == section
            && r.p.stack[|p.stack| - 1] in r.p.arena[p.stack[|p.stack| - 2]].children
  {
    var e := End(p);
    assert e.p.stack == p.stack[..|p.stack| - 1];
  }

  /** Starting a name twice under the same section reuses the child made
      the first time: the tree gains one section, not two. */
  lemma StartReuses(p: Profiler, section: Name)
    requires p.Valid() && p.effectivelyEnabled && p.stack != []
    ensures var p1 := Start(p, section).value;
            var p2 := End(p1).p;
            var p3 := Start(p2, section).value;
            p3.arena == p1.arena && p3.stack == p1.stack
  {
    var p1 := Start(p, section).value;
    var p2 := End(p1).p;
    assert p2 == p1.(stack := p.stack);
    var cur := p.stack[|p.stack| - 1];
    var kids := p.arena[cur].children;
    if FindChild(p.arena, kids, section).None? {
      var added := |p.arena|;
      assert p1 == AddChild(p, section);
      forall k | 0 <= k < |kids|
        ensures p1.arena[kids[k]].name != section
      {
        assert p1.arena[kids[k]].name == p.arena[kids[k]].name;
      }
      FindAppended(p1.arena, kids, added, section);
    }
  }

  /** A child appended after children of other names is the one found. */
  lemma {:induction false} FindAppended(arena: seq<Section>, kids: seq<nat>, x: nat, section: Name)
    requires x < |arena| && arena[x].name == section
    requires forall k :: 0 <= k < |kids| ==> kids[k] < |arena| && arena[kids[k]].name != section
    ensures FindChild(arena, kids + [x], section) == Some(x)
  {
    if |kids| > 0 {
      assert (kids + [x])[1..] == kids[1..] + [x];
      FindAppended(arena, kids[1..], x, section);
    }
  }

  /** enable(): takes effect at the next flush only. */
  function Enable(p: Profiler): (r: Profiler)
    requires p.Valid()
    ensures r.Valid() && r.enabled && r.effectivelyEnabled == p.effectivelyEnabled
    ensures r.arena == p.arena && r.stack == p.stack
  {
    p.(enabled := true)
  }

  /** While not effectively enabled, start and end change nothing, even
      after enable(). */
  lemma EnableWaitsForFlush(p: Profiler, section: Name)
    requires p.Valid() && !p.effectivelyEnabled
    ensures Start(Enable(p), section) == Ok(Enable(p))
    ensures End(Enable(p)).p == Enable(p)
    ensures Flush(Enable(p)).effectivelyEnabled
  {
  }

  /** disable(): a new root named after the last root becomes both the
      root and the last root, and the only section on the stack. */
  function Disable(p: Profiler): (r: Profiler)
    requires p.Valid()
    ensures r.Valid() && !r.enabled && !r.effectivelyEnabled
    ensures r.stack == [r.root] && r.lastRoot == r.root
    ensures r.arena[r.root].name == p.arena[p.lastRoot].name
    ensures |r.arena| >= |p.arena| && r.arena[..|p.arena|] == p.arena
  {
    var added := |p.arena|;
    p.(arena := p.arena + [Section(p.arena[p.lastRoot].name, [])], root := added,
       lastRoot := added, stack := [added], enabled := false, effectivelyEnabled := false)
  }

  /** flush (when enabled) and disable both leave exactly the root on the
      stack, under the name the profiler was created with. */
  lemma ResetsKeepRootName(p: Profiler, n: Name)
    requires p.Valid() && p.RootNamed(n)
    ensures Disable(p).RootNamed(n) && StackNames(Disable(p)) == [n.text]
    ensures Flush(p).RootNamed(n)
    ensures p.enabled ==> StackNames(Flush(p)) == [n.text]
  {
  }
}

=== FILE: region_neighbours.dfy ===
/** Region coordinates and the 8-neighbourhood RegionStore walks with its
    nested `for(u = x-1 .. x+1) for(v = y-1 .. y+1)` loops. */
module RegionNeighbours {

  /** A region's location, in region-lengths. */
  datatype Coord = Coord(x: int, y: int)

  /** The two regions touch at an edge or a corner. */
  predicate Adjacent(a: Coord, b: Coord) {
    a != b && -1 <= a.x - b.x <= 1 && -1 <= a.y - b.y <= 1
  }

  /** The neighbours in the order the loops visit them: u outer, v inner,
      the centre skipped. */
  function Neighbours(c: Coord): (ns: seq<Coord>)
    ensures |ns| == 8
  {
    var x, y := c.x, c.y;
    [Coord(x - 1, y - 1), Coord(x - 1, y), Coord(x - 1, y + 1),
     Coord(x, y - 1), Coord(x, y + 1),
     Coord(x + 1, y - 1), Coord(x + 1, y), Coord(x + 1, y + 1)]
  }

  predicate Distinct(ns: seq<Coord>) {
    forall i, j :: 0 <= i < j < |ns| ==> ns[i] != ns[j]
  }

  /** The loops visit exactly the adjacent regions, each once. */
  lemma NeighboursExact(c: Coord, d: Coord)
    ensures d in Neighbours(c) <==> Adjacent(d, c)
    ensures Distinct(Neighbours(c))
    ensures c !in Neighbours(c)
  {
  }

  lemma AdjacentSymmetric(a: Coord, b: Coord)
    ensures Adjacent(a, b) <==> Adjacent(b, a)
  {
  }

  /** How many of ns lie in p. */
  function CountIn(ns: seq<Coord>, p: set<Coord>): (n: nat)
    ensures n <= |ns|
  {
    if |ns| == 0 then 0 else CountIn(ns[..|ns| - 1], p) + (if ns[|ns| - 1] in p then 1 else 0)
  }

  lemma {:induction false} CountInsert(ns: seq<Coord>, p: set<Coord>, c: Coord)
    requires Distinct(ns) && c !in p
    ensures CountIn(ns, p + {c}) == CountIn(ns, p) + (if c in ns then 1 else 0)
  {
    if |ns| > 0 {
      var init := ns[..|ns| - 1];
      assert Distinct(init);
      CountInsert(init, p, c);
      assert ns == init + [ns[|ns| - 1]];
      assert c in ns <==> c in init || c == ns[|ns| - 1];
      assert c == ns[|ns| - 1] ==> c !in init;
    }
  }

  lemma {:induction false} CountDelete(ns: seq<Coord>, p: set<Coord>, c: Coord)
    requires Distinct(ns) && c in p
    ensures CountIn(ns, p - {c}) + (if c in ns then 1 else 0) == CountIn(ns, p)
  {
    CountInsert(ns, p - {c}, c);
    assert p - {c} + {c} == p;
  }

  /** Only members of ns matter to the count. */
  lemma {:induction false} CountInIgnores(ns: seq<Coord>, p: set<Coord>, c: Coord)
    requires c !in ns
    ensures CountIn(ns, p + {c}) == CountIn(ns, p) == CountIn(ns, p - {c})
  {
    if |ns| > 0 {
      CountInIgnores(ns[..|ns| - 1], p, c);
    }
  }

  /** The count is zero exactly when none of ns is in p. */
  lemma {:induction false} CountInNone(ns: seq<Coord>, p: set<Coord>)
    ensures CountIn(ns, p) == 0 <==> forall i :: 0 <= i < |ns| ==> ns[i] !in p
  {
    if |ns| > 0 {
      CountInNone(ns[..|ns| - 1], p);
      assert forall i :: 0 <= i < |ns| - 1 ==> ns[..|ns| - 1][i] == ns[i];
    }
  }

  /** The count is |ns| exactly when all of ns is in p. */
  lemma {:induction false} CountInAll(ns: seq<Coord>, p: set<Coord>)
    ensures CountIn(ns, p) == |ns| <==> forall i :: 0 <= i < |ns| ==> ns[i] in p
  {
    if |ns| > 0 {
      CountInAll(ns[..|ns| - 1], p);
      assert forall i :: 0 <= i < |ns| - 1 ==> ns[..|ns| - 1][i] == ns[i];
    }
  }
}

=== FILE: region_store.dfy ===
/** RegionStore.java as a state-transition system.  Every synchronized
    block is one atomic step; each call into the world loader or generator
    becomes a pending token whose callback is a later step; the unseen
    RegionState is a record of counters and claim-once permits, and the
    questions it answers from hidden state (isPrepared, isActive,
    tickDown) are inputs of the steps that ask them. */
module RegionStores {
  import opened Outcomes
  import opened RegionNeighbours

  /** The three one-shot permits of a region's state. */
  datatype Op = Load | Generate | Save

  /** The part of RegionState the store drives: the anchor count, the
      anchored- and prepared-neighbour counts and the permits claimed. */
  datatype RegionState = RegionState(anchors: int, anchoredNeighbours: int, preparedNeighbours: int, claimed: set<Op>)

  /** A fresh region's state. */
  const Fresh := RegionState(0, 0, 0, {})

  /** RegionStore.CachedRegion: the mark count and the prepare flag. */
  datatype CachedRegion = CachedRegion(timesCached: int, prepareForPrimary: bool)

  /** Work that holds one mark on a cached region: a prepareRegion call
      still to run, a load, generation or save in flight, or a region
      cached by a thread. */
  datatype Token =
    | Prepare(at: Coord, generate: bool)
    | Loading(at: Coord)
    | Generating(at: Coord)
    | Saving(at: Coord)
    | Local(thread: nat, at: Coord)

  /** Fault: Checks.badAssert; Warning: the "already there" log line;
      Unloaded: the unload handler ran. */
  datatype Event = Fault(at: Coord) | Warning(at: Coord) | Unloaded(at: Coord)

  /** `regions` holds the state of every region object the store can
      reach: those in primary storage and those in the cache. */
  datatype Store = Store(
    regions: map<Coord, RegionState>,
    primary: set<Coord>,
    cache: map<Coord, CachedRegion>,
    tokens: seq<Token>,
    events: seq<Event>,
    numRegions: int)

  function EmptyStore(): (s: Store)
    ensures Valid(s) && s.primary == {} && s.cache == map[]
  {
    Store(map[], {}, map[], [], [], 0)
  }

  // ----- Invariants ---------------------------------------------------

  /** How many tokens hold a mark on c. */
  function Marks(ts: seq<Token>, c: Coord): nat
  {
    if |ts| == 0 then 0 else Marks(ts[..|ts| - 1], c) + (if ts[|ts| - 1].at == c then 1 else 0)
  }

  /** Reachable objects are exactly those in primary or the cache, and every
      token's region is cached. */
  predicate Shaped(s: Store) {
    && s.primary <= s.regions.Keys
    && s.cache.Keys <= s.regions.Keys
    && (forall c :: c in s.regions ==> c in s.primary || c in s.cache)
    && (forall i :: 0 <= i < |s.tokens| ==> s.tokens[i].at in s.cache)
  }

  /** Each cached region's mark count is the number of tokens on it. */
  predicate Counted(s: Store) {
    forall c :: c in s.cache ==> s.cache[c].timesCached == Marks(s.tokens, c)
  }

  /** A region's prepared-neighbour count is the number of its neighbours
      in primary storage while it is there, and 0 otherwise. */
  predicate Linked(s: Store) {
    forall c :: c in s.regions ==>
      s.regions[c].preparedNeighbours == (if c in s.primary then CountIn(Neighbours(c), s.primary) else 0)
  }

  /** numRegions counts primary storage. */
  predicate Tallied(s: Store) {
    s.numRegions == |s.primary|
  }

  predicate Valid(s: Store) {
    Shaped(s) && Counted(s) && Linked(s) && Tallied(s)
  }

  // ----- Mark counting ------------------------------------------------

  lemma {:induction false} MarksConcat(a: seq<Token>, b: seq<Token>, c: Coord)
    ensures Marks(a + b, c) == Marks(a, c) + Marks(b, c)
    decreases |b|
  {
    if |b| == 0 {
      assert a + b == a;
    } else {
      var ab := a + b;
      assert ab[..|ab| - 1] == a + b[..|b| - 1];
      assert ab[|ab| - 1] == b[|b| - 1];
      MarksConcat(a, b[..|b| - 1], c);
    }
  }

  lemma MarksOne(t: Token, c: Coord)
    ensures Marks([t], c) == if t.at == c then 1 else 0
  {
    assert [t][..0] == [];
  }

  /** Marks(ts, c) is zero exactly when no token is on c. */
  lemma {:induction false} MarksZero(ts: seq<Token>, c: Coord)
    ensures Marks(ts, c) == 0 <==> forall i :: 0 <= i < |ts| ==> ts[i].at != c
  {
    if |ts| > 0 {
      MarksZero(ts[..|ts| - 1], c);
      assert forall i :: 0 <= i < |ts| - 1 ==> ts[..|ts| - 1][i] == ts[i];
    }
  }

  function RemoveAt(ts: seq<Token>, i: nat): (r: seq<Token>)
    requires i < |ts|
    ensures |r| == |ts| - 1
    ensures forall j :: 0 <= j < |r| ==> r[j] == (if j < i then ts[j] else ts[j + 1])
  {
    ts[..i] + ts[i + 1..]
  }

  lemma RemoveAtMarks(ts: seq<Token>, i: nat)
    requires i < |ts|
    ensures forall c :: Marks(ts[..i] + ts[i + 1..], c) + (if ts[i].at == c then 1 else 0) == Marks(ts, c)
  {
    forall c ensures Marks(ts[..i] + ts[i + 1..], c) + (if ts[i].at == c then 1 else 0) == Marks(ts, c) {
      assert ts == ts[..i] + [ts[i]] + ts[i + 1..];
      MarksConcat(ts[..i] + [ts[i]], ts[i + 1..], c);
      MarksConcat(ts[..i], [ts[i]], c);
      MarksConcat(ts[..i], ts[i + 1..], c);
      MarksOne(ts[i], c);
    }
  }

  lemma AppendMarks(ts: seq<Token>, t: Token)
    ensures forall c :: Marks(ts + [t], c) == Marks(ts, c) + (if t.at == c then 1 else 0)
  {
    forall c ensures Marks(ts + [t], c) == Marks(ts, c) + (if t.at == c then 1 else 0) {
      MarksConcat(ts, [t], c);
      MarksOne(t, c);
    }
  }

  lemma ReplaceMarks(ts: seq<Token>, i: nat, t: Token)
    requires i < |ts| && t.at == ts[i].at
    ensures forall c :: Marks(ts[i := t], c) == Marks(ts, c)
  {
    forall c ensures Marks(ts[i := t], c) == Marks(ts, c) {
      var a, b := ts[..i], ts[i + 1..];
      assert ts == a + [ts[i]] + b;
      assert ts[i := t] == a + [t] + b;
      MarksConcat(a + [ts[i]], b, c);
      MarksConcat(a + [t], b, c);
      MarksConcat(a, [ts[i]], c);
      MarksConcat(a, [t], c);
      MarksOne(t, c);
      MarksOne(ts[i], c);
    }
  }

  // ----- Primitive transitions, each preserving Valid ------------------

  /** `new Region(x, y)` put straight into the cache (`new CachedRegion`,
      no marks yet). */
  function NewRegion(s: Store, c: Coord): (r: Store)
    requires c !in s.regions
    ensures r == s.(regions := s.regions[c := Fresh],
                    cache := s.cache[c := CachedRegion(0, false)])
    ensures Valid(s) ==> Valid(r)
  {
    var r := s.(regions := s.regions[c := Fresh],
                cache := s.cache[c := CachedRegion(0, false)]);
    NewRegionKeeps(s, c, r);
    r
  }

  lemma NewRegionKeeps(s: Store, c: Coord, r: Store)
    requires c !in s.regions
    requires r == s.(regions := s.regions[c := Fresh],
                     cache := s.cache[c := CachedRegion(0, false)])
    ensures Valid(s) ==> Valid(r)
  {
    if Valid(s) {
      MarksZero(s.tokens, c);
      assert Linked(r) by {
        forall d | d in r.regions
          ensures r.regions[d].preparedNeighbours
                  == (if d in r.primary then CountIn(Neighbours(d), r.primary) else 0)
        {
          if d != c { assert d in s.regions; }
        }
      }
    }
  }

  /** `new CachedRegion(r)` for a region already in primary storage. */
  function EnsureEntry(s: Store, c: Coord): (r: Store)
    requires c in s.regions
    ensures c in r.cache && r.cache[c].timesCached == (if c in s.cache then s.cache[c].timesCached else 0)
    ensures r.cache[c].prepareForPrimary == (c in s.cache && s.cache[c].prepareForPrimary)
    ensures r == s.(cache := r.cache) && r.cache.Keys == s.cache.Keys + {c}
    ensures forall d :: d in s.cache ==> r.cache[d] == s.cache[d]
    ensures Valid(s) ==> Valid(r)
  {
    MarksZero(s.tokens, c);
    if c in s.cache then s else s.(cache := s.cache[c := CachedRegion(0, false)])
  }

  /** mark() for a token's work. */
  function AddToken(s: Store, t: Token): (r: Store)
    requires t.at in s.cache
    ensures r.tokens == s.tokens + [t] && r.cache.Keys == s.cache.Keys
    ensures r.cache[t.at] == s.cache[t.at].(timesCached := s.cache[t.at].timesCached + 1)
    ensures forall d :: d in s.cache && d != t.at ==> r.cache[d] == s.cache[d]
    ensures r == s.(tokens := r.tokens, cache := r.cache)
    ensures Valid(s) ==> Valid(r)
  {
    AppendMarks(s.tokens, t);
    var e := s.cache[t.at];
    s.(tokens := s.tokens + [t], cache := s.cache[t.at := e.(timesCached := e.timesCached + 1)])
  }

  /** unmark() for the work of token i, which is done: whether the count
      reached zero. */
  function TakeToken(s: Store, i: nat): (r: (Store, bool))
    requires i < |s.tokens| && s.tokens[i].at in s.cache
    ensures var c := s.tokens[i].at;
            && r.0.tokens == RemoveAt(s.tokens, i)
            && r.0.cache == s.cache[c := s.cache[c].(timesCached := s.cache[c].timesCached - 1)]
            && r.0 == s.(tokens := r.0.tokens, cache := r.0.cache)
            && (r.1 <==> r.0.cache[c].timesCached == 0)
    ensures Valid(s) ==> Valid(r.0)
    ensures Valid(s) && r.1 ==> Marks(r.0.tokens, s.tokens[i].at) == 0
  {
    var c := s.tokens[i].at;
    var e := s.cache[c];
    var s' := s.(tokens := RemoveAt(s.tokens, i), cache := s.cache[c := e.(timesCached := e.timesCached - 1)]);
    RemoveAtMarks(s.tokens, i);
    assert Valid(s) ==> Shaped(s') by {
      if Valid(s) {
        forall j | 0 <= j < |s'.tokens| ensures s'.tokens[j].at in s'.cache {
          assert s'.tokens[j] == (if j < i then s.tokens[j] else s.tokens[j + 1]);
        }
      }
    }
    (s', e.timesCached - 1 == 0)
  }

  /** The work of token i moves on to the next stage under the same mark. */
  function ReplaceToken(s: Store, i: nat, t: Token): (r: Store)
    requires i < |s.tokens| && t.at == s.tokens[i].at
    ensures r == s.(tokens := s.tokens[i := t])
    ensures Valid(s) ==> Valid(r)
  {
    ReplaceMarks(s.tokens, i, t);
    s.(tokens := s.tokens[i := t])
  }

  /** A successful permit claim, and the loader, generator or saver call
      it licenses. */
  function Start(s: Store, c: Coord, op: Op): (r: Store)
    requires c in s.regions && op !in s.regions[c].claimed
    ensures r == s.(regions := s.regions[c := s.regions[c].(claimed := s.regions[c].claimed + {op})])
    ensures Valid(s) ==> Valid(r)
  {
    var r := s.(regions := s.regions[c := s.regions[c].(claimed := s.regions[c].claimed + {op})]);
    StateChangeKeeps(s, c, r);
    r
  }

  /** Changing a region's permits, anchors or anchored neighbours keeps
      the invariants. */
  lemma StateChangeKeeps(s: Store, c: Coord, r: Store)
    requires c in s.regions && r == s.(regions := r.regions) && r.regions.Keys == s.regions.Keys
    requires r.regions[c].preparedNeighbours == s.regions[c].preparedNeighbours
    requires forall d :: d in s.regions && d != c ==> r.regions[d] == s.regions[d]
    ensures Valid(s) ==> Valid(r)
  {
    if Valid(s) {
      assert Linked(r) by {
        forall d | d in r.regions
          ensures r.regions[d].preparedNeighbours
                  == (if d in r.primary then CountIn(Neighbours(d), r.primary) else 0)
        {
          assert d in s.regions;
        }
      }
    }
  }

  /** Claims permit op on c: the permit is granted only if no one has
      claimed it before, and the call it licenses is then made. */
  function TryStart(s: Store, c: Coord, op: Op): (r: (Store, bool))
    requires c in s.regions
    ensures r.1 <==> op !in s.regions[c].claimed
    ensures r.1 ==> r.0 == Start(s, c, op)
    ensures !r.1 ==> r.0 == s
    ensures Valid(s) ==> Valid(r.0)
  {
    if op in s.regions[c].claimed then (s, false) else (Start(s, c, op), true)
  }

  function Log(s: Store, e: Event): (r: Store)
    ensures r == s.(events := s.events + [e])
    ensures Valid(s) ==> Valid(r)
  {
    s.(events := s.events + [e])
  }

  /** cache.remove(loc), for a region whose mark count is zero; the object
      is dropped unless primary storage holds it. */
  function CacheRemove(s: Store, c: Coord): (r: Store)
    requires c in s.cache && Marks(s.tokens, c) == 0
    ensures r.cache == s.cache - {c} && r.primary == s.primary && r.tokens == s.tokens
    ensures r.regions == (if c in s.primary then s.regions else s.regions - {c})
    ensures r == s.(cache := r.cache, regions := r.regions)
    ensures Valid(s) ==> Valid(r)
  {
    var r := s.(cache := s.cache - {c}, regions := if c in s.primary then s.regions else s.regions - {c});
    CacheRemoveKeeps(s, c, r);
    r
  }

  lemma CacheRemoveKeeps(s: Store, c: Coord, r: Store)
    requires c in s.cache && Marks(s.tokens, c) == 0
    requires r == s.(cache := s.cache - {c}, regions := if c in s.primary then s.regions else s.regions - {c})
    ensures Valid(s) ==> Valid(r)
  {
    if Valid(s) {
      MarksZero(s.tokens, c);
      SubRegionsKeep(s, r);
    }
  }

  /** Dropping objects that neither storage holds keeps the invariants. */
  lemma SubRegionsKeep(s: Store, r: Store)
    requires Valid(s) && r == s.(cache := r.cache, regions := r.regions)
    requires r.regions.Keys <= s.regions.Keys && forall d :: d in r.regions ==> r.regions[d] == s.regions[d]
    requires r.cache.Keys <= s.cache.Keys && forall d :: d in r.cache ==> r.cache[d] == s.cache[d]
    requires r.primary <= r.regions.Keys && r.cache.Keys <= r.regions.Keys
    requires forall d :: d in r.regions ==> d in r.primary || d in r.cache
    requires forall i :: 0 <= i < |r.tokens| ==> r.tokens[i].at in r.cache
    ensures Valid(r)
  {
    assert Linked(r) by {
      forall d | d in r.regions
        ensures r.regions[d].preparedNeighbours
                == (if d in r.primary then CountIn(Neighbours(d), r.primary) else 0)
      {
        assert d in s.regions;
      }
    }
  }

  // ----- Prepared-neighbour bookkeeping -------------------------------

  function Bump(s: Store, c: Coord, delta: int): (r: Store)
    requires c in s.regions
  {
    var g := s.regions[c];
    s.(regions := s.regions[c := g.(preparedNeighbours := g.preparedNeighbours + delta)])
  }

  /** The neighbour loop of moveToPrimary (delta 1) or removeFromPrimary
      (delta -1): for each listed neighbour in primary storage, both it
      and c count one more (or one fewer) prepared neighbour. */
  function Notify(s: Store, c: Coord, ns: seq<Coord>, delta: int): (r: Store)
    requires c in s.regions && s.primary <= s.regions.Keys
    ensures r.regions.Keys == s.regions.Keys && r == s.(regions := r.regions)
    decreases |ns|
  {
    if |ns| == 0 then s
    else
      var s1 := Notify(s, c, ns[..|ns| - 1], delta);
      var n := ns[|ns| - 1];
      if n in s.primary then Bump(Bump(s1, c, delta), n, delta) else s1
  }

  /** Only the prepared-neighbour count differs. */
  predicate SameButPrepared(a: RegionState, b: RegionState) {
    a.claimed == b.claimed && a.anchors == b.anchors
    && a.anchoredNeighbours == b.anchoredNeighbours
  }

  /** No region is added and no anchor count or anchored-neighbour count
      changes. */
  predicate AnchorsKept(s: Store, r: Store) {
    && r.regions.Keys <= s.regions.Keys
    && forall d :: d in r.regions ==>
         r.regions[d].anchors == s.regions[d].anchors && r.regions[d].anchoredNeighbours == s.regions[d].anchoredNeighbours
  }

  lemma AnchorsKeptChain(a: Store, b: Store, c: Store)
    requires AnchorsKept(a, b) && AnchorsKept(b, c)
    ensures AnchorsKept(a, c)
  {
  }

  /** What the loop does to one region's count. */
  function NotifyShare(c: Coord, ns: seq<Coord>, p: set<Coord>, d: Coord): int {
    if d == c then CountIn(ns, p) else if d in ns && d in p then 1 else 0
  }

  lemma {:induction false} NotifyEffect(s: Store, c: Coord, ns: seq<Coord>, delta: int, d: Coord)
    requires c in s.regions && s.primary <= s.regions.Keys && c !in ns && Distinct(ns)
    requires d in s.regions
    ensures var r := Notify(s, c, ns, delta);
            SameButPrepared(s.regions[d], r.regions[d])
            && r.regions[d].preparedNeighbours
               == s.regions[d].preparedNeighbours + delta * NotifyShare(c, ns, s.primary, d)
    decreases |ns|
  {
    if |ns| > 0 {
      var init, n := ns[..|ns| - 1], ns[|ns| - 1];
      assert Distinct(init);
      assert n !in init;
      assert forall e :: e in ns <==> e in init || e == n;
      NotifyEffect(s, c, init, delta, d);
    }
  }

  /** The part of moveToPrimary under synchronized(this), for a region
      not there yet: into primary, then the neighbour loop. */
  function AddPrimary(s: Store, c: Coord): (r: Store)
    requires c in s.regions && c !in s.primary && s.primary <= s.regions.Keys
    ensures r.primary == s.primary + {c} && r.numRegions == s.numRegions + 1
    ensures r.regions.Keys == s.regions.Keys
    ensures r == s.(primary := r.primary, regions := r.regions, numRegions := r.numRegions)
    ensures forall d :: d in s.regions ==> SameButPrepared(s.regions[d], r.regions[d])
    ensures Linked(s) ==> Linked(r)
  {
    var s1 := s.(primary := s.primary + {c}, numRegions := s.numRegions + 1);
    var r := Notify(s1, c, Neighbours(c), 1);
    AddPrimaryLinks(s, c, s1, r);
    r
  }

  lemma AddPrimaryLinks(s: Store, c: Coord, s1: Store, r: Store)
    requires c in s.regions && c !in s.primary && s.primary <= s.regions.Keys
    requires s1 == s.(primary := s.primary + {c}, numRegions := s.numRegions + 1)
    requires r == Notify(s1, c, Neighbours(c), 1)
    ensures forall d :: d in s.regions ==> SameButPrepared(s.regions[d], r.regions[d])
    ensures Linked(s) ==> Linked(r)
  {
    NeighboursExact(c, c);
    forall d | d in s.regions
      ensures SameButPrepared(s.regions[d], r.regions[d])
      ensures r.regions[d].preparedNeighbours
              == s.regions[d].preparedNeighbours + NotifyShare(c, Neighbours(c), s1.primary, d)
    {
      NotifyEffect(s1, c, Neighbours(c), 1, d);
    }
    if Linked(s) {
      forall d | d in r.regions
        ensures r.regions[d].preparedNeighbours
                == (if d in r.primary then CountIn(Neighbours(d), r.primary) else 0)
      {
        AddedLink(s, c, d);
      }
    }
  }

  /** One region's count after c enters primary storage. */
  lemma AddedLink(s: Store, c: Coord, d: Coord)
    requires c !in s.primary && d in s.regions && Linked(s)
    ensures (if d in s.primary then CountIn(Neighbours(d), s.primary) else 0)
            + NotifyShare(c, Neighbours(c), s.primary + {c}, d)
            == (if d in s.primary + {c} then CountIn(Neighbours(d), s.primary + {c}) else 0)
  {
    NeighboursExact(c, d);
    NeighboursExact(d, c);
    AdjacentSymmetric(c, d);
    if d == c {
      CountInIgnores(Neighbours(c), s.primary, c);
    } else if d in s.primary {
      CountInsert(Neighbours(d), s.primary, c);
    }
  }

  /** removeFromPrimary: out of primary, then the neighbour loop; the
      object is dropped unless the cache holds it. */
  function RemoveFromPrimary(s: Store, c: Coord): (r: Store)
    requires c in s.primary && s.primary <= s.regions.Keys
    ensures r.primary == s.primary - {c} && r.numRegions == s.numRegions - 1
    ensures r.cache == s.cache && r.tokens == s.tokens && r.events == s.events
    ensures r.regions.Keys == (if c in s.cache then s.regions.Keys else s.regions.Keys - {c})
    ensures forall d :: d in r.regions ==> SameButPrepared(s.regions[d], r.regions[d])
    ensures AnchorsKept(s, r)
    ensures Valid(s) ==> Valid(r)
  {
    var s1 := s.(primary := s.primary - {c}, numRegions := s.numRegions - 1);
    var s2 := Notify(s1, c, Neighbours(c), -1);
    var r := if c in s.cache then s2 else s2.(regions := s2.regions - {c});
    RemovePrimaryFrame(s, c, s1, s2);
    RemovePrimaryKeeps(s, c, s2, r);
    r
  }

  lemma RemovePrimaryFrame(s: Store, c: Coord, s1: Store, s2: Store)
    requires c in s.primary && s.primary <= s.regions.Keys
    requires s1 == s.(primary := s.primary - {c}, numRegions := s.numRegions - 1)
    requires s2 == Notify(s1, c, Neighbours(c), -1)
    ensures forall d :: d in s.regions ==> SameButPrepared(s.regions[d], s2.regions[d])
    ensures Linked(s) ==> Linked(s2)
  {
    NeighboursExact(c, c);
    forall d | d in s.regions
      ensures SameButPrepared(s.regions[d], s2.regions[d])
      ensures s2.regions[d].preparedNeighbours
              == s.regions[d].preparedNeighbours - NotifyShare(c, Neighbours(c), s1.primary, d)
    {
      NotifyEffect(s1, c, Neighbours(c), -1, d);
    }
    if Linked(s) {
      forall d | d in s2.regions
        ensures s2.regions[d].preparedNeighbours
                == (if d in s2.primary then CountIn(Neighbours(d), s2.primary) else 0)
      {
        RemovedLink(s, c, d);
      }
    }
  }

  /** One region's count after c leaves primary storage. */
  lemma RemovedLink(s: Store, c: Coord, d: Coord)
    requires c in s.primary && d in s.regions && Linked(s)
    ensures (if d in s.primary then CountIn(Neighbours(d), s.primary) else 0)
            - NotifyShare(c, Neighbours(c), s.primary - {c}, d)
            == (if d in s.primary - {c} then CountIn(Neighbours(d), s.primary - {c}) else 0)
  {
    NeighboursExact(c, d);
    NeighboursExact(d, c);
    AdjacentSymmetric(c, d);
    if d == c {
      CountInIgnores(Neighbours(c), s.primary - {c}, c);
      assert s.primary - {c} + {c} == s.primary;
    } else if d in s.primary {
      CountDelete(Neighbours(d), s.primary, c);
    }
  }

  lemma RemovePrimaryKeeps(s: Store, c: Coord, s2: Store, r: Store)
    requires c in s.primary && s.primary <= s.regions.Keys
    requires s2 == s.(primary := s.primary - {c}, numRegions := s.numRegions - 1, regions := s2.regions)
    requires s2.regions.Keys == s.regions.Keys
    requires forall d :: d in s.regions ==> SameButPrepared(s.regions[d], s2.regions[d])
    requires Linked(s) ==> Linked(s2)
    requires r == if c in s.cache then s2 else s2.(regions := s2.regions - {c})
    ensures Valid(s) ==> Valid(r)
  {
    if Valid(s) {
      assert Tallied(r) by {
        assert |s.primary - {c}| == |s.primary| - 1;
      }
      assert Shaped(r);
      assert Counted(r);
      assert Linked(r) by {
        forall d | d in r.regions
          ensures r.regions[d].preparedNeighbours
                  == (if d in r.primary then CountIn(Neighbours(d), r.primary) else 0)
        {
          assert r.regions[d] == s2.regions[d];
        }
      }
    }
  }
}

=== FILE: region_store_lingering.dfy ===
/** A schedule after which the store has no work pending and yet is not
    loaded: a region saved into primary storage, cached by a thread,
    unloaded with its save permit already spent, and released.  The last
    release reaches zero marks outside primary storage, the save cannot be
    claimed, and the cache entry stays behind with no mark on it. */
module RegionStoreLingering {
  import opened Outcomes
  import opened RegionNeighbours
  import opened RegionStores
  import opened RegionStoreOps
  import opened RegionStoreProps

  const Origin := Coord(0, 0)

  /** Load, prepare, load, generate and save the region at the origin into
      primary storage; a thread caches it; update unloads it; the thread
      releases it. */
  const Schedule := [LoadStep(Origin), PrepareStep(0), LoadDone(0, true), GenerateDone(0), SaveDone(0, true),
                     CacheStep(0, Origin), UpdateStep([Origin], {}, {Origin}), UncacheAllStep(0)]

  /** The facts about the origin's region the schedule tracks. */
  predicate At(s: Store, primary: set<Coord>, tokens: seq<Token>, claimed: set<Op>) {
    && Valid(s) && s.primary == primary && s.tokens == tokens
    && Origin in s.regions && s.regions[Origin].claimed == claimed && Unretained(s.regions[Origin])
  }

  /** The origin is cached on its way to primary storage. */
  predicate Bound(s: Store) {
    Origin in s.cache && s.cache[Origin].prepareForPrimary
  }

  // ----- One lemma per step -------------------------------------------

  /** loadRegion queues the new region for preparation. */
  lemma Queued()
    ensures var r := Next(EmptyStore(), Schedule[0]);
            At(r, {}, [Prepare(Origin, true)], {}) && Bound(r)
  {
  }

  /** prepareRegion claims the load permit and starts the load. */
  lemma LoadClaimed(s: Store)
    requires At(s, {}, [Prepare(Origin, true)], {}) && Bound(s)
    ensures Enabled(s, Schedule[1])
    ensures var r := Next(s, Schedule[1]);
            At(r, {}, [Loading(Origin)], {Load}) && Bound(r)
  {
  }

  /** finishLoad of a region bound for primary storage starts generation. */
  lemma GenerateClaimed(s: Store)
    requires At(s, {}, [Loading(Origin)], {Load}) && Bound(s)
    ensures Enabled(s, Schedule[2])
    ensures var r := Next(s, Schedule[2]);
            At(r, {}, [Generating(Origin)], {Load, Generate}) && Bound(r)
  {
    assert {Load} + {Generate} == {Load, Generate};
  }

  /** finishGenerate unmarks to zero and starts the save. */
  lemma SaveClaimed(s: Store)
    requires At(s, {}, [Generating(Origin)], {Load, Generate}) && Bound(s)
    ensures Enabled(s, Schedule[3])
    ensures var r := Next(s, Schedule[3]);
            At(r, {}, [Saving(Origin)], {Load, Generate, Save}) && Bound(r)
  {
    assert Next(s, Schedule[3]) == FinishGenerate(s, 0);
    GeneratedSaved(s);
  }

  lemma GeneratedSaved(s: Store)
    requires At(s, {}, [Generating(Origin)], {Load, Generate}) && Bound(s)
    ensures var r := FinishGenerate(s, 0);
            At(r, {}, [Saving(Origin)], {Load, Generate, Save}) && Bound(r)
  {
    assert Marks(s.tokens, Origin) == 1;
    var (s1, zero) := TakeToken(s, 0);
    assert zero;
    UnmarkedSaved(s1);
    assert StartSave(s1, Origin) == FinishGenerate(s, 0);
  }

  lemma UnmarkedSaved(s: Store)
    requires At(s, {}, [], {Load, Generate}) && Bound(s)
    ensures var r := StartSave(s, Origin);
            At(r, {}, [Saving(Origin)], {Load, Generate, Save}) && Bound(r)
  {
    assert {Load, Generate} + {Save} == {Load, Generate, Save};
  }

  /** finishSave of a prepared region moves it into primary storage. */
  lemma EnteredPrimary(s: Store)
    requires At(s, {}, [Saving(Origin)], {Load, Generate, Save}) && Bound(s)
    ensures Enabled(s, Schedule[4])
    ensures var r := Next(s, Schedule[4]);
            At(r, {Origin}, [], {Load, Generate, Save})
  {
    assert Next(s, Schedule[4]) == FinishSave(s, 0, true);
    SavedIntoPrimary(s);
  }

  lemma SavedIntoPrimary(s: Store)
    requires At(s, {}, [Saving(Origin)], {Load, Generate, Save}) && Bound(s)
    ensures At(FinishSave(s, 0, true), {Origin}, [], {Load, Generate, Save})
  {
    assert Marks(s.tokens, Origin) == 1;
    var (s1, zero) := TakeToken(s, 0);
    assert zero && s1.tokens == [];
    var s2 := AddPrimary(s1, Origin);
    AddPrimaryKeeps(s1, Origin, s2);
    var r := CacheRemove(s2, Origin);
    assert r == FinishSave(s, 0, true);
  }

  /** A thread caches the region, which stays in primary storage. */
  lemma CachedByThread(s: Store)
    requires At(s, {Origin}, [], {Load, Generate, Save})
    ensures Enabled(s, Schedule[5])
    ensures var r := Next(s, Schedule[5]);
            At(r, {Origin}, [Local(0, Origin)], {Load, Generate, Save})
  {
  }

  /** update unloads the region; its save permit is spent, so no save is
      queued and it stays cached under the thread's mark. */
  lemma UnloadedWhileCached(s: Store)
    requires At(s, {Origin}, [Local(0, Origin)], {Load, Generate, Save})
    ensures Enabled(s, Schedule[6])
    ensures var r := Next(s, Schedule[6]);
            At(r, {}, [Local(0, Origin)], {Load, Generate, Save})
  {
    var r := UpdateOne(s, Origin, false, true);
    UnloadedKept(s);
    assert [Origin][1..] == [];
    assert Update(s, [Origin], {}, {Origin}) == Update(r, [], {}, {Origin}) == r;
  }

  lemma UnloadedKept(s: Store)
    requires At(s, {Origin}, [Local(0, Origin)], {Load, Generate, Save})
    ensures At(UpdateOne(s, Origin, false, true), {}, [Local(0, Origin)], {Load, Generate, Save})
  {
    var s1 := Log(s, Unloaded(Origin));
    assert s.tokens[0].at == Origin;
    assert Origin in s1.cache;
    var r := RemoveFromPrimary(s1, Origin);
    assert Origin in r.regions && SameButPrepared(s1.regions[Origin], r.regions[Origin]);
    assert r == UpdateOne(s, Origin, false, true);
  }

  /** uncacheAll releases the last mark outside primary storage; the save
      permit is spent, so the entry stays with no mark. */
  lemma ReleasedToZero(s: Store)
    requires At(s, {}, [Local(0, Origin)], {Load, Generate, Save})
    ensures Enabled(s, Schedule[7])
    ensures var r := Next(s, Schedule[7]);
            r.tokens == [] && Origin in r.cache && r.cache[Origin].timesCached == 0
  {
    assert FirstLocal(s.tokens, 0) == Some(0);
    var r := FinishGeneric(s, 0);
    assert r.tokens == [];
    assert FirstLocal(r.tokens, 0) == None;
    assert UncacheAll(s, 0) == r;
  }

  /** One more step of a schedule. */
  lemma RunExtends(steps: seq<Step>, k: nat)
    requires k < |steps| && Run(steps[..k]).Some? && Enabled(Run(steps[..k]).value, steps[k])
    ensures Run(steps[..k + 1]) == Some(Next(Run(steps[..k]).value, steps[k]))
  {
    assert steps[..k + 1][..k] == steps[..k];
  }

  // ----- The schedule -------------------------------------------------

  /** The stores the first k steps of the schedule reach. */
  lemma Reached1()
    ensures Run(Schedule[..1]).Some?
    ensures var s := Run(Schedule[..1]).value; At(s, {}, [Prepare(Origin, true)], {}) && Bound(s)
  {
    assert Schedule[..0] == [];
    Queued();
    RunExtends(Schedule, 0);
  }

  lemma Reached2()
    ensures Run(Schedule[..2]).Some?
    ensures var s := Run(Schedule[..2]).value; At(s, {}, [Loading(Origin)], {Load}) && Bound(s)
  {
    Reached1();
    LoadClaimed(Run(Schedule[..1]).value);
    RunExtends(Schedule, 1);
  }

  lemma Reached3()
    ensures Run(Schedule[..3]).Some?
    ensures var s := Run(Schedule[..3]).value; At(s, {}, [Generating(Origin)], {Load, Generate}) && Bound(s)
  {
    Reached2();
    GenerateClaimed(Run(Schedule[..2]).value);
    RunExtends(Schedule, 2);
  }

  lemma Reached4()
    ensures Run(Schedule[..4]).Some?
    ensures var s := Run(Schedule[..4]).value; At(s, {}, [Saving(Origin)], {Load, Generate, Save}) && Bound(s)
  {
    Reached3();
    SaveClaimed(Run(Schedule[..3]).value);
    RunExtends(Schedule, 3);
  }

  lemma Reached5()
    ensures Run(Schedule[..5]).Some?
    ensures At(Run(Schedule[..5]).value, {Origin}, [], {Load, Generate, Save})
  {
    Reached4();
    EnteredPrimary(Run(Schedule[..4]).value);
    RunExtends(Schedule, 4);
  }

  lemma Reached6()
    ensures Run(Schedule[..6]).Some?
    ensures At(Run(Schedule[..6]).value, {Origin}, [Local(0, Origin)], {Load, Generate, Save})
  {
    Reached5();
    CachedByThread(Run(Schedule[..5]).value);
    RunExtends(Schedule, 5);
  }

  lemma Reached7()
    ensures Run(Schedule[..7]).Some?
    ensures At(Run(Schedule[..7]).value, {}, [Local(0, Origin)], {Load, Generate, Save})
  {
    Reached6();
    UnloadedWhileCached(Run(Schedule[..6]).value);
    RunExtends(Schedule, 6);
  }

  /** After the schedule no work is pending, yet the origin's cache entry
      remains with no mark on it, so the store is not loaded. */
  lemma LingeringEntry()
    ensures Run(Schedule).Some?
    ensures var s := Run(Schedule).value;
            s.tokens == [] && Origin in s.cache && s.cache[Origin].timesCached == 0 && !IsLoaded(s)
  {
    Reached7();
    ReleasedToZero(Run(Schedule[..7]).value);
    RunExtends(Schedule, 7);
    assert Schedule[..8] == Schedule;
  }
}

=== FILE: region_store_ops.dfy ===
/** The operations of RegionStore.java over the store of RegionStores:
    the entry points (loadRegion, anchorRegion, deAnchorRegion, cache,
    uncacheAll, saveRegion, update, saveAll, isLoaded) and the worker
    callbacks (prepareRegion, finishLoad, finishGenerate, finishSave,
    finishGeneric), each one atomic step that keeps the invariant. */
module RegionStoreOps {
  import opened Outcomes
  import opened RegionNeighbours
  import opened RegionStores

  // ----- Small state edits ---------------------------------------------

  /** c.prepareForPrimary = true. */
  function FlagForPrimary(s: Store, c: Coord): (r: Store)
    requires c in s.cache
    ensures r == s.(cache := s.cache[c := s.cache[c].(prepareForPrimary := true)])
    ensures Valid(s) ==> Valid(r)
  {
    s.(cache := s.cache[c := s.cache[c].(prepareForPrimary := true)])
  }

  /** Primary storage stays as it is and no region but c's changes. */
  predicate KeepsOthers(s: Store, r: Store, c: Coord) {
    c in r.regions && r.regions == s.regions[c := r.regions[c]] && r.primary == s.primary
  }

  // ----- loadRegion, anchorRegion, deAnchorRegion ----------------------

  /** loadRegion: a region in primary storage is returned as it is;
      otherwise the cached region (made new if need be) is flagged for
      primary storage and, the first time, marked and queued for
      prepareRegion(r, true). */
  function LoadRegion(s: Store, c: Coord): (r: Store)
    requires Valid(s)
    ensures Valid(r) && KeepsOthers(s, r, c)
    ensures c in s.primary ==> r == s
    ensures c !in s.primary ==> c in r.cache && r.cache[c].prepareForPrimary
    ensures c in s.regions ==> r.regions == s.regions
    ensures c !in s.regions ==> r.regions[c] == Fresh
    ensures r.tokens == s.tokens + (if c !in s.primary && !(c in s.cache && s.cache[c].prepareForPrimary)
                                    then [Prepare(c, true)] else [])
    ensures r.events == s.events
  {
    if c in s.primary then s else QueueForPrimary(Admit(s, c), c)
  }

  /** The region at c outside primary storage, from the cache or made new
      (`new Region(x, y)` and `new CachedRegion`). */
  function Admit(s: Store, c: Coord): (r: Store)
    requires Valid(s) && c !in s.primary
    ensures Valid(r) && KeepsOthers(s, r, c) && c in r.cache
    ensures c in s.regions ==> r == s
    ensures c !in s.regions ==> r.regions[c] == Fresh && r.cache[c] == CachedRegion(0, false)
    ensures r.tokens == s.tokens && r.events == s.events
  {
    if c in s.regions then s else NewRegion(s, c)
  }

  /** The flag-and-queue half of loadRegion for a cached region. */
  function QueueForPrimary(s: Store, c: Coord): (r: Store)
    requires Valid(s) && c in s.cache
    ensures Valid(r) && r.regions == s.regions && r.primary == s.primary && r.events == s.events
    ensures c in r.cache && r.cache[c].prepareForPrimary
    ensures r.tokens == s.tokens + (if s.cache[c].prepareForPrimary then [] else [Prepare(c, true)])
  {
    if s.cache[c].prepareForPrimary then s else AddToken(FlagForPrimary(s, c), Prepare(c, true))
  }

  /** Whether anchor() on c reports the 0-to-1 edge. */
  predicate AnchorEdge(s: Store, c: Coord) {
    c !in s.regions || s.regions[c].anchors == 0
  }

  /** A region's anchor count, 0 for a region the store does not hold. */
  function AnchorsAt(s: Store, d: Coord): int {
    if d in s.regions then s.regions[d].anchors else 0
  }

  /** A region's anchored-neighbour count, 0 for one the store does not
      hold. */
  function AnchoredAt(s: Store, d: Coord): int {
    if d in s.regions then s.regions[d].anchoredNeighbours else 0
  }

  /** state.anchor() / deAnchor() (da) and the anchored-neighbour counter
      (dn) on a region the store holds; nothing else changes. */
  function Adjust(s: Store, c: Coord, da: int, dn: int): (r: Store)
    requires Valid(s) && c in s.regions
    ensures Valid(r) && r == s.(regions := r.regions) && r.regions.Keys == s.regions.Keys
    ensures forall d :: d in s.regions && d != c ==> r.regions[d] == s.regions[d]
    ensures forall d :: AnchorsAt(r, d) == AnchorsAt(s, d) + (if d == c then da else 0)
    ensures forall d :: AnchoredAt(r, d) == AnchoredAt(s, d) + (if d == c then dn else 0)
  {
    var st := s.regions[c];
    var r := s.(regions := s.regions[c := st.(anchors := st.anchors + da, anchoredNeighbours := st.anchoredNeighbours + dn)]);
    StateChangeKeeps(s, c, r);
    r
  }

  /** loadRegion, then Adjust on the loaded region. */
  function LoadAndAdjust(s: Store, c: Coord, da: int, dn: int): (r: Store)
    requires Valid(s)
    ensures Valid(r) && r.primary == s.primary && r.events == s.events
    ensures r.regions.Keys == s.regions.Keys + {c}
    ensures forall d :: d in s.regions && d != c ==> r.regions[d] == s.regions[d]
    ensures forall d :: AnchorsAt(r, d) == AnchorsAt(s, d) + (if d == c then da else 0)
    ensures forall d :: AnchoredAt(r, d) == AnchoredAt(s, d) + (if d == c then dn else 0)
  {
    var s1 := LoadRegion(s, c);
    LoadKeepsAnchoring(s, c, s1);
    var r := Adjust(s1, c, da, dn);
    assert r.regions.Keys == s1.regions.Keys == s.regions.Keys + {c};
    r
  }

  /** loadRegion changes no anchoring: a new region starts at zero. */
  lemma LoadKeepsAnchoring(s: Store, c: Coord, r: Store)
    requires c in r.regions && r.regions == s.regions[c := r.regions[c]]
    requires c in s.regions ==> r.regions[c] == s.regions[c]
    requires c !in s.regions ==> r.regions[c] == Fresh
    ensures forall d :: AnchorsAt(r, d) == AnchorsAt(s, d) && AnchoredAt(r, d) == AnchoredAt(s, d)
    ensures r.regions.Keys == s.regions.Keys + {c}
    ensures forall d :: d in s.regions && d != c ==> r.regions[d] == s.regions[d]
  {
  }

  /** anchorRegion: loads the region and anchors it; on the 0-to-1 edge
      each neighbour is loaded and gains an anchored neighbour. */
  function AnchorRegion(s: Store, c: Coord): (r: Store)
    requires Valid(s)
    ensures Valid(r) && r.primary == s.primary && r.events == s.events
    ensures s.regions.Keys <= r.regions.Keys && c in r.regions
    ensures AnchorEdge(s, c) ==> forall n :: n in Neighbours(c) ==> n in r.regions
    ensures forall d :: AnchorsAt(r, d) == AnchorsAt(s, d) + (if d == c then 1 else 0)
    ensures forall d :: AnchoredAt(r, d) == AnchoredAt(s, d) + (if AnchorEdge(s, c) && d in Neighbours(c) then 1 else 0)
  {
    var s1 := LoadAndAdjust(s, c, 1, 0);
    if AnchorEdge(s, c) then
      NeighboursExact(c, c);
      AnchorNeighbours(s1, c, Neighbours(c))
    else s1
  }

  /** The neighbour loop of anchorRegion: each listed region is loaded and
      gains one anchored neighbour; no other count changes. */
  function AnchorNeighbours(s: Store, c: Coord, ns: seq<Coord>): (r: Store)
    requires Valid(s) && c in s.regions && c !in ns && Distinct(ns)
    ensures Valid(r) && r.primary == s.primary && r.events == s.events
    ensures s.regions.Keys <= r.regions.Keys && forall n :: n in ns ==> n in r.regions
    ensures r.regions[c] == s.regions[c]
    ensures forall d :: AnchorsAt(r, d) == AnchorsAt(s, d)
    ensures forall d :: AnchoredAt(r, d) == AnchoredAt(s, d) + (if d in ns then 1 else 0)
    decreases |ns|
  {
    if |ns| == 0 then s
    else
      SplitFirst(ns);
      var s1 := LoadAndAdjust(s, ns[0], 0, 1);
      var r := AnchorNeighbours(s1, c, ns[1..]);
      AnchoredStep(ns, s, s1, r, 1);
      assert ns[0] in s1.regions;
      r
  }

  /** Adding k at the first listed region and then at the rest adds k at
      every listed region. */
  lemma AnchoredStep(ns: seq<Coord>, s: Store, s1: Store, r: Store, k: int)
    requires |ns| > 0
    requires forall d :: d in ns <==> d == ns[0] || d in ns[1..]
    requires forall d :: AnchoredAt(s1, d) == AnchoredAt(s, d) + (if d == ns[0] then k else 0)
    requires forall d :: AnchoredAt(r, d) == AnchoredAt(s1, d) + (if d in ns[1..] then k else 0)
    requires ns[0] !in ns[1..]
    ensures forall d :: AnchoredAt(r, d) == AnchoredAt(s, d) + (if d in ns then k else 0)
  {
    forall d
      ensures AnchoredAt(r, d) == AnchoredAt(s, d) + (if d in ns then k else 0)
    {
      assert AnchoredAt(s1, d) == AnchoredAt(s, d) + (if d == ns[0] then k else 0);
      assert AnchoredAt(r, d) == AnchoredAt(s1, d) + (if d in ns[1..] then k else 0);
    }
  }

  lemma SplitFirst(ns: seq<Coord>)
    requires Distinct(ns) && |ns| > 0
    ensures Distinct(ns[1..]) && ns[0] !in ns[1..]
    ensures forall d :: d in ns <==> d == ns[0] || d in ns[1..]
  {
    assert ns == [ns[0]] + ns[1..];
  }

  /** Whether deAnchorRegion(c) finds every region it dereferences. */
  predicate DeAnchorFinds(s: Store, c: Coord) {
    c in s.regions && (s.regions[c].anchors == 1 ==> forall n :: n in Neighbours(c) ==> n in s.regions)
  }

  /** deAnchorRegion: the region and, on the 1-to-0 edge of deAnchor(),
      each neighbour is looked up in primary storage, then the cache; a
      missing one is a null dereference, after the decrements already made. */
  function DeAnchorRegion(s: Store, c: Coord): (r: (Store, Option<Failure>))
    requires Valid(s)
    ensures Valid(r.0) && r.0.regions.Keys == s.regions.Keys
    ensures r.0 == s.(regions := r.0.regions)
    ensures c !in s.regions ==> r == (s, Some(NullPointer))
    ensures r.1.None? <==> DeAnchorFinds(s, c)
    ensures forall d :: AnchorsAt(r.0, d) == AnchorsAt(s, d) - (if d == c && c in s.regions then 1 else 0)
    ensures DeAnchorFinds(s, c) ==>
              forall d :: AnchoredAt(r.0, d) == AnchoredAt(s, d) - (if s.regions[c].anchors == 1 && d in Neighbours(c) then 1 else 0)
  {
    if c !in s.regions then (s, Some(NullPointer))
    else
      var s1 := Adjust(s, c, -1, 0);
      if s.regions[c].anchors - 1 == 0 then
        NeighboursExact(c, c);
        DeAnchorNeighbours(s1, Neighbours(c))
      else (s1, None)
  }

  /** The neighbour loop of deAnchorRegion: each listed region loses one
      anchored neighbour, until one is missing. */
  function DeAnchorNeighbours(s: Store, ns: seq<Coord>): (r: (Store, Option<Failure>))
    requires Valid(s) && Distinct(ns)
    ensures Valid(r.0) && r.0.regions.Keys == s.regions.Keys
    ensures r.0 == s.(regions := r.0.regions)
    ensures r.1.None? <==> forall n :: n in ns ==> n in s.regions
    ensures r.1.Some? ==> r.1.value == NullPointer
    ensures forall d :: AnchorsAt(r.0, d) == AnchorsAt(s, d)
    ensures r.1.None? ==> forall d :: AnchoredAt(r.0, d) == AnchoredAt(s, d) - (if d in ns then 1 else 0)
    decreases |ns|
  {
    if |ns| == 0 then (s, None)
    else if ns[0] !in s.regions then (s, Some(NullPointer))
    else
      SplitFirst(ns);
      var s1 := Adjust(s, ns[0], 0, -1);
      var r := DeAnchorNeighbours(s1, ns[1..]);
      if r.1.None? then AnchoredStep(ns, s, s1, r.0, -1); r else r
  }

  // ----- cache and uncacheAll -----------------------------------------

  /** cache(x, y) by a thread: a region the thread has cached already is
      returned with no new mark.  Otherwise the cached region, or the
      primary one put into the cache, or a new one, gets the thread's
      mark; a new region gets a second mark and is queued for
      prepareRegion(r, false). */
  function Cache(s: Store, t: nat, c: Coord): (r: Store)
    requires Valid(s)
    ensures Valid(r) && KeepsOthers(s, r, c) && c in r.cache && r.events == s.events
    ensures Local(t, c) in s.tokens ==> r == s
    ensures Local(t, c) !in s.tokens ==>
      r.tokens == s.tokens + [Local(t, c)] + (if c in s.regions then [] else [Prepare(c, false)])
    ensures c in s.regions ==> r.regions == s.regions
    ensures c !in s.regions ==> r.regions[c] == Fresh
  {
    if Local(t, c) in s.tokens then
      HeldIsCached(s, t, c);
      s
    else CacheUnheld(s, t, c)
  }

  /** cache(x, y) of a region the thread does not hold yet. */
  function CacheUnheld(s: Store, t: nat, c: Coord): (r: Store)
    requires Valid(s)
    ensures Valid(r) && KeepsOthers(s, r, c) && c in r.cache && r.events == s.events
    ensures r.tokens == s.tokens + [Local(t, c)] + (if c in s.regions then [] else [Prepare(c, false)])
    ensures c in s.regions ==> r.regions == s.regions
    ensures c !in s.regions ==> r.regions[c] == Fresh
  {
    if c in s.regions then CacheKnown(s, t, c) else CacheNew(s, t, c)
  }

  /** cache(x, y) of a region the store has, in the cache or in primary
      storage: the thread's mark on its (perhaps new) cache entry. */
  function CacheKnown(s: Store, t: nat, c: Coord): (r: Store)
    requires Valid(s) && c in s.regions
    ensures Valid(r) && r.regions == s.regions && r.primary == s.primary && c in r.cache && r.events == s.events
    ensures r.tokens == s.tokens + [Local(t, c)] + [] && KeepsOthers(s, r, c)
  {
    var r := AddToken(EnsureEntry(s, c), Local(t, c));
    assert s.regions[c := s.regions[c]] == s.regions;
    assert r.tokens == s.tokens + [Local(t, c)] + [];
    r
  }

  /** cache(x, y) of a region the store does not have: a new region with
      the thread's mark and a mark for its preparation. */
  function CacheNew(s: Store, t: nat, c: Coord): (r: Store)
    requires Valid(s) && c !in s.regions
    ensures Valid(r) && KeepsOthers(s, r, c) && c in r.cache && r.events == s.events
    ensures r.tokens == s.tokens + [Local(t, c)] + [Prepare(c, false)] && r.regions[c] == Fresh
  {
    AddToken(AddToken(NewRegion(s, c), Local(t, c)), Prepare(c, false))
  }

  lemma HeldIsCached(s: Store, t: nat, c: Coord)
    requires Valid(s) && Local(t, c) in s.tokens
    ensures c in s.cache && c in s.regions
  {
    var i :| 0 <= i < |s.tokens| && s.tokens[i] == Local(t, c);
    assert s.tokens[i].at in s.cache;
  }

  /** The first token by which thread t holds a region. */
  function FirstLocal(ts: seq<Token>, t: nat): (r: Option<nat>)
    ensures r.Some? ==> r.value < |ts| && ts[r.value].Local? && ts[r.value].thread == t
    ensures r.None? <==> forall i :: 0 <= i < |ts| ==> !(ts[i].Local? && ts[i].thread == t)
  {
    if |ts| == 0 then None
    else if ts[0].Local? && ts[0].thread == t then Some(0)
    else
      var rest := FirstLocal(ts[1..], t);
      assert forall i :: 1 <= i < |ts| ==> ts[1..][i - 1] == ts[i];
      if rest.Some? then Some(rest.value + 1) else None
  }

  /** How many regions thread t holds. */
  function Held(ts: seq<Token>, t: nat): nat {
    if |ts| == 0 then 0
    else Held(ts[..|ts| - 1], t) + (if ts[|ts| - 1].Local? && ts[|ts| - 1].thread == t then 1 else 0)
  }

  lemma {:induction false} HeldConcat(a: seq<Token>, b: seq<Token>, t: nat)
    ensures Held(a + b, t) == Held(a, t) + Held(b, t)
    decreases |b|
  {
    if |b| == 0 {
      assert a + b == a;
    } else {
      var ab := a + b;
      assert ab[..|ab| - 1] == a + b[..|b| - 1];
      assert ab[|ab| - 1] == b[|b| - 1];
      HeldConcat(a, b[..|b| - 1], t);
    }
  }

  lemma {:induction false} HeldZero(ts: seq<Token>, t: nat)
    ensures Held(ts, t) == 0 <==> forall i :: 0 <= i < |ts| ==> !(ts[i].Local? && ts[i].thread == t)
  {
    if |ts| > 0 {
      HeldZero(ts[..|ts| - 1], t);
      assert forall i :: 0 <= i < |ts| - 1 ==> ts[..|ts| - 1][i] == ts[i];
    }
  }

  /** Dropping one of t's tokens, and perhaps adding a save, lowers what
      t holds by one and what any other thread u holds not at all. */
  lemma HeldDrops(ts: seq<Token>, i: nat, t: nat, extra: seq<Token>, u: nat)
    requires i < |ts| && ts[i].Local? && ts[i].thread == t
    requires forall k :: 0 <= k < |extra| ==> extra[k].Saving?
    ensures Held(RemoveAt(ts, i) + extra, u) + (if u == t then 1 else 0) == Held(ts, u)
  {
    assert ts == ts[..i] + [ts[i]] + ts[i + 1..];
    HeldConcat(ts[..i] + [ts[i]], ts[i + 1..], u);
    HeldConcat(ts[..i], [ts[i]], u);
    HeldConcat(ts[..i], ts[i + 1..], u);
    HeldConcat(RemoveAt(ts, i), extra, u);
    HeldZero(extra, u);
    assert Held([ts[i]], u) == (if u == t then 1 else 0) by { assert [ts[i]][..0] == []; }
  }

  /** A save of c was started between s and r: its save permit went from
      free to claimed. */
  predicate SaveStarted(s: Store, r: Store, c: Coord) {
    c in s.regions && Save !in s.regions[c].claimed && c in r.regions && Save in r.regions[c].claimed
  }

  /** The save token such a start adds, if any. */
  function SaveIf(started: bool, c: Coord): seq<Token> {
    if started then [Saving(c)] else []
  }

  /** A save for a region no longer held outside primary storage: claimed
      and started under a new mark or, with the permit gone, the failed
      assertion. */
  function StartSave(s: Store, c: Coord): (r: Store)
    requires Valid(s) && c in s.cache
    ensures Valid(r) && r.primary == s.primary && r.cache.Keys == s.cache.Keys
    ensures Save !in s.regions[c].claimed ==>
              r.tokens == s.tokens + [Saving(c)] && r.events == s.events
              && r.regions == s.regions[c := s.regions[c].(claimed := s.regions[c].claimed + {Save})]
    ensures Save in s.regions[c].claimed ==> r == s.(events := s.events + [Fault(c)])
  {
    var (s1, got) := TryStart(s, c, Save);
    if got then AddToken(s1, Saving(c)) else Log(s1, Fault(c))
  }

  /** finishGeneric once the count is zero: a region in primary storage
      leaves the cache; any other stays cached for its save. */
  function AtZero(s: Store, c: Coord): (r: Store)
    requires Valid(s) && c in s.cache && Marks(s.tokens, c) == 0
    ensures Valid(r) && r.primary == s.primary && r.tokens == s.tokens + SaveIf(SaveStarted(s, r, c), c)
    ensures SaveStarted(s, r, c) <==> c !in s.primary && Save !in s.regions[c].claimed
    ensures r.cache.Keys == s.cache.Keys - (if c in s.primary then {c} else {})
  {
    if c in s.primary then CacheRemove(s, c) else StartSave(s, c)
  }

  /** finishGeneric(r) for the work of token i: unmark; at zero, a region
      in primary storage just leaves the cache, any other is saved. */
  function FinishGeneric(s: Store, i: nat): (r: Store)
    requires Valid(s) && i < |s.tokens|
    ensures Valid(r) && r.primary == s.primary
    ensures var c := s.tokens[i].at;
            && r.tokens == RemoveAt(s.tokens, i) + SaveIf(SaveStarted(s, r, c), c)
            && (SaveStarted(s, r, c) <==> s.cache[c].timesCached == 1 && c !in s.primary && Save !in s.regions[c].claimed)
            && r.cache.Keys == s.cache.Keys - (if s.cache[c].timesCached == 1 && c in s.primary then {c} else {})
  {
    var c := s.tokens[i].at;
    var (s1, zero) := TakeToken(s, i);
    assert s1.cache.Keys == s.cache.Keys && s1.regions == s.regions && s1.primary == s.primary;
    assert zero <==> s.cache[c].timesCached == 1;
    if zero then AtZero(s1, c) else s1
  }

  /** uncacheAll by thread t: finishGeneric for each region it holds, then
      it holds none. */
  function UncacheAll(s: Store, t: nat): (r: Store)
    requires Valid(s)
    ensures Valid(r) && r.primary == s.primary
    ensures forall k :: 0 <= k < |r.tokens| ==> !(r.tokens[k].Local? && r.tokens[k].thread == t)
    decreases Held(s.tokens, t)
  {
    var first := FirstLocal(s.tokens, t);
    if first.None? then s
    else
      UncacheStep(s, first.value, t);
      UncacheAll(FinishGeneric(s, first.value), t)
  }

  /** Each finishGeneric of uncacheAll releases one of the thread's holds
      and none of another thread's. */
  lemma UncacheStep(s: Store, i: nat, t: nat)
    requires Valid(s) && i < |s.tokens| && s.tokens[i].Local? && s.tokens[i].thread == t
    ensures forall u :: Held(FinishGeneric(s, i).tokens, u) + (if u == t then 1 else 0) == Held(s.tokens, u)
  {
    var c := s.tokens[i].at;
    var extra := SaveIf(SaveStarted(s, FinishGeneric(s, i), c), c);
    forall u ensures Held(FinishGeneric(s, i).tokens, u) + (if u == t then 1 else 0) == Held(s.tokens, u) {
      HeldDrops(s.tokens, i, t, extra, u);
    }
  }

  // ----- Worker callbacks ---------------------------------------------

  /** moveToPrimary(r), after the unmark that reached zero: an unprepared
      region is a failed assertion (and moves anyway); the cache entry
      goes; a region already in primary storage is a warning and nothing
      more; otherwise it enters primary storage with its neighbours
      notified. */
  function MoveToPrimary(s: Store, c: Coord, prepared: bool): (r: Store)
    requires Valid(s) && c in s.cache && Marks(s.tokens, c) == 0
    ensures Valid(r) && r.cache == s.cache - {c} && r.tokens == s.tokens
    ensures r.primary == s.primary + {c}
    ensures r.numRegions == s.numRegions + (if c in s.primary then 0 else 1)
    ensures r.events == s.events + (if prepared then [] else [Fault(c)]) + (if c in s.primary then [Warning(c)] else [])
    ensures c in r.regions && r.regions[c].claimed == s.regions[c].claimed
  {
    Settle(if prepared then s else Log(s, Fault(c)), c)
  }

  /** moveToPrimary after the assertion: the warning for a region already
      in primary storage, the move for any other. */
  function Settle(s: Store, c: Coord): (r: Store)
    requires Valid(s) && c in s.cache && Marks(s.tokens, c) == 0
    ensures Valid(r) && r.cache == s.cache - {c} && r.tokens == s.tokens
    ensures r.primary == s.primary + {c}
    ensures r.numRegions == s.numRegions + (if c in s.primary then 0 else 1)
    ensures r.events == s.events + (if c in s.primary then [Warning(c)] else [])
    ensures c in r.regions && r.regions[c].claimed == s.regions[c].claimed
  {
    if c in s.primary then Log(CacheRemove(s, c), Warning(c)) else EnterPrimary(s, c)
  }

  /** The move itself, for a region not yet in primary storage. */
  function EnterPrimary(s: Store, c: Coord): (r: Store)
    requires Valid(s) && c in s.cache && c !in s.primary && Marks(s.tokens, c) == 0
    ensures Valid(r) && r.cache == s.cache - {c} && r.tokens == s.tokens && r.events == s.events
    ensures r.primary == s.primary + {c} && r.numRegions == s.numRegions + 1
    ensures c in r.regions && r.regions[c].claimed == s.regions[c].claimed
  {
    var s1 := AddPrimary(s, c);
    AddPrimaryKeeps(s, c, s1);
    CacheRemove(s1, c)
  }

  lemma AddPrimaryKeeps(s: Store, c: Coord, r: Store)
    requires Valid(s) && c in s.regions && c !in s.primary
    requires r == AddPrimary(s, c)
    ensures Valid(r)
  {
    assert |s.primary + {c}| == |s.primary| + 1;
  }

  /** prepareRegion(r, generate) for the queued token i: the load permit
      starts a load; failing that, and if generation is wanted, the
      generation permit starts a generation; otherwise finishGeneric
      drops the mark. */
  function PrepareRegion(s: Store, i: nat): (r: Store)
    requires Valid(s) && i < |s.tokens| && s.tokens[i].Prepare?
    ensures Valid(r)
    ensures var c := s.tokens[i].at; var claimed := s.regions[c].claimed;
            && (Load !in claimed ==> r == Start(s, c, Load).(tokens := s.tokens[i := Loading(c)]))
            && (Load in claimed && s.tokens[i].generate && Generate !in claimed ==>
                  r == Start(s, c, Generate).(tokens := s.tokens[i := Generating(c)]))
            && (Load in claimed && (!s.tokens[i].generate || Generate in claimed) ==> r == FinishGeneric(s, i))
  {
    var c := s.tokens[i].at;
    var (s1, gotLoad) := TryStart(s, c, Load);
    if gotLoad then ReplaceToken(s1, i, Loading(c))
    else if s.tokens[i].generate then GenerateOrRelease(s, i)
    else FinishGeneric(s, i)
  }

  /** The generation permit starts a generation in place of token i's
      work; failing that, finishGeneric. */
  function GenerateOrRelease(s: Store, i: nat): (r: Store)
    requires Valid(s) && i < |s.tokens|
    ensures Valid(r)
    ensures var c := s.tokens[i].at;
            && (Generate !in s.regions[c].claimed ==> r == Start(s, c, Generate).(tokens := s.tokens[i := Generating(c)]))
            && (Generate in s.regions[c].claimed ==> r == FinishGeneric(s, i))
  {
    var c := s.tokens[i].at;
    var (s1, got) := TryStart(s, c, Generate);
    if got then ReplaceToken(s1, i, Generating(c)) else FinishGeneric(s, i)
  }

  /** The unmark of token i and, at zero, the move to primary storage. */
  function UnmarkThenMove(s: Store, i: nat, prepared: bool): (r: Store)
    requires Valid(s) && i < |s.tokens|
    ensures Valid(r) && r.tokens == RemoveAt(s.tokens, i)
    ensures var c := s.tokens[i].at;
            && !SaveStarted(s, r, c)
            && (s.cache[c].timesCached == 1 ==> r.primary == s.primary + {c} && r.cache.Keys == s.cache.Keys - {c})
            && (s.cache[c].timesCached != 1 ==> r.primary == s.primary && r.cache.Keys == s.cache.Keys)
  {
    var c := s.tokens[i].at;
    var (s1, zero) := TakeToken(s, i);
    assert s1.cache.Keys == s.cache.Keys && s1.regions == s.regions && s1.primary == s.primary;
    assert zero <==> s.cache[c].timesCached == 1;
    if zero then MoveToPrimary(s1, c, prepared) else s1
  }

  /** The unmark of token i and, at zero, the save (finishGenerate, and
      finishLoad for a region not bound for primary storage). */
  function UnmarkThenSave(s: Store, i: nat): (r: Store)
    requires Valid(s) && i < |s.tokens|
    ensures Valid(r) && r.primary == s.primary && r.cache.Keys == s.cache.Keys
    ensures var c := s.tokens[i].at;
            && r.tokens == RemoveAt(s.tokens, i) + SaveIf(SaveStarted(s, r, c), c)
            && (SaveStarted(s, r, c) <==> s.cache[c].timesCached == 1 && Save !in s.regions[c].claimed)
  {
    var c := s.tokens[i].at;
    var (s1, zero) := TakeToken(s, i);
    assert s1.cache.Keys == s.cache.Keys && s1.regions == s.regions && s1.primary == s.primary;
    assert zero <==> s.cache[c].timesCached == 1;
    if zero then StartSave(s1, c) else s1
  }

  /** finishLoad for the load token i (a failed load goes the same way):
      a region bound for primary storage goes on to generation if that
      permit is free, else is unmarked and at zero moved to primary
      storage; any other region is unmarked and at zero saved. */
  function FinishLoad(s: Store, i: nat, prepared: bool): (r: Store)
    requires Valid(s) && i < |s.tokens| && s.tokens[i].Loading?
    ensures Valid(r)
    ensures var c := s.tokens[i].at;
            && (s.cache[c].prepareForPrimary && Generate !in s.regions[c].claimed ==>
                  r == Start(s, c, Generate).(tokens := s.tokens[i := Generating(c)]))
            && (s.cache[c].prepareForPrimary && Generate in s.regions[c].claimed ==> r == UnmarkThenMove(s, i, prepared))
            && (!s.cache[c].prepareForPrimary ==> r == UnmarkThenSave(s, i))
  {
    var c := s.tokens[i].at;
    if s.cache[c].prepareForPrimary then
      var (s1, gotGen) := TryStart(s, c, Generate);
      if gotGen then ReplaceToken(s1, i, Generating(c)) else UnmarkThenMove(s, i, prepared)
    else UnmarkThenSave(s, i)
  }

  /** finishGenerate for the generation token i: unmark; at zero, save.
      The generation token goes, primary storage and the cache's regions
      stay, and a save starts exactly when this was the last mark and the
      save permit is still free. */
  function FinishGenerate(s: Store, i: nat): (r: Store)
    requires Valid(s) && i < |s.tokens| && s.tokens[i].Generating?
    ensures Valid(r) && r.primary == s.primary && r.cache.Keys == s.cache.Keys
    ensures var c := s.tokens[i].at;
            && r.tokens == RemoveAt(s.tokens, i) + SaveIf(SaveStarted(s, r, c), c)
            && (SaveStarted(s, r, c) <==> s.cache[c].timesCached == 1 && Save !in s.regions[c].claimed)
  {
    UnmarkThenSave(s, i)
  }

  /** finishSave for the save token i: unmark; at zero, a region bound for
      primary storage and prepared moves there, any other leaves the
      cache (and is dropped unless primary storage holds it). */
  function FinishSave(s: Store, i: nat, prepared: bool): (r: Store)
    requires Valid(s) && i < |s.tokens| && s.tokens[i].Saving?
    ensures Valid(r) && r.tokens == RemoveAt(s.tokens, i) && !SaveStarted(s, r, s.tokens[i].at)
    ensures var c := s.tokens[i].at; var e := s.cache[c];
            && (e.timesCached != 1 ==> r.primary == s.primary && r.cache.Keys == s.cache.Keys)
            && (e.timesCached == 1 ==> r.cache.Keys == s.cache.Keys - {c})
            && (e.timesCached == 1 && e.prepareForPrimary && prepared ==> r.primary == s.primary + {c})
            && (e.timesCached == 1 && !(e.prepareForPrimary && prepared) ==>
                  r.primary == s.primary && (c in r.regions <==> c in s.primary))
  {
    var c := s.tokens[i].at;
    var (s1, zero) := TakeToken(s, i);
    assert s1.cache.Keys == s.cache.Keys && s1.regions == s.regions && s1.primary == s.primary;
    assert zero <==> s.cache[c].timesCached == 1;
    if !zero then s1
    else if s1.cache[c].prepareForPrimary && prepared then MoveToPrimary(s1, c, prepared)
    else CacheRemove(s1, c)
  }

  // ----- saveRegion, update, saveAll, isLoaded -------------------------


  /** saveRegion(r, removeFromPrimary) for a region in primary storage:
      with the save permit, the region is cached (if it was not), marked
      and saved; with removal it leaves primary storage either way. */
  function SaveRegion(s: Store, c: Coord, remove: bool): (r: Store)
    requires Valid(s) && c in s.primary
    ensures Valid(r) && r.events == s.events && AnchorsKept(s, r)
    ensures r.primary == (if remove then s.primary - {c} else s.primary)
    ensures Save in s.regions[c].claimed && !remove ==> r == s
    ensures Save in s.regions[c].claimed ==> r.tokens == s.tokens && r.cache == s.cache
    ensures Save !in s.regions[c].claimed ==>
              r.tokens == s.tokens + [Saving(c)] && c in r.cache && c in r.regions && Save in r.regions[c].claimed
  {
    if Save in s.regions[c].claimed then (if remove then RemoveFromPrimary(s, c) else s)
    else SaveUnderPermit(s, c, remove)
  }

  /** saveRegion when the save permit is free: claimed, then the region is
      cached, perhaps removed from primary storage, marked and saved. */
  function SaveUnderPermit(s: Store, c: Coord, remove: bool): (r: Store)
    requires Valid(s) && c in s.primary && Save !in s.regions[c].claimed
    ensures Valid(r) && r.events == s.events && AnchorsKept(s, r)
    ensures r.primary == (if remove then s.primary - {c} else s.primary)
    ensures r.tokens == s.tokens + [Saving(c)] && c in r.cache && c in r.regions && Save in r.regions[c].claimed
  {
    var s1 := ClaimAndCache(s, c);
    var r := MarkForSave(s1, c, remove);
    AnchorsKeptChain(s, s1, r);
    r
  }

  /** The tail of saveRegion once the permit is held and the region is
      cached: perhaps removed from primary storage, then marked. */
  function MarkForSave(s: Store, c: Coord, remove: bool): (r: Store)
    requires Valid(s) && c in s.primary && c in s.cache && Save in s.regions[c].claimed
    ensures Valid(r) && r.events == s.events && AnchorsKept(s, r)
    ensures r.primary == (if remove then s.primary - {c} else s.primary)
    ensures r.tokens == s.tokens + [Saving(c)] && c in r.cache && c in r.regions && Save in r.regions[c].claimed
  {
    var s2 := if remove then RemoveFromPrimary(s, c) else s;
    assert SameButPrepared(s.regions[c], s2.regions[c]);
    var r := AddToken(s2, Saving(c));
    assert r.regions == s2.regions;
    r
  }

  /** The save permit claimed and the region given a cache entry. */
  function ClaimAndCache(s: Store, c: Coord): (r: Store)
    requires Valid(s) && c in s.primary && Save !in s.regions[c].claimed
    ensures Valid(r) && r.events == s.events && r.primary == s.primary && r.tokens == s.tokens
    ensures r.regions == s.regions[c := s.regions[c].(claimed := s.regions[c].claimed + {Save})]
    ensures c in r.cache && AnchorsKept(s, r)
  {
    EnsureEntry(Start(s, c, Save), c)
  }

  /** The retention test of update(): not anchored and no anchored
      neighbour. */
  predicate Unretained(st: RegionState) {
    !(st.anchors > 0) && !(st.anchoredNeighbours > 0)
  }

  /** update() on one region of primary storage, given whether it is
      active and whether its unload countdown fires: an inactive,
      unretained region whose countdown fires runs the unload handler and
      is saved out of primary storage; otherwise nothing changes. */
  function UpdateOne(s: Store, c: Coord, active: bool, tickDown: bool): (r: Store)
    requires Valid(s)
    ensures Valid(r) && AnchorsKept(s, r)
    ensures var unload := c in s.primary && !active && Unretained(s.regions[c]) && tickDown;
            && (unload ==> r.primary == s.primary - {c} && r.events == s.events + [Unloaded(c)])
            && (!unload ==> r == s)
  {
    if c in s.primary && !active && Unretained(s.regions[c]) && tickDown then
      SaveRegion(Log(s, Unloaded(c)), c, true)
    else s
  }

  /** update(): UpdateOne for each region of primary storage, in the
      order the map yields them. */
  function Update(s: Store, order: seq<Coord>, active: set<Coord>, tickDown: set<Coord>): (r: Store)
    requires Valid(s)
    ensures Valid(r) && r.primary <= s.primary && AnchorsKept(s, r)
    ensures forall d :: d in s.primary && d !in r.primary ==>
              d in order && d !in active && d in tickDown && Unretained(s.regions[d])
    decreases |order|
  {
    if |order| == 0 then s
    else Update(UpdateOne(s, order[0], order[0] in active, order[0] in tickDown), order[1..], active, tickDown)
  }

  /** saveAll(): saveRegion(r, false) for each region of primary storage. */
  function SaveAll(s: Store, order: seq<Coord>): (r: Store)
    requires Valid(s)
    ensures Valid(r) && r.primary == s.primary
    decreases |order|
  {
    if |order| == 0 then s
    else SaveAll(if order[0] in s.primary then SaveRegion(s, order[0], false) else s, order[1..])
  }

  /** isLoaded(): exactly when the cache is empty; then no work is pending
      and every region is in primary storage. */
  function IsLoaded(s: Store): (b: bool)
    requires Valid(s)
    ensures b <==> s.cache == map[]
    ensures b ==> s.tokens == [] && s.regions.Keys == s.primary
  {
    TokensCached(s);
    |s.cache| == 0
  }

  lemma TokensCached(s: Store)
    requires Valid(s)
    ensures |s.tokens| > 0 ==> s.tokens[0].at in s.cache
  {
  }
}

=== FILE: region_store_permits.dfy ===
/** The permit discipline of RegionStore.java: loader, generator and saver
    work on a region starts only right after the caller claims that
    region's one-shot load, generation or save permit, and a permit once
    claimed is never given back.  Stated for every step of the store and
    for every store a schedule of steps can reach. */
module RegionStorePermits {
  import opened Outcomes
  import opened RegionNeighbours
  import opened RegionStores
  import opened RegionStoreOps
  import opened RegionStoreProps

  // ----- Work and its permits -----------------------------------------

  /** The permit that licenses a token's work: loads run under the load
      permit, generations under the generation permit, saves under the
      save permit; preparations and threads' holds need none. */
  function PermitOf(t: Token): (r: Option<Op>)
    ensures r.Some? <==> t.Loading? || t.Generating? || t.Saving?
    ensures t.Loading? ==> r == Some(Load)
    ensures t.Generating? ==> r == Some(Generate)
    ensures t.Saving? ==> r == Some(Save)
  {
    match t
    case Loading(_) => Some(Load)
    case Generating(_) => Some(Generate)
    case Saving(_) => Some(Save)
    case _ => None
  }

  predicate DoesWork(t: Token, c: Coord, op: Op) {
    t.at == c && PermitOf(t) == Some(op)
  }

  /** How many pieces of work under permit op are in flight on c. */
  function WorkCount(ts: seq<Token>, c: Coord, op: Op): nat {
    if |ts| == 0 then 0
    else WorkCount(ts[..|ts| - 1], c, op) + (if DoesWork(ts[|ts| - 1], c, op) then 1 else 0)
  }

  lemma {:induction false} WorkConcat(a: seq<Token>, b: seq<Token>, c: Coord, op: Op)
    ensures WorkCount(a + b, c, op) == WorkCount(a, c, op) + WorkCount(b, c, op)
    decreases |b|
  {
    if |b| == 0 {
      assert a + b == a;
    } else {
      var ab := a + b;
      assert ab[..|ab| - 1] == a + b[..|b| - 1];
      assert ab[|ab| - 1] == b[|b| - 1];
      WorkConcat(a, b[..|b| - 1], c, op);
    }
  }

  lemma WorkOne(t: Token, c: Coord, op: Op)
    ensures WorkCount([t], c, op) == if DoesWork(t, c, op) then 1 else 0
  {
    assert [t][..0] == [];
  }

  /** No work under op on c exactly when no token does it. */
  lemma {:induction false} WorkZero(ts: seq<Token>, c: Coord, op: Op)
    ensures WorkCount(ts, c, op) == 0 <==> forall i :: 0 <= i < |ts| ==> !DoesWork(ts[i], c, op)
  {
    if |ts| > 0 {
      WorkZero(ts[..|ts| - 1], c, op);
      assert forall i :: 0 <= i < |ts| - 1 ==> ts[..|ts| - 1][i] == ts[i];
    }
  }

  lemma WorkRemoveAt(ts: seq<Token>, i: nat, c: Coord, op: Op)
    requires i < |ts|
    ensures WorkCount(RemoveAt(ts, i), c, op) + (if DoesWork(ts[i], c, op) then 1 else 0) == WorkCount(ts, c, op)
  {
    assert ts == ts[..i] + [ts[i]] + ts[i + 1..];
    WorkConcat(ts[..i] + [ts[i]], ts[i + 1..], c, op);
    WorkConcat(ts[..i], [ts[i]], c, op);
    WorkConcat(ts[..i], ts[i + 1..], c, op);
    WorkOne(ts[i], c, op);
  }

  lemma WorkReplace(ts: seq<Token>, i: nat, t: Token, c: Coord, op: Op)
    requires i < |ts|
    ensures WorkCount(ts[i := t], c, op) + (if DoesWork(ts[i], c, op) then 1 else 0)
            == WorkCount(ts, c, op) + (if DoesWork(t, c, op) then 1 else 0)
  {
    var a, b := ts[..i], ts[i + 1..];
    assert ts == a + [ts[i]] + b;
    assert ts[i := t] == a + [t] + b;
    WorkConcat(a + [ts[i]], b, c, op);
    WorkConcat(a + [t], b, c, op);
    WorkConcat(a, [ts[i]], c, op);
    WorkConcat(a, [t], c, op);
    WorkOne(t, c, op);
    WorkOne(ts[i], c, op);
  }

  /** None of the tokens is loader, generator or saver work. */
  predicate AllIdle(extra: seq<Token>) {
    forall k :: 0 <= k < |extra| ==> PermitOf(extra[k]).None?
  }

  /** At most one queued preparation is no work. */
  lemma PrepareIdle(b: bool, c: Coord, generate: bool)
    ensures AllIdle(if b then [Prepare(c, generate)] else [])
  {
  }

  lemma LocalIdle(t: nat, c: Coord, rest: seq<Token>)
    requires AllIdle(rest)
    ensures AllIdle([Local(t, c)] + rest)
  {
  }

  lemma IdleConcat(a: seq<Token>, b: seq<Token>)
    requires AllIdle(a) && AllIdle(b)
    ensures AllIdle(a + b)
  {
  }

  /** Appending tokens that are not work adds no work. */
  lemma WorkAppendIdle(ts: seq<Token>, extra: seq<Token>, c: Coord, op: Op)
    requires AllIdle(extra)
    ensures WorkCount(ts + extra, c, op) == WorkCount(ts, c, op)
  {
    WorkConcat(ts, extra, c, op);
    WorkZero(extra, c, op);
  }

  /** Work in flight on c keeps c in the store. */
  lemma WorkHeld(s: Store, c: Coord, op: Op)
    requires Valid(s) && WorkCount(s.tokens, c, op) > 0
    ensures c in s.regions
  {
    WorkZero(s.tokens, c, op);
    var i :| 0 <= i < |s.tokens| && DoesWork(s.tokens[i], c, op);
    assert s.tokens[i].at in s.cache;
  }

  // ----- What a step may do to work and permits ------------------------

  /** Every piece of work started between s and r was licensed: wherever r
      has more work under op on c than s, op was free on c before, is
      claimed after, and exactly one piece was started. */
  ghost predicate WorkGated(s: Store, r: Store) {
    forall c, op :: WorkCount(r.tokens, c, op) > WorkCount(s.tokens, c, op) ==>
      && c in s.regions && op !in s.regions[c].claimed
      && c in r.regions && op in r.regions[c].claimed
      && WorkCount(r.tokens, c, op) == WorkCount(s.tokens, c, op) + 1
  }

  /** No permit is given back by a region present before and after. */
  predicate ClaimsKept(s: Store, r: Store) {
    forall d :: d in s.regions && d in r.regions ==> s.regions[d].claimed <= r.regions[d].claimed
  }

  /** The steps of a loop that creates no region: work gated, permits
      kept, regions only dropped. */
  ghost predicate Gated(s: Store, r: Store) {
    r.regions.Keys <= s.regions.Keys && ClaimsKept(s, r) && WorkGated(s, r)
  }

  /** r's regions are among s's, each with every permit it had in s. */
  predicate Retained(s: Store, r: Store) {
    r.regions.Keys <= s.regions.Keys && ClaimsKept(s, r)
  }

  lemma RetainedChain(a: Store, b: Store, c: Store)
    requires Retained(a, b) && Retained(b, c)
    ensures Retained(a, c)
  {
  }

  /** Changing only prepared-neighbour counts, and dropping regions,
      retains every permit. */
  lemma PreparedOnlyRetained(s: Store, r: Store)
    requires r.regions.Keys <= s.regions.Keys
    requires forall d :: d in r.regions ==> SameButPrepared(s.regions[d], r.regions[d])
    ensures Retained(s, r)
  {
  }

  /** Claiming one more permit retains the rest. */
  lemma ClaimRetained(s: Store, r: Store, c: Coord, op: Op)
    requires c in s.regions && r.regions == s.regions[c := s.regions[c].(claimed := s.regions[c].claimed + {op})]
    ensures Retained(s, r)
  {
  }

  /** Two gated stretches make one: a permit claimed in the first cannot
      be claimed again in the second. */
  lemma GatedChain(s: Store, m: Store, r: Store)
    requires Valid(r) && Gated(s, m) && Gated(m, r)
    ensures Gated(s, r)
  {
    forall c, op | WorkCount(r.tokens, c, op) > WorkCount(s.tokens, c, op)
      ensures c in s.regions && op !in s.regions[c].claimed
      ensures c in r.regions && op in r.regions[c].claimed
      ensures WorkCount(r.tokens, c, op) == WorkCount(s.tokens, c, op) + 1
    {
      WorkHeld(r, c, op);
      assert c in m.regions;
      if WorkCount(m.tokens, c, op) > WorkCount(s.tokens, c, op) {
        assert op in m.regions[c].claimed;
        assert WorkCount(r.tokens, c, op) <= WorkCount(m.tokens, c, op);
      } else {
        assert WorkCount(r.tokens, c, op) > WorkCount(m.tokens, c, op);
      }
    }
  }

  /** A step that only appends tokens that are not work starts nothing. */
  lemma IdleGated(s: Store, r: Store, extra: seq<Token>)
    requires r.tokens == s.tokens + extra && AllIdle(extra)
    ensures WorkGated(s, r)
  {
    forall c, op ensures WorkCount(r.tokens, c, op) == WorkCount(s.tokens, c, op) {
      WorkAppendIdle(s.tokens, extra, c, op);
    }
  }

  /** A callback that drops its token, perhaps handing the region to a
      save it has just claimed, starts no other work. */
  lemma DropGated(s: Store, r: Store, i: nat)
    requires i < |s.tokens|
    requires r.tokens == RemoveAt(s.tokens, i) + SaveIf(SaveStarted(s, r, s.tokens[i].at), s.tokens[i].at)
    ensures WorkGated(s, r)
  {
    var c := s.tokens[i].at;
    var started := SaveStarted(s, r, c);
    forall d, op
      ensures WorkCount(r.tokens, d, op) + (if DoesWork(s.tokens[i], d, op) then 1 else 0)
              == WorkCount(s.tokens, d, op) + (if started && d == c && op == Save then 1 else 0)
    {
      WorkConcat(RemoveAt(s.tokens, i), SaveIf(started, c), d, op);
      WorkRemoveAt(s.tokens, i, d, op);
      if started {
        WorkOne(Saving(c), d, op);
      } else {
        assert WorkCount(SaveIf(started, c), d, op) == 0;
      }
    }
  }

  /** A callback whose token moves on to work it has just claimed the
      permit for. */
  lemma ReplaceGated(s: Store, r: Store, i: nat, t: Token, op: Op)
    requires i < |s.tokens| && t.at == s.tokens[i].at && PermitOf(t) == Some(op)
    requires t.at in s.regions && op !in s.regions[t.at].claimed
    requires r == Start(s, t.at, op).(tokens := s.tokens[i := t])
    ensures Gated(s, r)
  {
    forall d, o
      ensures WorkCount(r.tokens, d, o) + (if DoesWork(s.tokens[i], d, o) then 1 else 0)
              == WorkCount(s.tokens, d, o) + (if DoesWork(t, d, o) then 1 else 0)
    {
      WorkReplace(s.tokens, i, t, d, o);
    }
  }

  // ----- The worker callbacks -----------------------------------------

  /** finishGeneric: an unmark and perhaps a save under the permit just
      claimed. */
  lemma FinishGenericGated(s: Store, i: nat)
    requires Valid(s) && i < |s.tokens|
    ensures Gated(s, FinishGeneric(s, i))
  {
    var c := s.tokens[i].at;
    var r := FinishGeneric(s, i);
    DropGated(s, r, i);
    var (s1, zero) := TakeToken(s, i);
    assert s1.regions == s.regions && s1.primary == s.primary;
    if zero {
      assert r == AtZero(s1, c);
      if c in s1.primary {
        assert r.regions == s.regions;
      } else {
        assert r == StartSave(s1, c);
      }
    }
  }

  /** The move itself changes prepared-neighbour counts only. */
  lemma EnterRetained(s: Store, c: Coord)
    requires Valid(s) && c in s.cache && c !in s.primary && Marks(s.tokens, c) == 0
    ensures Retained(s, EnterPrimary(s, c))
  {
    var s1 := AddPrimary(s, c);
    PreparedOnlyRetained(s, s1);
    assert EnterPrimary(s, c).regions == s1.regions;
  }

  /** The move to primary storage keeps every region and its permits. */
  lemma MoveClaims(s: Store, c: Coord, prepared: bool)
    requires Valid(s) && c in s.cache && Marks(s.tokens, c) == 0
    ensures Retained(s, MoveToPrimary(s, c, prepared))
  {
    var s0 := if prepared then s else Log(s, Fault(c));
    if c !in s0.primary {
      EnterRetained(s0, c);
    } else {
      assert MoveToPrimary(s, c, prepared).regions == s.regions;
    }
  }

  lemma UnmarkThenMoveGated(s: Store, i: nat, prepared: bool)
    requires Valid(s) && i < |s.tokens|
    ensures Gated(s, UnmarkThenMove(s, i, prepared))
  {
    var r := UnmarkThenMove(s, i, prepared);
    NoSaveDropGated(s, r, i);
    UnmarkThenMoveRetained(s, i, prepared);
  }

  /** A callback that drops its token and starts nothing. */
  lemma NoSaveDropGated(s: Store, r: Store, i: nat)
    requires i < |s.tokens| && r.tokens == RemoveAt(s.tokens, i) && !SaveStarted(s, r, s.tokens[i].at)
    ensures WorkGated(s, r)
  {
    var c := s.tokens[i].at;
    assert r.tokens == RemoveAt(s.tokens, i) + SaveIf(SaveStarted(s, r, c), c);
    DropGated(s, r, i);
  }

  lemma UnmarkThenMoveRetained(s: Store, i: nat, prepared: bool)
    requires Valid(s) && i < |s.tokens|
    ensures Retained(s, UnmarkThenMove(s, i, prepared))
  {
    var c := s.tokens[i].at;
    var (s1, zero) := TakeToken(s, i);
    assert s1.regions == s.regions;
    if zero {
      MoveClaims(s1, c, prepared);
    }
  }

  lemma UnmarkThenSaveGated(s: Store, i: nat)
    requires Valid(s) && i < |s.tokens|
    ensures Gated(s, UnmarkThenSave(s, i))
  {
    DropGated(s, UnmarkThenSave(s, i), i);
    var (s1, zero) := TakeToken(s, i);
    assert s1.regions == s.regions;
  }

  lemma FinishSaveGated(s: Store, i: nat, prepared: bool)
    requires Valid(s) && i < |s.tokens| && s.tokens[i].Saving?
    ensures Gated(s, FinishSave(s, i, prepared))
  {
    var c := s.tokens[i].at;
    var r := FinishSave(s, i, prepared);
    NoSaveDropGated(s, r, i);
    var (s1, zero) := TakeToken(s, i);
    assert s1.regions == s.regions;
    if zero && s1.cache[c].prepareForPrimary && prepared {
      MoveClaims(s1, c, prepared);
    }
  }

  lemma PrepareGated(s: Store, i: nat)
    requires Valid(s) && i < |s.tokens| && s.tokens[i].Prepare?
    ensures Gated(s, PrepareRegion(s, i))
  {
    var c := s.tokens[i].at;
    var claimed := s.regions[c].claimed;
    var r := PrepareRegion(s, i);
    if Load !in claimed {
      ReplaceGated(s, r, i, Loading(c), Load);
    } else if s.tokens[i].generate && Generate !in claimed {
      ReplaceGated(s, r, i, Generating(c), Generate);
    } else {
      FinishGenericGated(s, i);
    }
  }

  lemma LoadDoneGated(s: Store, i: nat, prepared: bool)
    requires Valid(s) && i < |s.tokens| && s.tokens[i].Loading?
    ensures Gated(s, FinishLoad(s, i, prepared))
  {
    var c := s.tokens[i].at;
    var r := FinishLoad(s, i, prepared);
    if !s.cache[c].prepareForPrimary {
      UnmarkThenSaveGated(s, i);
    } else if Generate !in s.regions[c].claimed {
      ReplaceGated(s, r, i, Generating(c), Generate);
    } else {
      UnmarkThenMoveGated(s, i, prepared);
    }
  }

  // ----- The entry points ---------------------------------------------

  /** No step gives a permit back, and every start is licensed. */
  ghost predicate Licensed(s: Store, r: Store) {
    WorkGated(s, r) && ClaimsKept(s, r)
  }

  /** Every region of s keeps its permits in r. */
  predicate ClaimsSame(s: Store, r: Store) {
    s.regions.Keys <= r.regions.Keys
    && forall d :: d in s.regions ==> r.regions[d].claimed == s.regions[d].claimed
  }

  lemma ClaimsSameChain(a: Store, b: Store, c: Store)
    requires ClaimsSame(a, b) && ClaimsSame(b, c)
    ensures ClaimsSame(a, c)
  {
  }

  lemma TokensAssoc(ts: seq<Token>, a: seq<Token>, b: seq<Token>)
    ensures ts + a + b == ts + (a + b)
  {
  }

  /** Adjust changes counters only. */
  lemma AdjustClaims(s: Store, c: Coord, da: int, dn: int)
    requires Valid(s) && c in s.regions
    ensures var r := Adjust(s, c, da, dn);
            r.tokens == s.tokens && ClaimsSame(s, r)
  {
    var st := s.regions[c];
    assert Adjust(s, c, da, dn).regions == s.regions[c := st.(anchors := st.anchors + da, anchoredNeighbours := st.anchoredNeighbours + dn)];
  }

  /** loadRegion queues a preparation at most and claims nothing. */
  lemma LoadClaims(s: Store, c: Coord) returns (extra: seq<Token>)
    requires Valid(s)
    ensures var r := LoadRegion(s, c);
            r.tokens == s.tokens + extra && AllIdle(extra) && c in r.regions && ClaimsSame(s, r)
  {
    var b := c !in s.primary && !(c in s.cache && s.cache[c].prepareForPrimary);
    extra := if b then [Prepare(c, true)] else [];
    PrepareIdle(b, c, true);
  }

  /** A step that adds only preparations and holds, giving back no permit,
      is licensed. */
  lemma IdleLicensed(s: Store, r: Store, extra: seq<Token>)
    requires r.tokens == s.tokens + extra && AllIdle(extra)
    requires forall d :: d in s.regions && d in r.regions ==> r.regions[d].claimed == s.regions[d].claimed
    ensures Licensed(s, r)
  {
    IdleGated(s, r, extra);
  }

  lemma IdleSameLicensed(s: Store, r: Store, extra: seq<Token>)
    requires r.tokens == s.tokens + extra && AllIdle(extra) && ClaimsSame(s, r)
    ensures Licensed(s, r)
  {
    IdleLicensed(s, r, extra);
  }

  /** loadRegion then Adjust adds only preparations and gives back no
      permit. */
  lemma LoadAndAdjustTokens(s: Store, c: Coord, da: int, dn: int) returns (extra: seq<Token>)
    requires Valid(s)
    ensures var r := LoadAndAdjust(s, c, da, dn);
            r.tokens == s.tokens + extra && AllIdle(extra) && ClaimsSame(s, r)
  {
    var s1 := LoadRegion(s, c);
    extra := LoadClaims(s, c);
    AdjustClaims(s1, c, da, dn);
    ClaimsSameChain(s, s1, Adjust(s1, c, da, dn));
    assert LoadAndAdjust(s, c, da, dn) == Adjust(s1, c, da, dn);
  }

  /** Two stretches that add only idle tokens and keep permits make one. */
  lemma IdleChain(s: Store, m: Store, r: Store, e1: seq<Token>, e2: seq<Token>)
    requires m.tokens == s.tokens + e1 && AllIdle(e1) && ClaimsSame(s, m)
    requires r.tokens == m.tokens + e2 && AllIdle(e2) && ClaimsSame(m, r)
    ensures r.tokens == s.tokens + (e1 + e2) && AllIdle(e1 + e2) && ClaimsSame(s, r)
  {
    TokensAssoc(s.tokens, e1, e2);
    IdleConcat(e1, e2);
  }

  lemma {:induction false} AnchorNeighboursTokens(s: Store, c: Coord, ns: seq<Coord>) returns (extra: seq<Token>)
    requires Valid(s) && c in s.regions && c !in ns && Distinct(ns)
    ensures var r := AnchorNeighbours(s, c, ns);
            r.tokens == s.tokens + extra && AllIdle(extra) && ClaimsSame(s, r)
    decreases |ns|
  {
    if |ns| == 0 {
      extra := [];
      PrepareIdle(false, c, true);
    } else {
      SplitFirst(ns);
      var s1 := LoadAndAdjust(s, ns[0], 0, 1);
      var e1 := LoadAndAdjustTokens(s, ns[0], 0, 1);
      var e2 := AnchorNeighboursTokens(s1, c, ns[1..]);
      assert AnchorNeighbours(s, c, ns) == AnchorNeighbours(s1, c, ns[1..]);
      IdleChain(s, s1, AnchorNeighbours(s1, c, ns[1..]), e1, e2);
      extra := e1 + e2;
    }
  }

  /** anchorRegion: preparations only, no permit touched. */
  lemma AnchorLicensed(s: Store, c: Coord)
    requires Valid(s)
    ensures Licensed(s, AnchorRegion(s, c))
  {
    var s1 := LoadAndAdjust(s, c, 1, 0);
    var e1 := LoadAndAdjustTokens(s, c, 1, 0);
    if AnchorEdge(s, c) {
      NeighboursExact(c, c);
      var e2 := AnchorNeighboursTokens(s1, c, Neighbours(c));
      var r := AnchorNeighbours(s1, c, Neighbours(c));
      IdleChain(s, s1, r, e1, e2);
      IdleSameLicensed(s, r, e1 + e2);
      assert AnchorRegion(s, c) == r;
    } else {
      IdleSameLicensed(s, s1, e1);
      assert AnchorRegion(s, c) == s1;
    }
  }

  lemma LoadLicensed(s: Store, c: Coord)
    requires Valid(s)
    ensures Licensed(s, LoadRegion(s, c))
  {
    var extra := LoadClaims(s, c);
    IdleSameLicensed(s, LoadRegion(s, c), extra);
  }

  /** A step that changes only region c, and c only when it is new,
      keeps every permit. */
  lemma KeepsOthersSame(s: Store, r: Store, c: Coord)
    requires KeepsOthers(s, r, c) && (c in s.regions ==> r.regions == s.regions)
    ensures ClaimsSame(s, r)
  {
  }

  /** cache(): the thread's hold and perhaps a preparation, nothing
      claimed. */
  lemma CacheClaims(s: Store, t: nat, c: Coord) returns (extra: seq<Token>)
    requires Valid(s)
    ensures var r := Cache(s, t, c);
            r.tokens == s.tokens + extra && AllIdle(extra) && ClaimsSame(s, r)
  {
    var r := Cache(s, t, c);
    KeepsOthersSame(s, r, c);
    var prep: seq<Token> := if c in s.regions then [] else [Prepare(c, false)];
    PrepareIdle(c !in s.regions, c, false);
    if Local(t, c) in s.tokens {
      extra := [];
      assert r == s;
    } else {
      LocalIdle(t, c, prep);
      extra := [Local(t, c)] + prep;
      TokensAssoc(s.tokens, [Local(t, c)], prep);
    }
  }

  lemma CacheLicensed(s: Store, t: nat, c: Coord)
    requires Valid(s)
    ensures Licensed(s, Cache(s, t, c))
  {
    var extra := CacheClaims(s, t, c);
    IdleSameLicensed(s, Cache(s, t, c), extra);
  }

  /** deAnchorRegion's loop changes anchored-neighbour counts only. */
  lemma {:induction false} DeAnchorNeighboursClaims(s: Store, ns: seq<Coord>)
    requires Valid(s) && Distinct(ns)
    ensures ClaimsKept(s, DeAnchorNeighbours(s, ns).0)
    decreases |ns|
  {
    if |ns| > 0 && ns[0] in s.regions {
      SplitFirst(ns);
      var s1 := Adjust(s, ns[0], 0, -1);
      AdjustClaims(s, ns[0], 0, -1);
      DeAnchorNeighboursClaims(s1, ns[1..]);
    }
  }

  lemma DeAnchorLicensed(s: Store, c: Coord)
    requires Valid(s)
    ensures Licensed(s, DeAnchorRegion(s, c).0)
  {
    if c in s.regions {
      var s1 := Adjust(s, c, -1, 0);
      AdjustClaims(s, c, -1, 0);
      if s.regions[c].anchors - 1 == 0 {
        NeighboursExact(c, c);
        DeAnchorNeighboursClaims(s1, Neighbours(c));
      }
    }
    IdleGated(s, DeAnchorRegion(s, c).0, []);
  }

  /** The tail of saveRegion keeps every permit. */
  lemma MarkForSaveClaims(s: Store, c: Coord, remove: bool)
    requires Valid(s) && c in s.primary && c in s.cache && Save in s.regions[c].claimed
    ensures Retained(s, MarkForSave(s, c, remove))
  {
    if remove {
      PreparedOnlyRetained(s, RemoveFromPrimary(s, c));
    }
    var s2 := if remove then RemoveFromPrimary(s, c) else s;
    assert MarkForSave(s, c, remove).regions == s2.regions;
  }

  /** saveRegion keeps every permit but the save permit it claims. */
  lemma SaveRegionClaims(s: Store, c: Coord, remove: bool)
    requires Valid(s) && c in s.primary
    ensures Retained(s, SaveRegion(s, c, remove))
  {
    if Save !in s.regions[c].claimed {
      var s1 := ClaimAndCache(s, c);
      ClaimRetained(s, s1, c, Save);
      MarkForSaveClaims(s1, c, remove);
      RetainedChain(s, s1, MarkForSave(s1, c, remove));
      assert SaveRegion(s, c, remove) == MarkForSave(s1, c, remove);
    } else if remove {
      PreparedOnlyRetained(s, RemoveFromPrimary(s, c));
      assert SaveRegion(s, c, remove) == RemoveFromPrimary(s, c);
    }
  }

  /** One save added under the save permit just claimed. */
  lemma OneSaveGated(s: Store, r: Store, c: Coord)
    requires r.tokens == s.tokens + [Saving(c)]
    requires c in s.regions && Save !in s.regions[c].claimed && c in r.regions && Save in r.regions[c].claimed
    ensures WorkGated(s, r)
  {
    forall d, op
      ensures WorkCount(r.tokens, d, op) == WorkCount(s.tokens, d, op) + (if d == c && op == Save then 1 else 0)
    {
      WorkConcat(s.tokens, [Saving(c)], d, op);
      WorkOne(Saving(c), d, op);
    }
  }

  /** saveRegion: a save is started only under the save permit claimed in
      the same call. */
  lemma SaveRegionGated(s: Store, c: Coord, remove: bool)
    requires Valid(s) && c in s.primary
    ensures Gated(s, SaveRegion(s, c, remove))
  {
    var r := SaveRegion(s, c, remove);
    SaveRegionClaims(s, c, remove);
    if Save in s.regions[c].claimed {
      IdleGated(s, r, []);
    } else {
      OneSaveGated(s, r, c);
    }
  }

  /** Stores with the same regions and work are gated alike. */
  lemma GatedSameWork(s: Store, s1: Store, r: Store)
    requires s1.regions == s.regions && s1.tokens == s.tokens && Gated(s1, r)
    ensures Gated(s, r)
  {
  }

  lemma UpdateOneGated(s: Store, c: Coord, active: bool, tickDown: bool)
    requires Valid(s)
    ensures Gated(s, UpdateOne(s, c, active, tickDown))
  {
    if c in s.primary && !active && Unretained(s.regions[c]) && tickDown {
      var s1 := Log(s, Unloaded(c));
      SaveRegionGated(s1, c, true);
      GatedSameWork(s, s1, SaveRegion(s1, c, true));
    } else {
      IdleGated(s, s, []);
    }
  }

  lemma {:induction false} UpdateGated(s: Store, order: seq<Coord>, active: set<Coord>, tickDown: set<Coord>)
    requires Valid(s)
    ensures Gated(s, Update(s, order, active, tickDown))
    decreases |order|
  {
    if |order| == 0 {
      IdleGated(s, s, []);
    } else {
      var s1 := UpdateOne(s, order[0], order[0] in active, order[0] in tickDown);
      UpdateOneGated(s, order[0], order[0] in active, order[0] in tickDown);
      UpdateGated(s1, order[1..], active, tickDown);
      GatedChain(s, s1, Update(s1, order[1..], active, tickDown));
    }
  }

  lemma {:induction false} SaveAllGated(s: Store, order: seq<Coord>)
    requires Valid(s)
    ensures Gated(s, SaveAll(s, order))
    decreases |order|
  {
    if |order| == 0 {
      IdleGated(s, s, []);
    } else {
      var s1 := if order[0] in s.primary then SaveRegion(s, order[0], false) else s;
      if order[0] in s.primary {
        SaveRegionGated(s, order[0], false);
      } else {
        IdleGated(s, s, []);
      }
      SaveAllGated(s1, order[1..]);
      GatedChain(s, s1, SaveAll(s1, order[1..]));
    }
  }

  lemma {:induction false} UncacheAllGated(s: Store, t: nat)
    requires Valid(s)
    ensures Gated(s, UncacheAll(s, t))
    decreases Held(s.tokens, t)
  {
    var first := FirstLocal(s.tokens, t);
    if first.None? {
      IdleGated(s, s, []);
    } else {
      var s1 := FinishGeneric(s, first.value);
      UncacheStep(s, first.value, t);
      FinishGenericGated(s, first.value);
      UncacheAllGated(s1, t);
      GatedChain(s, s1, UncacheAll(s1, t));
    }
  }

  // ----- Every step ---------------------------------------------------

  /** The entry points: only saveRegion, through update() and saveAll(),
      and finishGeneric, through uncacheAll(), start work. */
  lemma EntryLicensed(s: Store, step: Step)
    requires Valid(s) && !IsCallback(step)
    ensures Licensed(s, Next(s, step))
  {
    match step
    case LoadStep(c) => LoadLicensed(s, c);
    case AnchorStep(c) => AnchorLicensed(s, c);
    case DeAnchorStep(c) => DeAnchorLicensed(s, c);
    case CacheStep(t, c) => CacheLicensed(s, t, c);
    case UncacheAllStep(t) => UncacheAllGated(s, t);
    case UpdateStep(order, active, tickDown) => UpdateGated(s, order, active, tickDown);
    case SaveAllStep(order) => SaveAllGated(s, order);
  }

  /** The worker callbacks. */
  lemma CallbackLicensed(s: Store, step: Step)
    requires Valid(s) && Enabled(s, step) && IsCallback(step)
    ensures Licensed(s, Next(s, step))
  {
    match step
    case PrepareStep(i) => PrepareGated(s, i);
    case LoadDone(i, prepared) => LoadDoneGated(s, i, prepared);
    case GenerateDone(i) => UnmarkThenSaveGated(s, i);
    case SaveDone(i, prepared) => FinishSaveGated(s, i, prepared);
  }

  /** Every step of the store, entry point or worker callback: a load,
      generation or save on c starts only together with the claim of
      that permit on c, which was free until then, and one at a time; no
      step gives a permit back. */
  lemma PermitGatesWork(s: Store, step: Step)
    requires Valid(s) && Enabled(s, step)
    ensures WorkGated(s, Next(s, step)) && ClaimsKept(s, Next(s, step))
  {
    if IsCallback(step) {
      CallbackLicensed(s, step);
    } else {
      EntryLicensed(s, step);
    }
  }

  // ----- Every reachable store ----------------------------------------

  /** Each load, generation or save in flight holds its region's permit. */
  predicate Permitted(s: Store) {
    forall i :: 0 <= i < |s.tokens| && PermitOf(s.tokens[i]).Some? ==>
      s.tokens[i].at in s.regions && PermitOf(s.tokens[i]).value in s.regions[s.tokens[i].at].claimed
  }

  /** A gated step keeps every work token under its permit. */
  lemma PermittedStep(s: Store, r: Store)
    requires Valid(s) && Valid(r) && Permitted(s) && WorkGated(s, r) && ClaimsKept(s, r)
    ensures Permitted(r)
  {
    forall i | 0 <= i < |r.tokens| && PermitOf(r.tokens[i]).Some?
      ensures r.tokens[i].at in r.regions && PermitOf(r.tokens[i]).value in r.regions[r.tokens[i].at].claimed
    {
      var c, op := r.tokens[i].at, PermitOf(r.tokens[i]).value;
      assert r.tokens[i].at in r.cache;
      WorkZero(r.tokens, c, op);
      assert DoesWork(r.tokens[i], c, op);
      if WorkCount(s.tokens, c, op) > 0 {
        WorkZero(s.tokens, c, op);
        var j :| 0 <= j < |s.tokens| && DoesWork(s.tokens[j], c, op);
        assert op in s.regions[c].claimed;
      }
    }
  }

  /** In every store a schedule of steps reaches, every load, generation
      and save in flight runs under its region's claimed permit. */
  lemma {:induction false} RunPermitted(steps: seq<Step>)
    requires Run(steps).Some?
    ensures Permitted(Run(steps).value)
    decreases |steps|
  {
    if |steps| > 0 {
      var before := Run(steps[..|steps| - 1]);
      var step := steps[|steps| - 1];
      RunPermitted(steps[..|steps| - 1]);
      PermitGatesWork(before.value, step);
      PermittedStep(before.value, Next(before.value, step));
    }
  }
}

=== FILE: region_store_props.dfy ===
/** Properties of RegionStore.java across its steps: every reachable store
    keeps the invariant; worker callbacks pass marks on and remove a cache
    entry only at its last mark; primary storage grows only through
    moveToPrimary; anchoring is undone by de-anchoring; cache() is
    idempotent per thread; uncacheAll touches no other thread's holds;
    update() unloads exactly the regions that qualify. */
module RegionStoreProps {
  import opened Outcomes
  import opened RegionNeighbours
  import opened RegionStores
  import opened RegionStoreOps

  // ----- Steps and reachable stores -----------------------------------

  /** One atomic step: an entry point called by some thread, or the
      callback of a pending token (named by its index). */
  datatype Step =
    | LoadStep(c: Coord)
    | AnchorStep(c: Coord)
    | DeAnchorStep(c: Coord)
    | CacheStep(t: nat, c: Coord)
    | UncacheAllStep(t: nat)
    | UpdateStep(order: seq<Coord>, active: set<Coord>, tickDown: set<Coord>)
    | SaveAllStep(order: seq<Coord>)
    | PrepareStep(i: nat)
    | LoadDone(i: nat, prepared: bool)
    | GenerateDone(i: nat)
    | SaveDone(i: nat, prepared: bool)

  /** A callback step needs a pending token of its kind. */
  predicate Enabled(s: Store, step: Step) {
    match step
    case PrepareStep(i) => i < |s.tokens| && s.tokens[i].Prepare?
    case LoadDone(i, _) => i < |s.tokens| && s.tokens[i].Loading?
    case GenerateDone(i) => i < |s.tokens| && s.tokens[i].Generating?
    case SaveDone(i, _) => i < |s.tokens| && s.tokens[i].Saving?
    case _ => true
  }

  /** The store after one step; a failed deAnchorRegion leaves the
      decrements it made before the null dereference. */
  function Next(s: Store, step: Step): (r: Store)
    requires Valid(s) && Enabled(s, step)
    ensures Valid(r)
  {
    match step
    case LoadStep(c) => LoadRegion(s, c)
    case AnchorStep(c) => AnchorRegion(s, c)
    case DeAnchorStep(c) => DeAnchorRegion(s, c).0
    case CacheStep(t, c) => Cache(s, t, c)
    case UncacheAllStep(t) => UncacheAll(s, t)
    case UpdateStep(order, active, tickDown) => Update(s, order, active, tickDown)
    case SaveAllStep(order) => SaveAll(s, order)
    case PrepareStep(i) => PrepareRegion(s, i)
    case LoadDone(i, prepared) => FinishLoad(s, i, prepared)
    case GenerateDone(i) => FinishGenerate(s, i)
    case SaveDone(i, prepared) => FinishSave(s, i, prepared)
  }

  /** The store a schedule of steps reaches from a new store, if every
      step is enabled when it comes. */
  function Run(steps: seq<Step>): (r: Option<Store>)
    ensures r.Some? ==> Valid(r.value)
    ensures |steps| == 0 ==> r == Some(EmptyStore())
  {
    if |steps| == 0 then Some(EmptyStore())
    else
      var before := Run(steps[..|steps| - 1]);
      var step := steps[|steps| - 1];
      if before.Some? && Enabled(before.value, step) then Some(Next(before.value, step)) else None
  }

  // ----- Worker callbacks ---------------------------------------------

  predicate IsCallback(step: Step) {
    step.PrepareStep? || step.LoadDone? || step.GenerateDone? || step.SaveDone?
  }

  /** Each callback works under the mark of its token: no other region's
      count changes, and its own drops by one, or stays when the work moves
      on (load to generation) or a save takes the mark over. */
  lemma CallbackMarks(s: Store, step: Step)
    requires Valid(s) && Enabled(s, step) && IsCallback(step)
    ensures var c := s.tokens[step.i].at; var r := Next(s, step);
            && (forall d :: d != c ==> Marks(r.tokens, d) == Marks(s.tokens, d))
            && Marks(s.tokens, c) - 1 <= Marks(r.tokens, c) <= Marks(s.tokens, c)
  {
    var i, c, r := step.i, s.tokens[step.i].at, Next(s, step);
    if r.tokens == RemoveAt(s.tokens, i) + SaveIf(SaveStarted(s, r, c), c) {
      DropMarks(s.tokens, i, SaveStarted(s, r, c));
    } else {
      var t := CallbackShape(s, step);
      ReplaceMarks(s.tokens, i, t);
    }
  }

  /** A callback either hands its token on to the next stage or drops it,
      perhaps for a save of the same region. */
  lemma CallbackShape(s: Store, step: Step) returns (t: Token)
    requires Valid(s) && Enabled(s, step) && IsCallback(step)
    requires var c := s.tokens[step.i].at; var r := Next(s, step);
             r.tokens != RemoveAt(s.tokens, step.i) + SaveIf(SaveStarted(s, r, c), c)
    ensures t.at == s.tokens[step.i].at && Next(s, step).tokens == s.tokens[step.i := t]
  {
    var c := s.tokens[step.i].at;
    var claimed := s.regions[c].claimed;
    if step.PrepareStep? && Load !in claimed {
      t := Loading(c);
    } else {
      t := Generating(c);
    }
  }

  lemma DropMarks(ts: seq<Token>, i: nat, started: bool)
    requires i < |ts|
    ensures var rs := RemoveAt(ts, i) + SaveIf(started, ts[i].at);
            && (forall d :: d != ts[i].at ==> Marks(rs, d) == Marks(ts, d))
            && Marks(rs, ts[i].at) == Marks(ts, ts[i].at) - 1 + (if started then 1 else 0)
  {
    var c := ts[i].at;
    RemoveAtMarks(ts, i);
    forall d ensures Marks(RemoveAt(ts, i) + SaveIf(started, c), d)
                     == Marks(RemoveAt(ts, i), d) + (if started && d == c then 1 else 0) {
      MarksConcat(RemoveAt(ts, i), SaveIf(started, c), d);
      if started {
        MarksOne(Saving(c), d);
      } else {
        assert SaveIf(started, c) == [];
      }
    }
  }

  /** A callback removes a cache entry only when its count drops from one
      to zero: the entry of the callback's own region at its last mark. */
  lemma CallbackUncaches(s: Store, step: Step)
    requires Valid(s) && Enabled(s, step) && IsCallback(step)
    ensures var r := Next(s, step);
            forall d :: d in s.cache && d !in r.cache ==>
              d == s.tokens[step.i].at && s.cache[d].timesCached == 1
  {
    match step
    case PrepareStep(i) => PrepareUncaches(s, i);
    case LoadDone(i, prepared) => LoadDoneUncaches(s, i, prepared);
    case GenerateDone(i) => SaveKeepsCache(s, i, FinishGenerate(s, i));
    case SaveDone(i, prepared) => SaveDoneUncaches(s, i, prepared);
  }

  lemma SaveDoneUncaches(s: Store, i: nat, prepared: bool)
    requires Valid(s) && i < |s.tokens| && s.tokens[i].Saving?
    ensures var r := FinishSave(s, i, prepared);
            forall d :: d in s.cache && d !in r.cache ==> d == s.tokens[i].at && s.cache[d].timesCached == 1
  {
    var c := s.tokens[i].at;
    var r := FinishSave(s, i, prepared);
    if s.cache[c].timesCached == 1 {
      assert r.cache.Keys == s.cache.Keys - {c};
    } else {
      assert r.cache.Keys == s.cache.Keys;
    }
  }

  lemma PrepareUncaches(s: Store, i: nat)
    requires Valid(s) && i < |s.tokens| && s.tokens[i].Prepare?
    ensures var r := PrepareRegion(s, i);
            forall d :: d in s.cache && d !in r.cache ==> d == s.tokens[i].at && s.cache[d].timesCached == 1
  {
    var c := s.tokens[i].at;
    if Load in s.regions[c].claimed && (!s.tokens[i].generate || Generate in s.regions[c].claimed) {
      assert PrepareRegion(s, i) == FinishGeneric(s, i);
    }
  }

  lemma LoadDoneUncaches(s: Store, i: nat, prepared: bool)
    requires Valid(s) && i < |s.tokens| && s.tokens[i].Loading?
    ensures var r := FinishLoad(s, i, prepared);
            forall d :: d in s.cache && d !in r.cache ==> d == s.tokens[i].at && s.cache[d].timesCached == 1
  {
    var c := s.tokens[i].at;
    var r := FinishLoad(s, i, prepared);
    if !s.cache[c].prepareForPrimary {
      SaveKeepsCache(s, i, r);
    } else if Generate !in s.regions[c].claimed {
      assert r.cache == s.cache;
    } else {
      MoveUncaches(s, i, prepared, r);
    }
  }

  lemma SaveKeepsCache(s: Store, i: nat, r: Store)
    requires Valid(s) && i < |s.tokens| && r == UnmarkThenSave(s, i)
    ensures r.cache.Keys == s.cache.Keys && r.primary == s.primary
  {
  }

  lemma MoveUncaches(s: Store, i: nat, prepared: bool, r: Store)
    requires Valid(s) && i < |s.tokens| && r == UnmarkThenMove(s, i, prepared)
    ensures forall d :: d in s.cache && d !in r.cache ==> d == s.tokens[i].at && s.cache[d].timesCached == 1
  {
    var c := s.tokens[i].at;
    if s.cache[c].timesCached == 1 {
      assert r.cache.Keys == s.cache.Keys - {c};
    } else {
      assert r.cache.Keys == s.cache.Keys;
    }
  }

  /** Nothing enters primary storage but through moveToPrimary, which
      only a finishing load or save reaches, at the last mark of a region
      flagged for primary storage. */
  lemma PrimaryEntry(s: Store, step: Step)
    requires Valid(s) && Enabled(s, step)
    ensures var r := Next(s, step);
            forall d :: d in r.primary && d !in s.primary ==>
              && (step.LoadDone? || step.SaveDone?)
              && d == s.tokens[step.i].at
              && s.cache[d].timesCached == 1 && s.cache[d].prepareForPrimary
  {
    match step
    case LoadDone(i, prepared) => LoadDoneEnters(s, i, prepared);
    case SaveDone(i, prepared) => SaveDoneEnters(s, i, prepared);
    case _ => OthersKeepPrimary(s, step);
  }

  /** No entry point, prepareRegion or finishGenerate adds to primary
      storage. */
  lemma OthersKeepPrimary(s: Store, step: Step)
    requires Valid(s) && Enabled(s, step) && !step.LoadDone? && !step.SaveDone?
    ensures Next(s, step).primary <= s.primary
  {
  }

  lemma SaveDoneEnters(s: Store, i: nat, prepared: bool)
    requires Valid(s) && i < |s.tokens| && s.tokens[i].Saving?
    ensures var r := FinishSave(s, i, prepared);
            forall d :: d in r.primary && d !in s.primary ==>
              d == s.tokens[i].at && s.cache[d].timesCached == 1 && s.cache[d].prepareForPrimary
  {
  }

  lemma LoadDoneEnters(s: Store, i: nat, prepared: bool)
    requires Valid(s) && i < |s.tokens| && s.tokens[i].Loading?
    ensures var r := FinishLoad(s, i, prepared);
            forall d :: d in r.primary && d !in s.primary ==>
              d == s.tokens[i].at && s.cache[d].timesCached == 1 && s.cache[d].prepareForPrimary
  {
    var c := s.tokens[i].at;
    var r := FinishLoad(s, i, prepared);
    if !s.cache[c].prepareForPrimary {
      SaveKeepsCache(s, i, r);
    } else if Generate !in s.regions[c].claimed {
      assert r.primary == s.primary;
    } else {
      MoveEnters(s, i, prepared, r);
    }
  }

  lemma MoveEnters(s: Store, i: nat, prepared: bool, r: Store)
    requires Valid(s) && i < |s.tokens| && r == UnmarkThenMove(s, i, prepared)
    ensures forall d :: d in r.primary && d !in s.primary ==> d == s.tokens[i].at && s.cache[d].timesCached == 1
  {
    var c := s.tokens[i].at;
    if s.cache[c].timesCached == 1 {
      assert r.primary == s.primary + {c};
    } else {
      assert r.primary == s.primary;
    }
  }

  // ----- Prepared neighbours ------------------------------------------

  /** A region's prepared-neighbour count lies in [0, 8]; it is 0 exactly
      when the region is out of primary storage or no neighbour is in it,
      and 8 exactly when it and all eight neighbours are. */
  lemma PreparedRange(s: Store, c: Coord)
    requires Valid(s) && c in s.regions
    ensures 0 <= s.regions[c].preparedNeighbours <= 8
    ensures s.regions[c].preparedNeighbours == 0 <==>
              c !in s.primary || forall n :: n in Neighbours(c) ==> n !in s.primary
    ensures s.regions[c].preparedNeighbours == 8 <==>
              c in s.primary && forall n :: n in Neighbours(c) ==> n in s.primary
  {
    CountInNone(Neighbours(c), s.primary);
    CountInAll(Neighbours(c), s.primary);
  }

  // ----- anchorRegion and deAnchorRegion ------------------------------

  /** deAnchorRegion undoes anchorRegion: it does not fail, and every
      region's anchor and anchored-neighbour counts are as before (regions
      the anchoring loaded stay loaded, at zero). */
  lemma AnchorThenDeAnchor(s: Store, c: Coord)
    requires Valid(s)
    ensures var r := DeAnchorRegion(AnchorRegion(s, c), c);
            && r.1.None? && r.0.primary == s.primary
            && forall d :: AnchorsAt(r.0, d) == AnchorsAt(s, d) && AnchoredAt(r.0, d) == AnchoredAt(s, d)
  {
    var a := AnchorRegion(s, c);
    var edge := AnchorEdge(s, c);
    AnchoredOnce(s, c);
    var r := DeAnchorRegion(a, c);
    assert forall d :: AnchorsAt(r.0, d) == AnchorsAt(a, d) - (if d == c then 1 else 0);
    assert forall d :: AnchoredAt(r.0, d) == AnchoredAt(a, d) - (if edge && d in Neighbours(c) then 1 else 0);
    UndoCounts(s, a, r.0, c, edge, Neighbours(c));
  }

  /** After anchorRegion(c), deAnchorRegion(c) finds what it needs, and
      c's count is at one exactly when the anchoring was its first. */
  lemma AnchoredOnce(s: Store, c: Coord)
    requires Valid(s)
    ensures var a := AnchorRegion(s, c);
            DeAnchorFinds(a, c) && (a.regions[c].anchors == 1 <==> AnchorEdge(s, c))
  {
    var a := AnchorRegion(s, c);
    assert AnchorsAt(a, c) == AnchorsAt(s, c) + 1;
  }

  /** Adding and then taking away the same amounts leaves the counts as
      they were. */
  lemma UndoCounts(s: Store, a: Store, r: Store, c: Coord, edge: bool, ns: seq<Coord>)
    requires forall d :: AnchorsAt(a, d) == AnchorsAt(s, d) + (if d == c then 1 else 0)
    requires forall d :: AnchoredAt(a, d) == AnchoredAt(s, d) + (if edge && d in ns then 1 else 0)
    requires forall d :: AnchorsAt(r, d) == AnchorsAt(a, d) - (if d == c then 1 else 0)
    requires forall d :: AnchoredAt(r, d) == AnchoredAt(a, d) - (if edge && d in ns then 1 else 0)
    ensures forall d :: AnchorsAt(r, d) == AnchorsAt(s, d) && AnchoredAt(r, d) == AnchoredAt(s, d)
  {
  }

  // ----- cache and uncacheAll -----------------------------------------

  /** A thread's second cache() of a region adds no mark and changes
      nothing. */
  lemma CacheRepeat(s: Store, t: nat, c: Coord)
    requires Valid(s)
    ensures Cache(Cache(s, t, c), t, c) == Cache(s, t, c)
  {
    var r := Cache(s, t, c);
    if Local(t, c) !in s.tokens {
      assert r.tokens[|s.tokens|] == Local(t, c);
    }
  }

  /** uncacheAll by t leaves what every other thread holds as it was. */
  lemma {:induction false} UncacheAllOthers(s: Store, t: nat, u: nat)
    requires Valid(s) && u != t
    ensures Held(UncacheAll(s, t).tokens, u) == Held(s.tokens, u)
    decreases Held(s.tokens, t)
  {
    var first := FirstLocal(s.tokens, t);
    if first.Some? {
      UncacheStep(s, first.value, t);
      UncacheAllOthers(FinishGeneric(s, first.value), t, u);
    }
  }

  // ----- update -------------------------------------------------------

  /** update() unloads every region of primary storage it visits that is
      inactive, unretained and whose countdown fires. */
  lemma {:induction false} UpdateUnloads(s: Store, order: seq<Coord>, active: set<Coord>, tickDown: set<Coord>, d: Coord)
    requires Valid(s) && d in s.primary && d in order && d !in active && d in tickDown
    requires Unretained(s.regions[d])
    ensures d !in Update(s, order, active, tickDown).primary
    decreases |order|
  {
    var s1 := UpdateOne(s, order[0], order[0] in active, order[0] in tickDown);
    if order[0] != d && d in s1.primary {
      assert d in order[1..];
      UpdateUnloads(s1, order[1..], active, tickDown, d);
    }
  }
}

=== FILE: registry_namespaced.dfy ===
/** RegistryNamespaced.java: a registry of named objects whose names live
    in "namespace:name" form, with a second map from integer ids.  The
    superclass Registry and the duplicate policy are not part of this
    model; they are represented by a name map and by the policy's answer
    to a duplicate (reject it, overwrite, or throw). */
module RegistriesNamespaced {
  import opened Outcomes

  /** What the duplicate policy does when asked about a taken key. */
  datatype DuplicatePolicy = Reject | Overwrite | ThrowException

  datatype Registry<V> = Registry(
    defaultNamespace: string,
    policy: DuplicatePolicy,
    objects: map<string, V>,
    ids: map<int, V>)
  {
    /** The stored namespace ends in the one colon it contains. */
    predicate Valid() {
      |defaultNamespace| > 0 && defaultNamespace[|defaultNamespace| - 1] == ':'
      && ':' !in defaultNamespace[..|defaultNamespace| - 1]
    }
  }

  /** The constructor: a negative capacity is rejected first (by the
      superclass), then a missing namespace or one containing ':'.  The
      stored namespace carries the trailing colon. */
  function NewRegistry<V>(defaultNamespace: Option<string>, capacity: int, policy: DuplicatePolicy): (r: Result<Registry<V>>)
    ensures r.Ok? <==> capacity >= 0 && defaultNamespace.Some? && ':' !in defaultNamespace.value
    ensures capacity < 0 ==> r == Err(IllegalArgument)
    ensures capacity >= 0 && defaultNamespace.None? ==> r == Err(NullPointer)
    ensures capacity >= 0 && defaultNamespace.Some? && ':' in defaultNamespace.value ==> r == Err(IllegalArgument)
    ensures r.Ok? ==> r.value.Valid() && r.value.defaultNamespace == defaultNamespace.value + ":"
                      && r.value.objects == map[] && r.value.ids == map[]
  {
    if capacity < 0 then Err(IllegalArgument)
    else if defaultNamespace.None? then Err(NullPointer)
    else if ':' in defaultNamespace.value then Err(IllegalArgument)
    else
      var ns := defaultNamespace.value + ":";
      assert ns[..|ns| - 1] == defaultNamespace.value;
      Ok(Registry(ns, policy, map[], map[]))
  }

  /** ensureNamespaced: a name without a colon moves into the default
      namespace; one with a colon is already namespaced. */
  function EnsureNamespaced<V>(r: Registry<V>, name: string): (n: string)
    requires r.Valid()
    ensures ':' in n
    ensures ':' in name ==> n == name
    ensures ':' !in name ==> n == r.defaultNamespace + name && n[|r.defaultNamespace|..] == name
  {
    if ':' !in name then
      var n := r.defaultNamespace + name;
      assert n[|r.defaultNamespace| - 1] == ':';
      n
    else name
  }

  /** Namespacing twice is namespacing once. */
  lemma EnsureNamespacedIdempotent<V>(r: Registry<V>, name: string)
    requires r.Valid()
    ensures EnsureNamespaced(r, EnsureNamespaced(r, name)) == EnsureNamespaced(r, name)
  {
  }

  /** get(String): the object under the namespaced key, if any. */
  function Get<V>(r: Registry<V>, key: string): (v: Option<V>)
    requires r.Valid()
    ensures v.Some? <==> EnsureNamespaced(r, key) in r.objects
    ensures v.Some? ==> v.value == r.objects[EnsureNamespaced(r, key)]
  {
    var k := EnsureNamespaced(r, key);
    if k in r.objects then Some(r.objects[k]) else None
  }

  /** containsKey: whether the namespaced key is taken. */
  function ContainsKey<V>(r: Registry<V>, key: string): (b: bool)
    requires r.Valid()
    ensures b <==> Get(r, key).Some?
  {
    EnsureNamespaced(r, key) in r.objects
  }

  /** A short name and its namespaced form look up the same entry. */
  lemma ShortAndFullNamesAgree<V>(r: Registry<V>, name: string)
    requires r.Valid() && ':' !in name
    ensures Get(r, name) == Get(r, r.defaultNamespace + name)
    ensures ContainsKey(r, name) == ContainsKey(r, r.defaultNamespace + name)
  {
    EnsureNamespacedIdempotent(r, name);
  }

  /** get(int): the object with that id; a negative id is out of bounds. */
  function GetById<V>(r: Registry<V>, id: int): (v: Result<Option<V>>)
    ensures v.Err? <==> id < 0
    ensures v.Err? ==> v.failure == IndexOutOfBounds
    ensures v.Ok? ==> (v.value.Some? <==> id in r.ids)
    ensures v.Ok? && id in r.ids ==> v.value == Some(r.ids[id])
  {
    if id < 0 then Err(IndexOutOfBounds)
    else if id in r.ids then Ok(Some(r.ids[id])) else Ok(None)
  }

  /** containsID: agrees with get(int) finding an object. */
  function ContainsId<V>(r: Registry<V>, id: int): (b: bool)
    ensures b <==> GetById(r, id).Ok? && GetById(r, id).value.Some?
  {
    id >= 0 && id in r.ids
  }

  /** The policy's verdict on a duplicate: true to refuse it, false to go
      ahead, or an exception. */
  function Handle(p: DuplicatePolicy): (r: Result<bool>)
    ensures r == Err(IllegalArgument) <==> p == ThrowException
    ensures r == Ok(true) <==> p == Reject
  {
    match p
    case Reject => Ok(true)
    case Overwrite => Ok(false)
    case ThrowException => Err(IllegalArgument)
  }

  /** register(id, name, object): refuses (false) when the policy rejects a
      taken id or a taken name; otherwise binds both the namespaced name
      and the id to the object. */
  function Register<V>(r: Registry<V>, id: int, name: string, v: V): (res: Result<(Registry<V>, bool)>)
    requires r.Valid()
    ensures id < 0 ==> res == Err(IndexOutOfBounds)
    ensures res.Ok? && !res.value.1 ==> res.value.0 == r
    ensures res.Ok? && res.value.1 ==>
      res.value.0.Valid()
      && GetById(res.value.0, id) == Ok(Some(v)) && Get(res.value.0, name) == Some(v)
      && res.value.0.objects == r.objects[EnsureNamespaced(r, name) := v]
      && res.value.0.ids == r.ids[id := v]
    ensures id >= 0 && id in r.ids && r.policy == Reject ==> res == Ok((r, false))
    ensures id >= 0 && id !in r.ids && EnsureNamespaced(r, name) !in r.objects ==> res.Ok? && res.value.1
  {
    if id < 0 then Err(IndexOutOfBounds)
    else
      var idVerdict := if id in r.ids then Handle(r.policy) else Ok(false);
      if idVerdict.Err? then Err(idVerdict.failure)
      else if idVerdict.value then Ok((r, false))
      else
        var key := EnsureNamespaced(r, name);
        var nameVerdict := if key in r.objects then Handle(r.policy) else Ok(false);
        if nameVerdict.Err? then Err(nameVerdict.failure)
        else if nameVerdict.value then Ok((r, false))
        else
          var r' := r.(objects := r.objects[key := v], ids := r.ids[id := v]);
          EnsureNamespacedIdempotent(r, name);
          Ok((r', true))
  }

  /** register(String, V): never allowed on a namespaced registry. */
  function RegisterByName<V>(r: Registry<V>, name: string, v: V): (res: Result<bool>)
    ensures res == Err(UnsupportedOperation)
  {
    Err(UnsupportedOperation)
  }
}

=== FILE: slice.dfy ===
/** Slice.java: a 16x16 grid of tile ids and tile entities, indexed [y][x]. */
module Slices {
  import opened JavaInt
  import opened Outcomes

  const Size: nat := 16
  const Area: nat := 256

  type Grid<T> = seq<seq<T>>

  predicate IsSquare<T>(g: Grid<T>) {
    |g| == Size && forall r :: 0 <= r < |g| ==> |g[r]| == Size
  }

  /** A slice; `tiles` is None while the tile array has not been set, as
      when the three-argument constructor is used.  `unsavedChanges` is the
      flag of the parent region that every mutation sets. */
  datatype Slice<TE(==)> = Slice(
    tiles: Option<Grid<Int32>>,
    numTileEntities: Int32,
    tileEntities: Grid<Option<TE>>,
    unsavedChanges: bool)
  {
    predicate Valid() {
      (tiles.Some? ==> IsSquare(tiles.value)) && IsSquare(tileEntities)
    }
  }

  /** The constructor: no tile entities, count zero. */
  function NewSlice<TE(==)>(tiles: Option<Grid<Int32>>, unsaved: bool): (s: Slice<TE>)
    requires tiles.Some? ==> IsSquare(tiles.value)
    ensures s.Valid() && s.numTileEntities == 0
    ensures Occupied(s.tileEntities) == 0
  {
    var empty := seq(Size, _ => seq(Size, _ => None));
    EmptyGridUnoccupied<TE>(empty);
    Slice(tiles, 0, empty, unsaved)
  }

  lemma EmptyGridUnoccupied<TE>(g: Grid<Option<TE>>)
    requires forall r, c :: 0 <= r < |g| && 0 <= c < |g[r]| ==> g[r][c].None?
    ensures Occupied(g) == 0
  {
    if |g| > 0 {
      assert forall c :: 0 <= c < |g[0]| ==> g[0][c].None?;
      EmptyRowUnoccupied(g[0]);
      EmptyGridUnoccupied(g[1..]);
    }
  }

  lemma EmptyRowUnoccupied<TE>(row: seq<Option<TE>>)
    requires forall c :: 0 <= c < |row| ==> row[c].None?
    ensures OccupiedRow(row) == 0
  {
  }

  predicate InSlice(x: int, y: int) { 0 <= x < Size && 0 <= y < Size }

  /** Slice.getTileAt, up to the id-to-tile lookup: the id at tiles[y][x]. */
  function GetTileAt<TE>(s: Slice<TE>, x: int, y: int): (r: Result<Int32>)
    requires s.Valid()
    ensures s.tiles.None? ==> r == Err(NullPointer)
    ensures s.tiles.Some? && !InSlice(x, y) ==> r == Err(IndexOutOfBounds)
    ensures r.Ok? ==> s.tiles.Some? && InSlice(x, y) && r.value == s.tiles.value[y][x]
  {
    if s.tiles.None? then Err(NullPointer)
    else if !InSlice(x, y) then Err(IndexOutOfBounds)
    else Ok(s.tiles.value[y][x])
  }

  /** Slice.getTileEntityAt: None when the slot is empty. */
  function GetTileEntityAt<TE>(s: Slice<TE>, x: int, y: int): (r: Result<Option<TE>>)
    requires s.Valid()
    ensures r.Ok? <==> InSlice(x, y)
    ensures r.Ok? ==> r.value == s.tileEntities[y][x]
  {
    if !InSlice(x, y) then Err(IndexOutOfBounds) else Ok(s.tileEntities[y][x])
  }

  /** Slice.setTileAt: sets tiles[y][x], and the region's unsaved flag.  A
      missing tile array, then an index outside [0, 15], is an exception. */
  function SetTileAt<TE>(s: Slice<TE>, x: int, y: int, id: Int32): (r: Result<Slice<TE>>)
    requires s.Valid()
    ensures r.Ok? <==> s.tiles.Some? && InSlice(x, y)
    ensures s.tiles.None? ==> r == Err(NullPointer)
    ensures s.tiles.Some? && !InSlice(x, y) ==> r == Err(IndexOutOfBounds)
    ensures r.Ok? ==> r.value.Valid() && r.value.tiles.Some? && r.value.unsavedChanges
    ensures r.Ok? ==> forall i, j :: InSlice(j, i) ==>
      r.value.tiles.value[i][j] == if i == y && j == x then id else s.tiles.value[i][j]
    ensures r.Ok? ==> r.value.tileEntities == s.tileEntities
                      && r.value.numTileEntities == s.numTileEntities
  {
    if s.tiles.None? then Err(NullPointer)
    else if !InSlice(x, y) then Err(IndexOutOfBounds)
    else
      var t := s.tiles.value;
      var row: seq<Int32> := t[y][x := id];
      Ok(s.(tiles := Some(t[y := row]), unsavedChanges := true))
  }

  /** Reading back a tile just set yields it; every other tile reads as
      before. */
  lemma SetThenGetTile<TE>(s: Slice<TE>, x: int, y: int, id: Int32, x2: int, y2: int)
    requires s.Valid() && s.tiles.Some? && InSlice(x, y)
    ensures GetTileAt(SetTileAt(s, x, y, id).value, x2, y2)
            == if x2 == x && y2 == y then Ok(id) else GetTileAt(s, x2, y2)
  {
  }

  /** Number of occupied tile-entity slots. */
  function Occupied<TE>(g: Grid<Option<TE>>): nat {
    if |g| == 0 then 0 else OccupiedRow(g[0]) + Occupied(g[1..])
  }

  function OccupiedRow<TE>(row: seq<Option<TE>>): nat {
    if |row| == 0 then 0 else (if row[0].Some? then 1 else 0) + OccupiedRow(row[1..])
  }

  lemma {:induction false} OccupiedRowUpdate<TE>(row: seq<Option<TE>>, x: nat, v: Option<TE>)
    requires x < |row|
    ensures OccupiedRow(row[x := v]) + (if row[x].Some? then 1 else 0)
            == OccupiedRow(row) + (if v.Some? then 1 else 0)
    decreases x
  {
    if x > 0 {
      OccupiedRowUpdate(row[1..], x - 1, v);
      assert row[x := v][1..] == row[1..][x - 1 := v];
    }
  }

  lemma {:induction false} OccupiedUpdate<TE>(g: Grid<Option<TE>>, y: nat, x: nat, v: Option<TE>)
    requires y < |g| && x < |g[y]|
    ensures Occupied(g[y := g[y][x := v]]) + (if g[y][x].Some? then 1 else 0)
            == Occupied(g) + (if v.Some? then 1 else 0)
    decreases y
  {
    if y == 0 {
      OccupiedRowUpdate(g[0], x, v);
      assert g[y := g[y][x := v]][1..] == g[1..];
    } else {
      OccupiedUpdate(g[1..], y - 1, x, v);
      assert g[y := g[y][x := v]][1..] == g[1..][y - 1 := g[y][x := v]];
    }
  }

  /** Slice.setTileEntityAt, as written.  None removes.  An occupied slot is
      always cleared, and the count drops only when the argument is None: a
      non-null entity on an occupied slot leaves the slot empty and the count
      unchanged. */
  function SetTileEntityAt<TE>(s: Slice<TE>, x: int, y: int, te: Option<TE>): (r: Result<Slice<TE>>)
    requires s.Valid()
    ensures r.Ok? <==> InSlice(x, y)
    ensures r.Ok? ==> r.value.Valid() && r.value.tiles == s.tiles
    ensures r.Ok? && s.tileEntities[y][x].Some? ==>
      r.value.tileEntities[y][x].None? && r.value.unsavedChanges
      && r.value.numTileEntities == (if te.None? then Wrap32(s.numTileEntities - 1) else s.numTileEntities)
    ensures r.Ok? && s.tileEntities[y][x].None? && te.Some? ==>
      r.value.tileEntities[y][x] == te && r.value.unsavedChanges
      && r.value.numTileEntities == Wrap32(s.numTileEntities + 1)
    ensures r.Ok? && s.tileEntities[y][x].None? && te.None? ==> r.value == s
    ensures r.Ok? ==> forall i, j :: InSlice(j, i) && (i != y || j != x) ==>
      r.value.tileEntities[i][j] == s.tileEntities[i][j]
  {
    if !InSlice(x, y) then Err(IndexOutOfBounds)
    else
      var g := s.tileEntities;
      if g[y][x].Some? then
        var n := if te.None? then Wrap32(s.numTileEntities - 1) else s.numTileEntities;
        Ok(s.(numTileEntities := n, tileEntities := g[y := g[y][x := None]], unsavedChanges := true))
      else if te.Some? then
        Ok(s.(numTileEntities := Wrap32(s.numTileEntities + 1),
              tileEntities := g[y := g[y][x := te]], unsavedChanges := true))
      else Ok(s)
  }

  /** The count the field is meant to keep: numTileEntities equals the
      number of occupied slots. */
  predicate CountAccurate<TE>(s: Slice<TE>) {
    s.numTileEntities == Occupied(s.tileEntities)
  }

  /** As written, placing an entity on an occupied slot breaks the count:
      starting from a slice with one entity at (0, 0) and a correct count of
      1, setting another entity there empties the slot and leaves the count
      at 1. */
  lemma ReplaceBreaksCount(s: Slice<int>)
    requires s.Valid() && CountAccurate(s) && s.tileEntities[0][0].Some?
    ensures SetTileEntityAt(s, 0, 0, Some(7)).Ok?
    ensures !CountAccurate(SetTileEntityAt(s, 0, 0, Some(7)).value)
  {
    OccupiedUpdate(s.tileEntities, 0, 0, None);
  }

  /** setTileEntityAt with the evident intent: a non-null entity replaces an
      occupied slot's entity, so the count stays equal to the number of
      occupied slots. */
  function SetTileEntityAtFixed<TE>(s: Slice<TE>, x: int, y: int, te: Option<TE>): (r: Result<Slice<TE>>)
    requires s.Valid()
    ensures r.Ok? <==> InSlice(x, y)
    ensures r.Ok? ==> r.value.Valid() && r.value.tiles == s.tiles
    ensures r.Ok? ==> r.value.tileEntities[y][x] == te
    ensures r.Ok? ==> forall i, j :: InSlice(j, i) && (i != y || j != x) ==>
      r.value.tileEntities[i][j] == s.tileEntities[i][j]
  {
    if !InSlice(x, y) then Err(IndexOutOfBounds)
    else
      var g := s.tileEntities;
      var n :=
        if g[y][x].Some? && te.None? then Wrap32(s.numTileEntities - 1)
        else if g[y][x].None? && te.Some? then Wrap32(s.numTileEntities + 1)
        else s.numTileEntities;
      if g[y][x].None? && te.None? then Ok(s)
      else Ok(s.(numTileEntities := n, tileEntities := g[y := g[y][x := te]], unsavedChanges := true))
  }

  /** The corrected operation keeps numTileEntities equal to the number of
      occupied slots (the count cannot reach 2^31 with 256 slots). */
  lemma FixedKeepsCount<TE>(s: Slice<TE>, x: int, y: int, te: Option<TE>)
    requires s.Valid() && CountAccurate(s) && InSlice(x, y)
    ensures CountAccurate(SetTileEntityAtFixed(s, x, y, te).value)
  {
    OccupiedUpdate(s.tileEntities, y, x, te);
    OccupiedBound(s.tileEntities);
  }

  lemma {:induction false} OccupiedBound<TE>(g: Grid<Option<TE>>)
    requires forall r :: 0 <= r < |g| ==> |g[r]| == Size
    ensures Occupied(g) <= |g| * Size
  {
    if |g| > 0 {
      OccupiedRowBound(g[0]);
      OccupiedBound(g[1..]);
    }
  }

  lemma {:induction false} OccupiedRowBound<TE>(row: seq<Option<TE>>)
    ensures OccupiedRow(row) <= |row|
  {
    if |row| > 0 {
      OccupiedRowBound(row[1..]);
    }
  }

  /** The flattening of Slice.getTilesAsIntArray: tiles[r][c] lands at index
      r * 16 + c. */
  function Flatten(t: Grid<Int32>): (a: seq<Int32>)
    requires IsSquare(t)
    ensures |a| == Area
    ensures forall r, c :: 0 <= r < Size && 0 <= c < Size ==> a[r * Size + c] == t[r][c]
  {
    seq(Area, i requires 0 <= i < Area => t[i / Size][i % Size])
  }

  /** The unflattening of Slice.setTilesAsIntArray. */
  function Unflatten(a: seq<Int32>): (t: Grid<Int32>)
    requires |a| >= Area
    ensures IsSquare(t)
    ensures forall r, c :: 0 <= r < Size && 0 <= c < Size ==> t[r][c] == a[r * Size + c]
  {
    seq(Size, r requires 0 <= r < Size => seq(Size, c requires 0 <= c < Size => a[r * Size + c]))
  }

  /** Flattening and unflattening are inverse: a valid grid survives the
      trip through the 1D array unchanged ... */
  lemma UnflattenFlatten(t: Grid<Int32>)
    requires IsSquare(t)
    ensures Unflatten(Flatten(t)) == t
  {
    var u := Unflatten(Flatten(t));
    forall r | 0 <= r < Size
      ensures u[r] == t[r]
    {
      assert forall c :: 0 <= c < Size ==> u[r][c] == t[r][c];
    }
  }

  /** ... and so do the first 256 entries of an array. */
  lemma FlattenUnflatten(a: seq<Int32>)
    requires |a| >= Area
    ensures Flatten(Unflatten(a)) == a[..Area]
  {
    var f := Flatten(Unflatten(a));
    var u := Unflatten(a);
    forall i | 0 <= i < Area
      ensures f[i] == a[i]
    {
      IndexSplit(i);
      var r, c := i / Size, i % Size;
      assert f[r * Size + c] == u[r][c];
    }
  }

  /** Every index of a flattened grid is row * 16 + column for one row and
      column in range. */
  lemma IndexSplit(i: int)
    requires 0 <= i < Area
    ensures 0 <= i / Size < Size && 0 <= i % Size < Size
    ensures i == (i / Size) * Size + i % Size
  {
  }

  /** Slice.getTilesAsIntArray: row r occupies indices [16r, 16r + 16). */
  method GetTilesAsIntArray<TE>(s: Slice<TE>) returns (r: Result<seq<Int32>>)
    requires s.Valid()
    ensures r.Ok? <==> s.tiles.Some?
    ensures r.Err? ==> r.failure == NullPointer
    ensures r.Ok? ==> r.value == Flatten(s.tiles.value)
  {
    if s.tiles.None? {
      return Err(NullPointer);
    }
    var t := s.tiles.value;
    var out: seq<Int32> := [];
    var row := 0;
    while row < Size
      invariant 0 <= row <= Size && |out| == row * Size
      invariant forall i, j :: 0 <= i < row && 0 <= j < Size ==> out[i * Size + j] == t[i][j]
    {
      var col := 0;
      while col < Size
        invariant 0 <= col <= Size && |out| == row * Size + col
        invariant forall i, j :: 0 <= i < row && 0 <= j < Size ==> out[i * Size + j] == t[i][j]
        invariant forall j :: 0 <= j < col ==> out[row * Size + j] == t[row][j]
      {
        out := out + [t[row][col]];
        col := col + 1;
      }
      row := row + 1;
    }
    FlattenEq(t, out);
    return Ok(out);
  }

  lemma FlattenEq(t: Grid<Int32>, out: seq<Int32>)
    requires IsSquare(t) && |out| == Area
    requires forall i, j :: 0 <= i < Size && 0 <= j < Size ==> out[i * Size + j] == t[i][j]
    ensures out == Flatten(t)
  {
    forall k | 0 <= k < Area
      ensures out[k] == Flatten(t)[k]
    {
      var i, j := k / Size, k % Size;
      assert k == i * Size + j;
    }
  }

  /** The tile grid setTilesAsIntArray leaves behind: the array's entries
      where it has them, and the zero of a fresh int array beyond. */
  predicate FilledFrom(t: Grid<Int32>, a: seq<Int32>) {
    IsSquare(t) && forall i, j :: 0 <= i < Size && 0 <= j < Size ==>
      t[i][j] == if i * Size + j < |a| then a[i * Size + j] else 0
  }

  /** Slice.setTilesAsIntArray.  A fresh zeroed grid replaces the tiles
      first, so an array shorter than 256 entries fails part-way with the
      grid filled up to that point. */
  method SetTilesAsIntArray<TE>(s: Slice<TE>, a: seq<Int32>) returns (s': Slice<TE>, failure: Option<Failure>)
    requires s.Valid()
    ensures s'.Valid() && s'.tiles.Some? && FilledFrom(s'.tiles.value, a)
    ensures s' == s.(tiles := s'.tiles)
    ensures failure.None? <==> |a| >= Area
    ensures failure.Some? ==> failure.value == IndexOutOfBounds
    ensures failure.None? ==> s'.tiles.value == Unflatten(a)
  {
    var rows: seq<seq<Int32>> := [];
    var row := 0;
    while row < Size
      invariant 0 <= row <= Size && |rows| == row && row * Size <= |a|
      invariant forall i :: 0 <= i < row ==> |rows[i]| == Size
      invariant forall i, j :: 0 <= i < row && 0 <= j < Size ==> rows[i][j] == a[i * Size + j]
    {
      var cells: seq<Int32> := [];
      var col := 0;
      while col < Size
        invariant 0 <= col <= Size && |cells| == col && row * Size + col <= |a|
        invariant forall j :: 0 <= j < col ==> cells[j] == a[row * Size + j]
      {
        if row * Size + col >= |a| {
          var t := rows + [cells + seq(Size - col, _ => 0)] + seq(Size - row - 1, _ => seq(Size, _ => 0));
          s' := s.(tiles := Some(t));
          failure := Some(IndexOutOfBounds);
          return;
        }
        cells := cells + [a[row * Size + col]];
        col := col + 1;
      }
      rows := rows + [cells];
      row := row + 1;
    }
    s' := s.(tiles := Some(rows));
    failure := None;
    FilledIsUnflatten(rows, a);
  }

  lemma FilledIsUnflatten(t: Grid<Int32>, a: seq<Int32>)
    requires FilledFrom(t, a) && |a| >= Area
    ensures t == Unflatten(a)
  {
    var u := Unflatten(a);
    forall r | 0 <= r < Size
      ensures t[r] == u[r]
    {
      assert forall c :: 0 <= c < Size ==> t[r][c] == u[r][c];
    }
  }

}

=== FILE: tile_builder.dfy ===
/** TileBuilder.java: a builder that is reset from a template by begin(),
    adjusted by setters, and registers each built tile exactly once.  The
    tile registry is a log of the tiles handed to Tile.registerTile;
    floats are held as reals, since they are only copied. */
module TileBuilders {
  import opened Outcomes

  const FloatMax: real := 340282346638528859811704183484516925440.0

  /** The constructor function a template (or a register(f) caller) uses
      to make the tile. */
  datatype Factory = AirTile | PlainTile | GrassTile | FluidTile | ChestTile | SpawnerTile | OreTile | Custom(tag: nat)

  datatype Template = Air | Dirt | Grass | Stone | Wood | Invul | Ice | Water | Lava | Chest | Spawner | Ore

  /** A template's settings. */
  datatype Settings = Settings(
    solid: bool, hardness: real, friction: real, viscosity: real, light: int, falloff: int)

  function SolidSettings(hardness: real, friction: real): Settings {
    Settings(true, hardness, friction, 0.0, 2, 2)
  }

  function FluidSettings(viscosity: real): Settings {
    Settings(false, 0.0, 0.0, viscosity, 2, 2)
  }

  /** The Template enum's constants. */
  function TemplateSettings(t: Template): (s: Settings)
    ensures s.solid <==> !(t.Air? || t.Water? || t.Lava?)
    ensures 0 <= s.light <= 15 && 1 <= s.falloff <= 2
  {
    match t
    case Air => Settings(false, 0.0, 0.001, 0.0, 15, 1)
    case Dirt => SolidSettings(1.0, 0.07)
    case Grass => SolidSettings(1.0, 0.07)
    case Stone => SolidSettings(10.0, 0.07)
    case Wood => SolidSettings(3.0, 0.07)
    case Invul => SolidSettings(FloatMax, 0.07)
    case Ice => SolidSettings(1.0, 0.008)
    case Water => FluidSettings(0.12)
    case Lava => FluidSettings(0.12)
    case Chest => SolidSettings(3.0, 0.07)
    case Spawner => SolidSettings(10.0, 0.07)
    case Ore => SolidSettings(10.0, 0.07)
  }

  function TemplateFactory(t: Template): Factory {
    match t
    case Air => AirTile
    case Grass => GrassTile
    case Water => FluidTile
    case Lava => FluidTile
    case Chest => ChestTile
    case Spawner => SpawnerTile
    case Ore => OreTile
    case _ => PlainTile
  }

  /** A tile handed to the registry: what its factory saw of the builder. */
  datatype Tile = Tile(factory: Factory, id: int, name: Option<string>, settings: Settings)

  datatype Builder = Builder(
    registered: bool,
    template: Option<Template>,
    id: int,
    name: Option<string>,
    settings: Settings,
    tiles: seq<Tile>)

  /** A new builder: nothing pending (registered starts true), no template. */
  function NewBuilder(): (b: Builder)
    ensures b.registered && b.template.None? && b.tiles == []
  {
    Builder(true, None, 0, None, Settings(false, 0.0, 0.0, 0.0, 0, 0), [])
  }

  /** The result of an operation that may throw after changing the state. */
  datatype Outcome = Outcome(b: Builder, thrown: Option<Failure>)

  /** register(f): refuses a builder already registered; otherwise logs the
      one tile f builds and marks the builder registered. */
  function RegisterWith(b: Builder, f: Factory): (r: Result<Builder>)
    ensures r.Err? <==> b.registered
    ensures r.Err? ==> r.failure == IllegalState
    ensures r.Ok? ==> r.value.registered && r.value.tiles == b.tiles + [Tile(f, b.id, b.name, b.settings)]
    ensures r.Ok? ==> r.value == b.(registered := true, tiles := r.value.tiles)
  {
    if b.registered then Err(IllegalState)
    else Ok(b.(registered := true, tiles := b.tiles + [Tile(f, b.id, b.name, b.settings)]))
  }

  /** register(): register(f) with the template's factory; with no
      template that is a null dereference. */
  function Register(b: Builder): (r: Result<Builder>)
    ensures b.template.None? ==> r == Err(NullPointer)
    ensures b.template.Some? ==> r == RegisterWith(b, TemplateFactory(b.template.value))
  {
    if b.template.None? then Err(NullPointer) else RegisterWith(b, TemplateFactory(b.template.value))
  }

  /** end(): registers the pending tile, if there is one. */
  function End(b: Builder): (r: Builder)
    ensures b.registered || b.template.None? ==> r == b
    ensures !b.registered && b.template.Some? ==>
      r.registered && r.tiles == b.tiles + [Tile(TemplateFactory(b.template.value), b.id, b.name, b.settings)]
    ensures |r.tiles| <= |b.tiles| + 1 && r.tiles[..|b.tiles|] == b.tiles
    ensures b.template.Some? ==> r.registered
  {
    if !b.registered && b.template.Some? then Register(b).value else b
  }

  /** begin(t, id, name): rejects a negative id before anything else; then
      registers any pending tile, then takes the template (null is an
      exception at that point), the id and the name (likewise), copies the
      template's settings and marks the new tile pending. */
  function Begin(b: Builder, t: Option<Template>, id: int, name: Option<string>): (r: Outcome)
    ensures id < 0 ==> r == Outcome(b, Some(IllegalArgument))
    ensures id >= 0 ==> r.b.tiles == End(b).tiles
    ensures id >= 0 && t.None? ==> r == Outcome(End(b), Some(NullPointer))
    ensures id >= 0 && t.Some? && name.None? ==> r.thrown == Some(NullPointer)
    ensures r.thrown.None? <==> id >= 0 && t.Some? && name.Some?
    ensures r.thrown.None? ==>
      !r.b.registered && r.b.template == t && r.b.id == id && r.b.name == name
      && r.b.settings == TemplateSettings(t.value)
  {
    if id < 0 then Outcome(b, Some(IllegalArgument))
    else
      var e := End(b);
      if t.None? then Outcome(e, Some(NullPointer))
      else
        var e' := e.(template := t, id := id);
        if name.None? then Outcome(e', Some(NullPointer))
        else Outcome(e'.(name := name, settings := TemplateSettings(t.value), registered := false), None)
  }

  /** A tile begun and then ended is registered exactly once, with the
      template's factory and settings, after whatever was pending. */
  lemma BeginThenEnd(b: Builder, t: Template, id: int, name: string)
    requires id >= 0
    ensures var r := Begin(b, Some(t), id, Some(name));
            End(r.b).tiles == End(b).tiles + [Tile(TemplateFactory(t), id, Some(name), TemplateSettings(t))]
  {
  }

  /** A second register() of the same tile is refused. */
  lemma RegisterOnce(b: Builder, f: Factory, g: Factory)
    requires !b.registered
    ensures RegisterWith(RegisterWith(b, f).value, g) == Err(IllegalState)
  {
  }

  /** The setters: each changes its own setting and nothing else. */
  function SetSolid(b: Builder, v: bool): (r: Builder)
    ensures r.settings.solid == v && r == b.(settings := b.settings.(solid := v))
  {
    b.(settings := b.settings.(solid := v))
  }

  function SetHardness(b: Builder, v: real): (r: Builder)
    ensures r.settings.hardness == v && r == b.(settings := b.settings.(hardness := v))
  {
    b.(settings := b.settings.(hardness := v))
  }

  function SetViscosity(b: Builder, v: real): (r: Builder)
    ensures r.settings.viscosity == v && r == b.(settings := b.settings.(viscosity := v))
  {
    b.(settings := b.settings.(viscosity := v))
  }

  function SetLight(b: Builder, v: int): (r: Builder)
    requires -128 <= v < 128
    ensures r.settings.light == v && r == b.(settings := b.settings.(light := v))
  {
    b.(settings := b.settings.(light := v))
  }

  function SetFalloff(b: Builder, v: int): (r: Builder)
    requires -128 <= v < 128
    ensures r.settings.falloff == v && r == b.(settings := b.settings.(falloff := v))
  {
    b.(settings := b.settings.(falloff := v))
  }

  /** A setting changed between begin and end is what the registered tile
      carries; the registration flag and the log are untouched by setters. */
  lemma SetterReachesTile(b: Builder, t: Template, id: int, name: string, h: real)
    requires id >= 0
    ensures var r := SetHardness(Begin(b, Some(t), id, Some(name)).b, h);
            !r.registered && End(r).tiles[|End(r).tiles| - 1].settings.hardness == h
            && End(r).tiles[|End(r).tiles| - 1].settings.friction == TemplateSettings(t).friction
  {
  }
}

=== FILE: world_coords.dfy ===
/** The int-typed coordinate conversions of World.java: tile, slice and
    region coordinates along one axis, computed with Java's shifts, masks and
    32-bit multiplication. */
module WorldCoords {
  import opened JavaInt

  /** Slice.SLICE_SIZE_SHIFT: a slice is 16 tiles wide. */
  const SliceShift: nat := 4
  /** Slice.SLICE_SIZE and Slice.SLICE_SIZE_MINUS_ONE. */
  const SliceSize: Int32 := 16
  const SliceSizeMinusOne: Int32 := 15

  /** The region size constants, which Region.java declares and which are a
      parameter here: a region is 2^regionShift slices wide, hence
      2^(regionShift + 4) tiles wide. */
  datatype Dims = Dims(regionShift: nat) {
    predicate Valid() { regionShift + SliceShift <= 30 }

    /** Region.REGION_SIZE_IN_TILES_SHIFT */
    function TilesShift(): nat { regionShift + SliceShift }

    /** Region.REGION_SIZE */
    function RegionSize(): Int32
      requires Valid()
    {
      PowInt(regionShift)
    }

    /** Region.REGION_SIZE_IN_TILES */
    function RegionSizeInTiles(): Int32
      requires Valid()
    {
      PowInt(TilesShift())
    }
  }

  /** Floor division by a power of two: the quotient q is the one with
      q * 2^k <= c < q * 2^k + 2^k. */
  lemma ShrIsFloor(c: Int32, k: nat)
    requires k < 32
    ensures Shr(c, k) * Pow2(k) <= c < Shr(c, k) * Pow2(k) + Pow2(k)
  {
    ModFacts(c, Pow2(k));
  }

  /** World.regionCoordFromTileCoord */
  function RegionCoordFromTileCoord(d: Dims, c: Int32): (r: Int32)
    requires d.Valid()
    ensures r * d.RegionSizeInTiles() <= c < r * d.RegionSizeInTiles() + d.RegionSizeInTiles()
  {
    ShrIsFloor(c, d.TilesShift());
    Shr(c, d.TilesShift())
  }

  /** World.regionCoordFromSliceCoord */
  function RegionCoordFromSliceCoord(d: Dims, c: Int32): (r: Int32)
    requires d.Valid()
    ensures r * d.RegionSize() <= c < r * d.RegionSize() + d.RegionSize()
  {
    ShrIsFloor(c, d.regionShift);
    Shr(c, d.regionShift)
  }

  /** World.sliceCoordFromTileCoord: floor(c / 16), negative c included. */
  function SliceCoordFromTileCoord(c: Int32): (r: Int32)
    ensures r * SliceSize <= c < r * SliceSize + SliceSize
  {
    ShrIsFloor(c, SliceShift);
    Shr(c, SliceShift)
  }

  /** World.sliceCoordFromRegionCoord: the first slice of region c (the
      product wraps around in 32 bits, as in Java). */
  function SliceCoordFromRegionCoord(d: Dims, c: Int32): (r: Int32)
    requires d.Valid()
    ensures -TwoTo31 <= c * d.RegionSize() < TwoTo31 ==> r == c * d.RegionSize()
  {
    Mul(c, d.RegionSize())
  }

  /** World.sliceCoordRelativeToRegionFromTileCoord */
  function SliceCoordRelativeToRegionFromTileCoord(d: Dims, c: Int32): (r: Int32)
    requires d.Valid()
    ensures 0 <= r < d.RegionSize()
  {
    SliceCoordRelativeToRegionFromSliceCoord(d, SliceCoordFromTileCoord(c))
  }

  /** World.sliceCoordRelativeToRegionFromSliceCoord */
  function SliceCoordRelativeToRegionFromSliceCoord(d: Dims, c: Int32): (r: Int32)
    requires d.Valid()
    ensures 0 <= r < d.RegionSize()
    ensures (c - r) % d.RegionSize() == 0
  {
    Mask(c, d.regionShift)
  }

  /** World.tileCoordFromSliceCoord: the first tile of slice c. */
  function TileCoordFromSliceCoord(c: Int32): (r: Int32)
    ensures -TwoTo31 <= c * SliceSize < TwoTo31 ==> r == c * SliceSize
  {
    Mul(c, SliceSize)
  }

  /** World.tileCoordFromRegionCoord: the first tile of region c. */
  function TileCoordFromRegionCoord(d: Dims, c: Int32): (r: Int32)
    requires d.Valid()
    ensures -TwoTo31 <= c * d.RegionSizeInTiles() < TwoTo31 ==> r == c * d.RegionSizeInTiles()
  {
    Mul(c, d.RegionSizeInTiles())
  }

  /** World.tileCoordRelativeToSliceFromTileCoord: lies in [0, 15] and is
      congruent to c modulo 16. */
  function TileCoordRelativeToSliceFromTileCoord(c: Int32): (r: Int32)
    ensures 0 <= r <= SliceSizeMinusOne
    ensures (c - r) % SliceSize == 0
  {
    Mask(c, SliceShift)
  }

  /** World.tileCoordRelativeToRegionFromTileCoord */
  function TileCoordRelativeToRegionFromTileCoord(d: Dims, c: Int32): (r: Int32)
    requires d.Valid()
    ensures 0 <= r < d.RegionSizeInTiles()
    ensures (c - r) % d.RegionSizeInTiles() == 0
  {
    Mask(c, d.TilesShift())
  }

  /** Java's `c & (2^k - 1)`: the low k bits of c, which is the
      non-negative remainder of c modulo 2^k. */
  function Mask(c: Int32, k: nat): (r: Int32)
    requires k <= 30
    ensures 0 <= r < Pow2(k)
    ensures (c - r) % Pow2(k) == 0
  {
    MaskIsMod(c, k);
    ModFacts(c, Pow2(k));
    BitAnd(c, PowInt(k) - 1)
  }

  /** Shifting right and back left, then adding the masked low bits, gives
      back c; no step overflows, because the rounded-down multiple lies
      between c - 2^k + 1 and c. */
  lemma ShiftMaskDecompose(c: Int32, k: nat)
    requires k <= 30
    ensures Add(Mul(Shr(c, k), PowInt(k)), Mask(c, k)) == c
  {
    var p := PowInt(k);
    MaskIsMod(c, k);
    ModFacts(c, p);
    var q := Shr(c, k);
    FloorMultipleInRange(c, k);
    assert Mul(q, p) == q * p;
  }

  /** The multiple of 2^k that c rounds down to is still a Java int. */
  lemma FloorMultipleInRange(c: Int32, k: nat)
    requires k <= 30
    ensures -TwoTo31 <= (c / Pow2(k)) * Pow2(k) <= c
  {
    var m := MinIntQuotient(k);
    FloorMultipleAbove(c, Pow2(k), m);
  }

  /** Rounding c down to a multiple of p never goes below a multiple m * p
      that is at most c. */
  lemma FloorMultipleAbove(c: int, p: int, m: int)
    requires p > 0 && m * p <= c
    ensures m * p <= (c / p) * p <= c
  {
    ModFacts(c, p);
    var q := c / p;
    if q < m {
      MulMonotone(q, m - 1, p);
      assert false;
    }
    MulMonotone(m, q, p);
  }

  /** -2^31 is the multiple m * 2^k of 2^k. */
  lemma MinIntQuotient(k: nat) returns (m: int)
    requires k <= 30
    ensures m * Pow2(k) == -TwoTo31
  {
    var a: int, b: int := Pow2(k), Pow2(31 - k);
    PowAdd(k, 31 - k);
    Pow2At30();
    assert a * b == TwoTo31;
    m := -b;
    NegMul(a, b);
  }

  lemma NegMul(a: int, b: int)
    ensures (-b) * a == -(a * b)
  {
  }

  lemma MulMonotone(a: int, b: int, p: int)
    requires a <= b && p >= 0
    ensures a * p <= b * p
  {
    assert b * p - a * p == (b - a) * p;
  }

  /** The slice a tile lies in, times 16, plus the tile's offset inside the
      slice, is the tile. */
  lemma SliceDecomposition(c: Int32)
    ensures Add(TileCoordFromSliceCoord(SliceCoordFromTileCoord(c)),
                TileCoordRelativeToSliceFromTileCoord(c)) == c
  {
    ShiftMaskDecompose(c, SliceShift);
  }

  /** The same decomposition of a tile coordinate into region and offset. */
  lemma RegionTileDecomposition(d: Dims, c: Int32)
    requires d.Valid()
    ensures Add(TileCoordFromRegionCoord(d, RegionCoordFromTileCoord(d, c)),
                TileCoordRelativeToRegionFromTileCoord(d, c)) == c
  {
    ShiftMaskDecompose(c, d.TilesShift());
  }

  /** The same decomposition of a slice coordinate into region and offset. */
  lemma RegionSliceDecomposition(d: Dims, s: Int32)
    requires d.Valid()
    ensures Add(SliceCoordFromRegionCoord(d, RegionCoordFromSliceCoord(d, s)),
                SliceCoordRelativeToRegionFromSliceCoord(d, s)) == s
  {
    ShiftMaskDecompose(s, d.regionShift);
  }

  /** The slice offset of a tile within its region is its tile offset within
      the region divided by 16: the two routes through slice space and
      through region-relative tile space agree. */
  lemma RelativeSliceFromRelativeTile(d: Dims, c: Int32)
    requires d.Valid()
    ensures SliceCoordRelativeToRegionFromTileCoord(d, c)
            == SliceCoordFromTileCoord(TileCoordRelativeToRegionFromTileCoord(d, c))
  {
    var R: int := Pow2(d.regionShift);
    var T: int := Pow2(d.TilesShift());
    PowAdd(d.regionShift, SliceShift);
    assert T == R * 16;
    var sl := SliceCoordFromTileCoord(c);
    assert sl == c / 16;
    MaskIsMod(sl, d.regionShift);
    assert SliceCoordRelativeToRegionFromTileCoord(d, c) == sl % R;
    MaskIsMod(c, d.TilesShift());
    var t := TileCoordRelativeToRegionFromTileCoord(d, c);
    assert t == c % T;
    assert SliceCoordFromTileCoord(t) == t / 16;
    NestedDivMod(c, R);
  }

  /** (c / 16) mod R == (c mod 16R) / 16 */
  lemma NestedDivMod(c: int, R: int)
    requires R > 0
    ensures (c / 16) % R == (c % (R * 16)) / 16
  {
    var T := R * 16;
    var s := c / 16;
    var b := s % R;
    var a := s / R;
    ModFacts(c, 16);
    ModFacts(s, R);
    assert c == T * a + (16 * b + c % 16) by {
      assert c == 16 * s + c % 16;
      assert s == R * a + b;
      assert 16 * s == 16 * (R * a) + 16 * b;
      assert 16 * (R * a) == T * a;
    }
    assert 16 * b + c % 16 < T by {
      assert b <= R - 1;
      assert 16 * b <= 16 * R - 16;
    }
    ModUnique(c, T, a, 16 * b + c % 16);
    ModUnique(c % T, 16, b, c % 16);
  }
}
